=== FILE: README.md ===
# A verified model of the quepeliveo catalogue core

quepeliveo is a web application. It shows which films and series have just
arrived on the streaming platforms available in Spain. Its core is made of
six parts:

- **The TMDb normaliser** turns a title's details into the application's
  `ContentItem`. Its steps:
  - keep only the supported Spanish providers;
  - resolve the Spanish release date by release-type preference;
  - fall back to the generic date;
  - drop films that have no date.
- **The content store** is a dictionary of stored records, held in the
  order they were inserted. Each record has the following:
  - availability;
  - the last-update time;
  - first-seen stamps, one per provider.

  It has these operations:
  - upsert;
  - mark unavailable;
  - clean up;
  - a family of queries: today's, this week's and this month's news, releases on a date, recent releases, by provider, by genre, top rated;
  - statistics.
- **The synchroniser** runs passes over the content types. Each pass:
  - crawls discover pages for each type;
  - stores every item it can normalise;
  - counts the items that are new and those that changed significantly;
  - marks the stored ids it did not see as unavailable;
  - prunes old unavailable records;
  - stamps the full-sync time.

  A call that arrives while a pass is running joins that pass.
- **The `useContent` hook's `loadContent`** selects, narrows, falls back,
  filters, sorts and truncates the list a page shows. Its `isDataStale`
  decides whether the store needs a new sync.
- **The explore filter state** has the following parts:
  - its updaters;
  - the presets;
  - its reflection into the URL query and back;
  - the page title derived from it.
- **The API-key format test.**

The model is split into these Dafny modules:

- `Base`: options, days and timestamps, filtering, slicing, number rendering.
- `Sorting`: the stable descending sort the services use.
- `Tmdb`: the normaliser.
- `ContentStorage`:
  - the value `Table`, which carries every store operation;
  - the `ContentStore` class, which updates the table in place.
- `ContentSync`:
  - the meaning of a pass as functions, with its invariants;
  - the `ContentSyncService` class, whose methods are proved equal to those functions.
- `UseContent`: `loadContent` and `isDataStale`.
- `ExploreFilters`: the filter state.
- `ApiKey`: the API-key test.

The clock, the remote catalogue and the browser's storage are parameters of
the model: it never reads them. A pass is given an `Environment` holding:

- the discover page returned for each type and page number;
- the details fetched for each result;
- the elapsed time read before each content type and each page;
- the pass's time.

Day numbers stand for `YYYY-MM-DD` strings and millisecond timestamps stand
for ISO instants. Both orders agree, so comparing days compares the strings
the source compares.

## Model

| member | source | states |
|---|---|---|
| Tmdb.KindName | src/services/tmdb.ts:414 | the type tag that prefixes an id: `movie` exactly for films, and it never ends in the `_` separator |
| Tmdb.IsProviderSupported | src/services/tmdb.ts:343-345 | true exactly for the seven supported providers 8, 119, 384, 337, 174, 149 and 350 |
| Tmdb.FindCountry | src/services/tmdb.ts:353 | the first entry with the country, as `find` gives it: no earlier entry has that country; none only when no entry has it |
| Tmdb.OfType | src/services/tmdb.ts:360-368 | the entries of one release type, keeping exactly those |
| Tmdb.TypeFrom | src/services/tmdb.ts:360-368 | the first preferred release type, from position `j` on, that some entry has; none only when no entry has any of them |
| Tmdb.Earliest | src/services/tmdb.ts:364-365 | an entry of the list whose date is no later than any other entry's |
| Tmdb.SpainReleaseDate | src/services/tmdb.ts:349-370 | no date exactly when no Spanish entry has an accepted type; otherwise the day of the earliest entry of the most preferred type present |
| Tmdb.NoPreferredType | src/services/tmdb.ts:356-358 | when the date is missing, no Spanish entry has an accepted type |
| Tmdb.PreferredType | src/services/tmdb.ts:360-368 | when the date is present, it is the earliest entry of the first preferred type found, and no earlier preferred type occurs |
| Tmdb.GetSpainReleaseDate | src/services/tmdb.ts:349-370 | the imperative lookup, with its preference loop, returns `SpainReleaseDate` |
| Tmdb.SpanishDates | src/services/tmdb.ts:353-354 | the loop that finds the `ES` entry yields the Spanish release dates (or none) |
| Tmdb.EarliestEntry | src/services/tmdb.ts:362-365 | the loop that picks the earliest entry returns `Earliest` |
| Tmdb.ProviderIdsOf | src/services/tmdb.ts:378-380 | the provider ids of a list, one per entry and in order |
| Tmdb.ReleaseOf | src/services/tmdb.ts:383-385 | a series takes its first-air date; a film takes the Spanish date when there is one and the generic date otherwise |
| Tmdb.GenreRefIds | src/services/tmdb.ts:403-407 | the ids of the genre objects: an id is listed exactly when some object carries it |
| Tmdb.GenresOf | src/services/tmdb.ts:403-407 | a non-empty `genre_ids` list is used as is; otherwise the ids of the `genres` objects |
| Tmdb.ProcessContentProviders | src/services/tmdb.ts:374-445 | a film is kept exactly when it has a date and either a supported provider or, if it has none, an upcoming date; a series is kept exactly when it has a supported provider. The kept item has the id, kind, filtered providers, date, genres and no first-seen stamps. It copies the title (a series takes its name), the overview, the poster and backdrop paths, the rating and the vote count. A film carries its runtime and no series fields; a series carries its season and episode counts and the first episode runtime (undefined when the list is missing or empty) |
| Tmdb.UpcomingAdmitted | src/services/tmdb.ts:391-399 | a dated film with no supported provider is kept exactly when its release is upcoming, and then with empty provider lists |
| Tmdb.NoSupportedEntries | src/services/tmdb.ts:378-380 | without a supported provider, filtering any of the provider lists leaves nothing |
| Tmdb.NormalisedProvidersSupported | src/services/tmdb.ts:378-380 | every provider of a normalised item is supported |
| Tmdb.SupportedIds | src/services/tmdb.ts:378-380 | filtering by `isProviderSupported` leaves only supported ids |
| Tmdb.ItemIdInjective | src/services/tmdb.ts:414 | distinct (type, TMDb id) pairs give distinct item ids |
| ContentStorage.MergedFirstSeen | src/services/contentStorage.ts:94-111 | the merge keeps every earlier stamp unchanged, stamps every listed provider that had none with `now`, and adds nothing else |
| ContentStorage.MergedFirstSeenIdempotent | src/services/contentStorage.ts:94-111 | merging a second time, at any later time, changes nothing |
| ContentStorage.MergeItem | src/services/contentStorage.ts:114-121 | the stored item is the new item spread over the old one: the new fields win, and an absent optional field of the new item keeps the old value; the merged first-seen map is attached |
| ContentStorage.CleanupKeepsAll | src/services/contentStorage.ts:294-306 | cleanup of a store with no expired record changes nothing |
| ContentStorage.RecordsOf | src/services/contentStorage.ts:136-142 | the stored records of a list of ids: every one comes from the store, and each stored id of the list contributes its record |
| ContentStorage.Table.SelectExact | src/services/contentStorage.ts:136-142 | a selection holds exactly the items of the records that satisfy its test, each under its own id |
| ContentStorage.Table.Select | src/services/contentStorage.ts:136-142 | `Object.values(...).filter(...)`: in a valid table, one item per stored record that passes the test |
| ContentStorage.Table.GetContentById | src/services/contentStorage.ts:25-27 | present exactly when the id is stored, and the record found carries that id |
| ContentStorage.Table.HasContent | src/services/contentStorage.ts:29-31 | true exactly when the id is among `getAllIds()` |
| ContentStorage.Table.GetAllIds | src/services/contentStorage.ts:33-35 | every stored id, exactly once |
| ContentStorage.Table.Upsert | src/services/contentStorage.ts:73-124 | a new id goes to the end of the order; the record becomes available and stamped `now`; other records are untouched. The stored item is `MergeItem` of the old item (if any) and the new one. A new item gets `now` for every provider; an existing one keeps its stamps and gets `now` for its new providers |
| ContentStorage.Table.MarkUnavailable | src/services/contentStorage.ts:127-133 | an unknown id changes nothing; a known one is marked unavailable at `now`, and nothing else changes |
| ContentStorage.Table.Cleanup | src/services/contentStorage.ts:294-306 | exactly the unexpired records are kept, unchanged, in order; every available record survives |
| ContentStorage.Table.AvailableContent | src/services/contentStorage.ts:136-142 | exactly the items of available records, except films that have no date |
| ContentStorage.Table.TodaysNews | src/services/contentStorage.ts:145-162 | exactly the available items whose release date is the given day |
| ContentStorage.Table.ThisWeekNews | src/services/contentStorage.ts:165-188 | exactly the available items whose release date lies in the 31 days from `today - 30` to `today`, both included |
| ContentStorage.Table.ThisMonthNews | src/services/contentStorage.ts:191-212 | exactly the available items first seen on some provider in the last thirty days, or else released in them; unlike `getAvailableContent`, a film without a date is not excluded when a provider listed it recently |
| ContentStorage.Table.ReleasesOnDate | src/services/contentStorage.ts:215-238 | only items released on the target day |
| ContentStorage.Table.ReleasesOnDateInStoreOrder | src/services/contentStorage.ts:215-238 | the releases on a date are the available records with that date, in store order |
| ContentStorage.Table.RecentReleases | src/services/contentStorage.ts:241-258 | available items already released, newest first. In a valid table the length is what `slice(0, limit)` leaves of all such records, each item is the stored one, and no released record left out is newer than one kept |
| ContentStorage.Table.ContentByProvider | src/services/contentStorage.ts:261-274 | exactly the available items offered by the provider under some access type |
| ContentStorage.Table.ContentByGenre | src/services/contentStorage.ts:286-291 | exactly the available items tagged with the genre |
| ContentStorage.Table.TopContent | src/services/contentStorage.ts:277-283 | available stored items, best rated first. In a valid table the length is what `slice(0, limit)` leaves of all available records, and no available record left out is rated above one kept |
| ContentStorage.Table.TopSelected | src/services/contentStorage.ts:241-283 | the top of a selection holds stored items that pass, and no passing record left out ranks above one kept |
| ContentStorage.Table.TopRated | src/services/contentStorage.ts:277-283 | no available record left out of `getTopContent` is rated above one kept |
| ContentStorage.Table.Counts | src/services/contentStorage.ts:322-336 | in a valid table, the total is the number of stored ids and the available count is the number of available records; the second never exceeds the first |
| ContentStorage.Table.KeysCount | src/services/contentStorage.ts:33-35 | the insertion order lists as many ids as the store holds |
| ContentStorage.AvailableCount | src/services/contentStorage.ts:322-336 | counting with the availability test counts the available records |
| ContentStorage.FilterRecordsCount | src/services/contentStorage.ts:136-142 | filtering the records of stored ids keeps as many as filtering the ids by the same test |
| ContentStorage.WalkState | src/services/contentStorage.ts:294-306 | after `i` steps of the cleanup loop, the order and the map are those of the first `i` ids kept |
| ContentStorage.WalkHas | src/services/contentStorage.ts:294-306 | the loop has not yet touched the record of the id it is about to visit |
| ContentStorage.WalkIsCleanup | src/services/contentStorage.ts:294-306 | the whole loop computes `Cleanup` |
| ContentStorage.CleanedStep | src/services/contentStorage.ts:298-303 | one more id either keeps its record or deletes it, and extends the kept order by that id exactly when kept |
| ContentStorage.UpsertMarkRoundTrip | src/services/contentStorage.ts:73-133 | an item marked unavailable leaves the available list; storing it again (with a date for a film) brings it back |
| ContentStorage.ContentStore.constructor | src/services/contentStorage.ts:20-22 | an empty store, without sync stamps |
| ContentStorage.ContentStore.AddContent | src/services/contentStorage.ts:73-124 | the store becomes `Upsert` of the old store and keeps its invariant; the sync stamps are unchanged |
| ContentStorage.ContentStore.StampProviders | src/services/contentStorage.ts:99-109 | the `forEach` that stamps providers computes `MergedFirstSeen` |
| ContentStorage.ContentStore.MarkAsUnavailable | src/services/contentStorage.ts:127-133 | the store becomes `MarkUnavailable` of the old store |
| ContentStorage.ContentStore.CleanupOldContent | src/services/contentStorage.ts:294-306 | the loop that deletes in place leaves `Cleanup` of the old store |
| ContentStorage.ContentStore.UpdateLastSync | src/services/contentStorage.ts:309-319 | with a non-empty provider id only that provider's stamp is set; otherwise the full-sync stamp is set; the content is unchanged |
| ContentStorage.ContentStore.GetStats | src/services/contentStorage.ts:322-336 | the total is the number of stored ids and the available count the number of available records; the stamps are reported as stored |
| ContentSync.DefaultProvidersSupported | src/services/contentSync.ts:24-32 | the synchroniser's provider list is exactly the normaliser's supported set |
| ContentSync.MaxPagesOf | src/services/contentSync.ts:58 | a given non-zero page count is used; a missing or zero count gives 10 |
| ContentSync.HasSignificantChanges | src/services/contentSync.ts:230-252 | true exactly when the provider id multisets differ, the rating moved by more than 0.1, or the vote count changed |
| ContentSync.WithFirstSeen | src/services/contentSync.ts:178-191 | a new item's stamps cover every provider it lists and keep the stamps it had |
| ContentSync.Processed | src/services/contentSync.ts:166-173 | a result whose details cannot be fetched yields nothing; otherwise the normaliser decides, and the item has the id built from the type and the TMDb id |
| ContentSync.Record | src/services/contentSync.ts:174-201 | one item appends its id to the found list, counts as new exactly when unstored and as updated exactly when stored and significantly changed, and leaves its record available at `now`; the table stays valid |
| ContentSync.FeedFound | src/services/contentSync.ts:157-206 | a page only appends to the found ids, at most one per result, and every result that yields an item has its id found |
| ContentSync.Visited | src/services/contentSync.ts:137-221 | the pages a crawl reads: consecutive numbers from the start page, each within `maxPages` and the time budget; every page but the last lets the crawl go on (a full page, or a failed page other than the first), and the crawl stops after the last |
| ContentSync.CrawlFromPages | src/services/contentSync.ts:137-221 | the crawl processes exactly the pages `Visited` lists, in order |
| ContentSync.FirstPageFailure | src/services/contentSync.ts:213-219 | when page 1 fails the crawl reads nothing more and returns its input unchanged |
| ContentSync.ShortPageEndsCrawl | src/services/contentSync.ts:209-211 | no page after a short one is read |
| ContentSync.FailedPageSkipped | src/services/contentSync.ts:213-219 | a failed page after the first is followed by the next one, when that one is within `maxPages` and the budget |
| ContentSync.FullPageContinues | src/services/contentSync.ts:151-211 | a full page is followed by the next one, under the same conditions |
| ContentSync.CrawlTypePages | src/services/contentSync.ts:127-224 | `syncContentType` reads pages 1, 2, ... none above `maxPages`, processing them in turn; a failed page 1 leaves the table as it was and finds nothing |
| ContentSync.SyncTypesErrors | src/services/contentSync.ts:66-90 | the loop over the content types adds at most the timeout message to the errors and only grows the found ids and counts |
| ContentSync.SyncTypesFindsNothing | src/services/contentSync.ts:73-90 | when every crawl finds nothing, the loop leaves the table, found ids and counts as they were |
| ContentSync.PassOf | src/services/contentSync.ts:34-120 | a pass reports no error but the timeout, removes no more ids than were stored, and keeps the table valid |
| ContentSync.FirstSeenStampRedundant | src/services/contentSync.ts:178-191 | stamping a new item before `addContent` stores exactly what `addContent` alone would store |
| ContentSync.MarkAll | src/services/contentSync.ts:93-97 | marking a list of ids makes exactly those stored records unavailable at `now` and leaves the rest |
| ContentSync.FeedOk | src/services/contentSync.ts:157-206 | processing a page keeps the crawl invariant: stored ids are the old ones plus those found, found ids are available, new ones are counted, and other records are untouched |
| ContentSync.CrawlOk | src/services/contentSync.ts:137-221 | the page loop keeps the crawl invariant |
| ContentSync.CrawlTypeOk | src/services/contentSync.ts:127-224 | a whole `syncContentType` satisfies the crawl invariant |
| ContentSync.SyncTypesOk | src/services/contentSync.ts:73-90 | the loop over the content types keeps the pass invariant |
| ContentSync.CrawledOk | src/services/contentSync.ts:62-90 | the per-type loop of a pass satisfies the pass invariant |
| ContentSync.PassReconciles | src/services/contentSync.ts:62-106 | after a pass, the stored ids are the old ones plus those found, found ones are available, and the unfound ones are marked at the pass's time. The new and removed counts are those of the found-but-new and the unfound ids; the total counts the shown items, all of them found |
| ContentSync.RemovedIds | src/services/contentSync.ts:93 | the removed list holds exactly the stored ids not found, each once |
| ContentSync.MarkedTable | src/services/contentSync.ts:93-101 | after marking, no record is old enough for the cleanup |
| ContentSync.DiscoverUndefinedFindsNothing | src/services/contentSync.ts:149 | as written, every page request fails: a pass finds nothing, counts nothing new, and counts every stored id as removed |
| ContentSync.DiscoverUndefinedMarksAll | src/services/contentSync.ts:93-101 | as written, a pass leaves every stored item unavailable |
| ContentSync.FailingCrawlsFindNothing | src/services/contentSync.ts:73-90 | when every page fails, the content-type loop finds nothing and counts nothing new |
| ContentSync.FirstPageFound | src/services/contentSync.ts:149-206 | with a recent-content query that answers, every result of page 1 that yields an item is among the ids found, whenever page 1 is read |
| ContentSync.FeedPagesKeepsFound | src/services/contentSync.ts:137-221 | reading further pages only appends to the found ids |
| ContentSync.ContentSyncService.constructor | src/services/contentSync.ts:20-32 | a service on the given store, with no pass in flight |
| ContentSync.ContentSyncService.ProcessPage | src/services/contentSync.ts:157-210 | the item loop leaves the store and counters equal to `Feed` |
| ContentSync.ContentSyncService.StoreItem | src/services/contentSync.ts:172-201 | one item leaves the store and counters equal to `Record` |
| ContentSync.ContentSyncService.SyncContentType | src/services/contentSync.ts:127-224 | the page loop leaves the store and counters equal to `CrawlType` |
| ContentSync.ContentSyncService.RunPass | src/services/contentSync.ts:53-106 | a pass leaves the store equal to `PassOf`, returns its result, and stamps the full sync at the pass's time |
| ContentSync.ContentSyncService.SyncTypesLoop | src/services/contentSync.ts:73-90 | the loop over the content types computes `Crawled`, a spent budget adding the timeout message |
| ContentSync.ContentSyncService.AddType | src/services/contentSync.ts:78-89 | one type's crawl adds its counts and ids to the pass |
| ContentSync.ContentSyncService.MarkRemoved | src/services/contentSync.ts:93-97 | marks each removed id and counts them |
| ContentSync.ContentSyncService.SyncAllContent | src/services/contentSync.ts:34-120 | a call during a pass joins it (or gets the busy error) and changes nothing; otherwise it runs `PassOf` and clears the flags |
| ContentSync.ContentSyncService.SyncProviderContent | src/services/contentSync.ts:255-260 | exactly `syncAllContent` with the provider list replaced by that single provider: joins or is rejected during a pass, otherwise the store becomes that pass's table and the pass's result is returned |
| ContentSync.ContentSyncService.IncrementalSync | src/services/contentSync.ts:273-279 | exactly `syncAllContent` with two pages per type, whatever page count the options gave |
| ContentSync.ContentSyncService.ForceFullSync | src/services/contentSync.ts:282-288 | exactly `syncAllContent` with ten pages per type and the force flag set |
| ContentSync.ContentSyncService.GetSyncStats | src/services/contentSync.ts:263-265 | the store's statistics: the stored and available counts and both sync stamps |
| ContentSync.ContentSyncService.IsCurrentlySyncing | src/services/contentSync.ts:268-270 | true exactly while a pass is in flight |
| UseContent.Timed | src/hooks/useContent.ts:73-92 | exactly the items passing the time window: released today; released in the last seven days; first seen or released in the last thirty days; or everything |
| UseContent.ByProvider | src/hooks/useContent.ts:95-104 | with a non-zero provider, exactly the items it offers under some access type; otherwise all |
| UseContent.ByGenre | src/hooks/useContent.ts:107-109 | with a non-zero genre, exactly the items tagged with it; otherwise all |
| UseContent.Narrowed | src/hooks/useContent.ts:57-109 | exactly the shown items matching the time window, the provider and the genre |
| UseContent.Fallback | src/hooks/useContent.ts:112-130 | the non-strict fallback is `getContentByProvider` when a provider is given (exactly the available items it offers), else `getContentByGenre` when a genre is given; otherwise this month's news for the week window when there are any, and all available items in every other case |
| UseContent.Candidates | src/hooks/useContent.ts:112-130 | strict queries, or queries with some match, keep the narrowed list: exactly the available items matching every criterion. Otherwise the fallback |
| UseContent.Finished | src/hooks/useContent.ts:133-143 | exactly the items of the requested type that are not undated films |
| UseContent.Ordered | src/hooks/useContent.ts:146-154 | a permutation of the items, best rated first or newest first; popularity keeps the order |
| UseContent.Limited | src/hooks/useContent.ts:157-159 | a positive limit keeps the first `min(limit, n)` items; otherwise all |
| UseContent.Shaped | src/hooks/useContent.ts:133-159 | the first `min(limit, n)` items (all `n` without a positive limit) of the sorted list of the dated items of the requested type |
| UseContent.Loaded | src/hooks/useContent.ts:54-168 | the candidates, filtered to dated items of the requested type, put in the requested order and cut to exactly `min(limit, n)` items (all without a positive limit) |
| UseContent.LoadContent | src/hooks/useContent.ts:54-168 | the imperative pipeline returns `Loaded` |
| UseContent.SelectCandidates | src/hooks/useContent.ts:57-130 | the narrowing and fallback steps return `Candidates` |
| UseContent.LoadedStrict | src/hooks/useContent.ts:112-113 | a strict query shows only shown items matching all its criteria |
| UseContent.LoadedProvider | src/hooks/useContent.ts:95-104 | a provider query shows only that provider's items, even after fallback |
| UseContent.LoadedGenre | src/hooks/useContent.ts:107-109 | a genre query without a provider shows only that genre's items, even after fallback |
| UseContent.LoadedToday | src/hooks/useContent.ts:73-75 | `today` shows only items released today |
| UseContent.LoadedWeek | src/hooks/useContent.ts:76-77 | the week window, unless it falls back, shows only items released in the last seven days |
| UseContent.LoadedWeekFallback | src/hooks/useContent.ts:120-127 | an empty non-strict week shows this month's news, shaped, when there are any, and otherwise all available items, shaped |
| UseContent.LoadedAll | src/hooks/useContent.ts:54-168 | with no filter and no limit, every shown item of the requested type is loaded |
| UseContent.IsDataStale | src/hooks/useContent.ts:301-312 | stale exactly when there is no full-sync stamp or more than 24 hours have passed since it |
| ExploreFilters.FieldsDetermine | src/hooks/useExploreFilters.ts:36-50 | two filter states that agree on every key are equal |
| ExploreFilters.UpdateFilter | src/hooks/useExploreFilters.ts:175-177 | the key gets the value and every other key is unchanged |
| ExploreFilters.Toggle | src/hooks/useExploreFilters.ts:179-186 | the value is present afterwards exactly when it was absent before; other values are unchanged |
| ExploreFilters.WithoutAbsent | src/hooks/useExploreFilters.ts:182-184 | removing an absent value changes nothing |
| ExploreFilters.ToggleTwiceAbsent | src/hooks/useExploreFilters.ts:179-186 | toggling an absent value twice restores the list |
| ExploreFilters.ToggleTwicePresent | src/hooks/useExploreFilters.ts:179-186 | toggling a present value twice keeps the same elements but moves it to the end |
| ExploreFilters.ToggleTwiceReorders | src/hooks/useExploreFilters.ts:179-186 | `["a","b"]` toggled twice on `"a"` becomes `["b","a"]` |
| ExploreFilters.ToggleArrayFilter | src/hooks/useExploreFilters.ts:179-186 | only the chosen list changes, by toggling the value |
| ExploreFilters.ResetFilters | src/hooks/useExploreFilters.ts:188-190 | every key takes its initial value, and the URL written from it is empty |
| ExploreFilters.RemoveFilter | src/hooks/useExploreFilters.ts:192-228 | an unknown kind changes nothing; a scalar returns to its initial value; a list loses the value; other keys are unchanged |
| ExploreFilters.RemoveWithoutValue | src/hooks/useExploreFilters.ts:196-208 | removing from a list without a value keeps the list (the undefined value is absent from it) |
| ExploreFilters.ReplaceFirst | src/hooks/useExploreFilters.ts:156-166 | on a string starting with the pattern, the rest after it |
| ExploreFilters.ApplyPreset | src/hooks/useExploreFilters.ts:125-173 | only the window, order, strictness and provider or genre change. Strict mode is on exactly for `novedades-hoy` and `novedades-semana`. `plataforma-X` and `genero-X` select X. Unknown presets give the initial state |
| ExploreFilters.Join | src/hooks/useExploreFilters.ts:103-116 | joining nothing gives the empty string and one part gives that part; otherwise the string starts with the first part and is as long as the parts plus one separator between each two |
| ExploreFilters.SplitJoin | src/hooks/useExploreFilters.ts:72-86 | splitting a join of separator-free parts gives the parts back |
| ExploreFilters.SplitNoSep | src/hooks/useExploreFilters.ts:72-86 | a string without the separator splits into itself |
| ExploreFilters.SplitPrefix | src/hooks/useExploreFilters.ts:72-86 | splitting distributes over a separated prefix |
| ExploreFilters.WriteUrl | src/hooks/useExploreFilters.ts:97-123 | a parameter is written exactly when its field differs from the initial value (or is non-empty), with the field's rendering; `preset` is never written |
| ExploreFilters.ReadUrl | src/hooks/useExploreFilters.ts:58-94 | a `preset` parameter gives that preset. Otherwise each text field takes its parameter when it is present and non-empty, and each list field takes the comma split of its parameter; absent or empty parameters keep the field, the other fields are kept, and no parameters change nothing |
| ExploreFilters.ListRoundTrip | src/hooks/useExploreFilters.ts:72-116 | a list of URL-safe entries survives the comma join and split |
| ExploreFilters.ParamWritten | src/hooks/useExploreFilters.ts:97-123 | the parameter read from the written URL is the rendering of a written field and empty otherwise |
| ExploreFilters.TextRoundTrip | src/hooks/useExploreFilters.ts:58-123 | a non-empty text field survives writing and reading |
| ExploreFilters.UrlRoundTrip | src/hooks/useExploreFilters.ts:58-123 | reading back the written URL restores every field the URL carries; duration, year, rating, country, language and strict mode return to their initial values |
| ExploreFilters.StrictPresetLostInUrl | src/hooks/useExploreFilters.ts:58-123 | the strict mode of `novedades-hoy` does not survive a round trip through the URL |
| ExploreFilters.WindowPart | src/hooks/useExploreFilters.ts:239-243 | the phrase for each time window (`hoy`, `semana`, `ultimos-30-dias`, `proximos-30-dias`); for any other window, the top-rated phrase when the order is `mejor-valoradas` and no phrase otherwise |
| ExploreFilters.TitleParts | src/hooks/useExploreFilters.ts:237-251 | one phrase for the time window (if any), with ` en <platform>` appended when exactly one platform is chosen, then `Género: <g>` when exactly one genre is chosen; every phrase is non-empty and starts with a capital |
| ExploreFilters.Title | src/hooks/useExploreFilters.ts:231-254 | a search query gives `Resultados para "q"` |
| ExploreFilters.TitleGeneric | src/hooks/useExploreFilters.ts:231-254 | the generic title appears exactly when there is no query and no phrase |
| ExploreFilters.TitleDropsPlatform | src/hooks/useExploreFilters.ts:245-247 | a single platform with no window and no genre gives the generic title |
| ApiKey.MatchesClassHex | src/utils/validateApiKey.ts:50 | the class under the case-insensitive flag is the decimal digits and `a`-`f` in either case |
| ApiKey.MatchesRunIff | src/utils/validateApiKey.ts:50 | the anchored run matches exactly the strings of that length made of the class |
| ApiKey.IsValidApiKeyFormat | src/utils/validateApiKey.ts:48-51 | true exactly for strings of length 32 whose every character is in the case-insensitive class |
| ApiKey.ValidIff | src/utils/validateApiKey.ts:48-51 | valid exactly for 32 hexadecimal digits in either case |
| ApiKey.WrongLengthRejected | src/utils/validateApiKey.ts:48-51 | any other length is rejected |
| ApiKey.NonHexRejected | src/utils/validateApiKey.ts:48-51 | a character outside the class is rejected wherever it stands |
| ApiKey.CaseInsensitive | src/utils/validateApiKey.ts:50 | a key and its upper-cased form get the same verdict |
| ApiKey.AcceptsExamples | src/utils/validateApiKey.ts:48-51 | thirty-two `a`s and thirty-two `F`s are valid |
| ApiKey.RejectsExamples | src/utils/validateApiKey.ts:48-51 | the empty string, thirty-one `a`s, and thirty-one `a`s followed by `g` are rejected |
| Sorting.SortDesc | src/services/contentStorage.ts:277-283 | the sort is a permutation into non-increasing key order |
| Sorting.SortDescTies | src/services/contentStorage.ts:277-283 | a list whose keys are all equal comes out of the sort unchanged |
| Sorting.SortDescStable | src/services/contentStorage.ts:277-283 | stability: the elements of any one key leave the sort in the order they came in |
| Sorting.InsertKeyed | src/services/contentStorage.ts:277-283 | inserting an element puts it ahead of the elements with its key and keeps their order |
| Sorting.SortedUnique | src/services/contentSync.ts:232-247 | two sorted permutations of the same numbers are equal, so comparing sorted lists compares multisets |
| Sorting.TopOf | src/services/contentStorage.ts:277-283 | `sort(...).slice(0, limit)`: the first elements of the sorted list, exactly as many as `slice` leaves (negative limits count from the end), sorted, and no element left out has a higher key than one kept |

## Left out

- Delays between pages and items are not modelled. They do not affect any result.
- Logging, and the `try`/`catch` around whole passes, are not modelled. A catch whose only possible failure is a network error is modelled as a failed fetch.
- The discover page, including the `discoverContent` top-up when fewer than 20 results come back, is one parameter per type and page. The as-written behaviour of the undefined `discoverRecentContent` call is that parameter failing on every page (see Findings).
- The model uses one `now` per pass. The source reads `new Date()` afresh for each item and for the final stamps.
- Concurrency and promise identity are not modelled. The service keeps the `isSyncing` and pending-pass flags, and a call made while they are set joins or is rejected. A pass itself runs to completion within one call, so no other call can interleave with it.
- A content type listed twice is crawled twice against the same catalogue answers.
- `HasSignificantChanges`: the rating is a real number, so JavaScript's floating-point subtraction and its rounding at the 0.1 threshold are not modelled.
- `HasSignificantChanges`: the source sorts provider ids as strings by default. The model sorts numerically. Both compare the same multisets, so the verdict is the same.
- Sorting is modelled on values, as a stable function. `Array.prototype.sort` works in place; there is no aliasing to observe.
- Time zones and the `Europe/Madrid` conversion are not modelled. `today` is a day number given by the caller, and a day is 86,400,000 ms, with no daylight-saving shifts.
- `localStorage` persistence (`loadFromStorage`, `saveToStorage`) and its JSON encoding are not part of this model.
- React state, effects and their ordering are not modelled. This covers `setFilters`, `setSearchParams`, `setLoading`, the midnight refresh timer and `syncContent`. The model's updaters return the new state.
- `forceSync` is carried in the options. No step of a pass reads it.
- `getDynamicSubtitle` is not modelled: it shows a mock count. The display lists `PLATFORMS` and `GENEROS`, and `showExtendedFilters`, are not modelled either; none of them holds logic.
- URL percent-encoding and serialisation to a string are not modelled. The URL is a map from parameter to text.
- `ApiKey.IsValidApiKeyFormat`: case folding is ASCII-only. No other character folds onto `a`-`f`.
- `validateTmdbApiKey`, the network check, is not part of this model.
- `useContent` has further wrappers (`useNews`, `useContentByProvider`, `useTopContent`, `useContentByGenre`) and `refreshContent`/`syncContent`. They only forward options to `loadContent` or to the synchroniser, and are not modelled separately.
- `UseContent.LoadedGenre`: genre is promised only when there is no provider filter. With both filters, the fallback keeps the provider and drops the genre.

## Findings

| source | as written | input that shows it | evidently intended | confidence | as-written member | corrected member |
|---|---|---|---|---|---|---|
| src/services/contentSync.ts:149 | every page is requested through `tmdbService.discoverRecentContent`, which the TMDb service does not define; the call throws, page 1 counts as failed and the crawl stops | any pass over a store with stored items: nothing is found and every stored item is marked unavailable | a recent-content discover query whose page-1 results are stored | not executed | ContentSync.DiscoverUndefinedFindsNothing | ContentSync.FirstPageFound |

=== FILE: api_key.dfy ===
/** The TMDb API-key format test: the pattern `^[a-f0-9]{32}$` with the
    case-insensitive flag, that is exactly 32 hexadecimal digits in either
    case and nothing else. */
module ApiKey {

  /** The length the pattern demands. */
  const KeyLength := 32

  /** The character class `[a-f0-9]` as written. */
  predicate InClass(c: char) {
    'a' <= c <= 'f' || '0' <= c <= '9'
  }

  /** ASCII lower-casing, the folding the case-insensitive flag applies to
      this class (no character outside ASCII folds onto `a`-`f`). */
  function Lower(c: char): char {
    if 'A' <= c <= 'Z' then (c as int + 32) as char else c
  }

  /** ASCII upper-casing. */
  function Upper(c: char): char {
    if 'a' <= c <= 'z' then (c as int - 32) as char else c
  }

  /** One character of the class under the case-insensitive flag. */
  predicate MatchesClass(c: char) {
    InClass(c) || InClass(Lower(c))
  }

  /** The class with the flag, spelled out: a decimal digit or a letter
      `a`-`f` in either case. */
  lemma MatchesClassHex(c: char)
    ensures MatchesClass(c) <==> c in "0123456789abcdefABCDEF"
  {
  }

  /** The anchored repetition `^[...]{n}$`: the whole string is a run of
      exactly `n` characters of the class. */
  predicate MatchesRun(s: string, n: nat)
    decreases n
  {
    if n == 0 then s == []
    else s != [] && MatchesClass(s[0]) && MatchesRun(s[1..], n - 1)
  }

  /** `isValidApiKeyFormat`: exactly `KeyLength` characters, each in the
      class under the case-insensitive flag. */
  predicate IsValidApiKeyFormat(key: string): (b: bool)
    ensures b <==> |key| == KeyLength && forall i :: 0 <= i < |key| ==> MatchesClass(key[i])
  {
    MatchesRunIff(key, KeyLength);
    MatchesRun(key, KeyLength)
  }

  /** The matcher accepts exactly the strings of length `n` whose every
      character is in the class. */
  lemma {:induction false} MatchesRunIff(s: string, n: nat)
    ensures MatchesRun(s, n) <==> |s| == n && forall i :: 0 <= i < |s| ==> MatchesClass(s[i])
    decreases n
  {
    if n > 0 && s != [] {
      MatchesRunIff(s[1..], n - 1);
      if |s| == n && forall i :: 0 <= i < |s| ==> MatchesClass(s[i]) {
        assert forall i :: 0 <= i < |s[1..]| ==> s[1..][i] == s[i + 1];
      }
      if MatchesRun(s, n) {
        forall i | 0 <= i < |s| ensures MatchesClass(s[i]) {
          if i > 0 {
            assert s[i] == s[1..][i - 1];
          }
        }
      }
    }
  }

  /** A valid key is 32 characters, each a hexadecimal digit in either
      case, and every such string is valid. */
  lemma ValidIff(key: string)
    ensures IsValidApiKeyFormat(key) <==> |key| == 32 && forall i :: 0 <= i < |key| ==> key[i] in "0123456789abcdefABCDEF"
  {
    MatchesRunIff(key, KeyLength);
    forall i | 0 <= i < |key| {
      MatchesClassHex(key[i]);
    }
  }

  /** Any other length is rejected, the empty string among them. */
  lemma WrongLengthRejected(key: string)
    requires |key| != 32
    ensures !IsValidApiKeyFormat(key)
  {
    MatchesRunIff(key, KeyLength);
  }

  /** A character outside the class, such as `g` or `-`, is rejected
      wherever it stands. */
  lemma NonHexRejected(key: string, i: int)
    requires 0 <= i < |key| && !MatchesClass(key[i])
    ensures !IsValidApiKeyFormat(key)
  {
    MatchesRunIff(key, KeyLength);
  }

  function UpperString(s: string): (r: string)
    ensures |r| == |s|
    ensures forall i :: 0 <= i < |s| ==> r[i] == Upper(s[i])
  {
    if s == [] then [] else [Upper(s[0])] + UpperString(s[1..])
  }

  /** The flag makes the test blind to case: a key and its upper-cased
      form get the same verdict. */
  lemma CaseInsensitive(key: string)
    ensures IsValidApiKeyFormat(UpperString(key)) <==> IsValidApiKeyFormat(key)
  {
    var u := UpperString(key);
    MatchesRunIff(key, KeyLength);
    MatchesRunIff(u, KeyLength);
    forall i | 0 <= i < |key| ensures MatchesClass(u[i]) <==> MatchesClass(key[i]) {
      MatchesClassHex(u[i]);
      MatchesClassHex(key[i]);
    }
  }

  /** `n` copies of one character. */
  function Repeat(c: char, n: nat): (r: string)
    ensures |r| == n && forall i :: 0 <= i < n ==> r[i] == c
  {
    seq(n, _ => c)
  }

  /** Thirty-two `a`s, or thirty-two `F`s, make a valid key. */
  lemma AcceptsExamples()
    ensures IsValidApiKeyFormat(Repeat('a', 32))
    ensures IsValidApiKeyFormat(Repeat('F', 32))
  {
    ValidIff(Repeat('a', 32));
    ValidIff(Repeat('F', 32));
  }

  /** The empty string, thirty-one `a`s and thirty-one `a`s followed by a
      `g` are rejected. */
  lemma RejectsExamples()
    ensures !IsValidApiKeyFormat("")
    ensures !IsValidApiKeyFormat(Repeat('a', 31))
    ensures !IsValidApiKeyFormat(Repeat('a', 31) + ['g'])
  {
    WrongLengthRejected("");
    WrongLengthRejected(Repeat('a', 31));
    NonHexRejected(Repeat('a', 31) + ['g'], 31);
  }
}

=== FILE: base.dfy ===
/** Vocabulary shared by the services: optional values, time points, and the
    list operations (filter, slice, decimal rendering) the TypeScript code
    gets from its runtime. */
module Base {

  datatype Option<T> = None | Some(value: T) {
    /** `x || default` for a value that is either missing or present. */
    function GetOr(default: T): T {
      if Some? then value else default
    }
  }

  /** Milliseconds since the Unix epoch, what `Date.getTime()` returns. */
  type Timestamp = int

  /** A calendar day counted from 1970-01-01. It stands for an ISO `YYYY-MM-DD`
      string: comparing two such strings lexicographically is comparing the
      day numbers. */
  type Day = int

  const HourMs: int := 1000 * 60 * 60
  const DayMs: int := 24 * HourMs

  /** `new Date("YYYY-MM-DD").getTime()`: midnight UTC of the day. */
  function DayStart(d: Day): Timestamp {
    d * DayMs
  }

  /** The first ten characters of a timestamp's ISO (UTC) string: its day. */
  function DayOf(t: Timestamp): (d: Day)
    ensures DayStart(d) <= t < DayStart(d) + DayMs
  {
    t / DayMs
  }

  function Min(a: int, b: int): int { if a <= b then a else b }
  function Max(a: int, b: int): int { if a <= b then b else a }

  /** `Array.prototype.filter`: the elements that satisfy `p`, in their order. */
  function Filter<T>(s: seq<T>, p: T -> bool): (r: seq<T>)
    ensures |r| <= |s|
    ensures forall x :: x in r ==> x in s && p(x)
    ensures forall x :: x in s && p(x) ==> x in r
  {
    if s == [] then []
    else (if p(s[0]) then [s[0]] else []) + Filter(s[1..], p)
  }

  /** Filtering never adds occurrences. */
  lemma {:induction false} FilterSubMultiset<T>(s: seq<T>, p: T -> bool)
    ensures multiset(Filter(s, p)) <= multiset(s)
  {
    if s != [] {
      FilterSubMultiset(s[1..], p);
      assert s == [s[0]] + s[1..];
    }
  }

  /** Filtering a sequence whose elements all pass keeps it whole. */
  lemma {:induction false} FilterAllPass<T>(s: seq<T>, p: T -> bool)
    requires forall x :: x in s ==> p(x)
    ensures Filter(s, p) == s
  {
    if s != [] {
      FilterAllPass(s[1..], p);
    }
  }

  /** Filtering a list extended by one element. */
  lemma {:induction false} FilterAppend<T>(s: seq<T>, x: T, p: T -> bool)
    ensures Filter(s + [x], p) == Filter(s, p) + (if p(x) then [x] else [])
  {
    if s == [] {
      assert [x][1..] == [];
    } else {
      assert (s + [x])[1..] == s[1..] + [x];
      FilterAppend(s[1..], x, p);
    }
  }

  /** `Array.prototype.slice(0, end)`: a negative end counts back from the
      length. */
  function SliceTo<T>(s: seq<T>, end: int): (r: seq<T>)
    ensures |r| == if end >= 0 then Min(end, |s|) else Max(0, |s| + end)
    ensures r == s[..|r|]
  {
    if end >= 0 then (if end < |s| then s[..end] else s)
    else if |s| + end > 0 then s[..|s| + end]
    else []
  }

  /** No element occurs twice (the key list of a JavaScript object). */
  predicate NoDup<T(==)>(s: seq<T>) {
    forall i, j :: 0 <= i < j < |s| ==> s[i] != s[j]
  }

  /** In a list without repetitions, the number of elements that pass a test
      is the size of the set of those elements. */
  lemma {:induction false} NoDupFilterCard<T>(s: seq<T>, p: T -> bool, picked: set<T>)
    requires NoDup(s)
    requires forall x :: x in picked <==> x in s && p(x)
    ensures |Filter(s, p)| == |picked|
  {
    if s == [] {
      assert picked == {};
    } else {
      var rest := s[1..];
      assert NoDup(rest) by {
        forall i, j | 0 <= i < j < |rest| ensures rest[i] != rest[j] {
          assert rest[i] == s[i + 1] && rest[j] == s[j + 1];
        }
      }
      var tail := set x | x in rest && p(x);
      NoDupFilterCard(rest, p, tail);
      assert s[0] !in rest by {
        forall k | 0 <= k < |rest| ensures rest[k] != s[0] {
          assert rest[k] == s[k + 1];
        }
      }
      assert s == [s[0]] + rest;
      if p(s[0]) {
        assert picked == {s[0]} + tail;
        assert s[0] !in tail;
      } else {
        assert picked == tail;
      }
    }
  }

  function DigitChar(d: int): char
    requires 0 <= d < 10
  {
    ('0' as int + d) as char
  }

  /** `n.toString()` for a non-negative integer. */
  function NatToString(n: nat): (s: string)
    ensures |s| >= 1
    ensures n < 10 <==> |s| == 1
    ensures forall k :: 0 <= k < |s| ==> '0' <= s[k] <= '9'
    decreases n
  {
    if n < 10 then [DigitChar(n)] else NatToString(n / 10) + [DigitChar(n % 10)]
  }

  /** `i.toString()` for any integer. */
  function IntToString(i: int): (s: string)
    ensures |s| >= 1
    ensures s[0] == '-' <==> i < 0
  {
    if i < 0 then "-" + NatToString(-i) else NatToString(i)
  }

  /** Distinct numbers have distinct decimal renderings. */
  lemma {:induction false} NatToStringInjective(a: nat, b: nat)
    requires NatToString(a) == NatToString(b)
    ensures a == b
    decreases a
  {
    var s := NatToString(a);
    if a >= 10 && b >= 10 {
      assert s[|s| - 1] == DigitChar(a % 10) == DigitChar(b % 10);
      assert NatToString(a / 10) == s[..|s| - 1] == NatToString(b / 10);
      NatToStringInjective(a / 10, b / 10);
    }
  }

  lemma IntToStringInjective(a: int, b: int)
    requires IntToString(a) == IntToString(b)
    ensures a == b
  {
    if a < 0 && b < 0 {
      assert NatToString(-a) == IntToString(a)[1..] == NatToString(-b);
      NatToStringInjective(-a, -b);
    } else if a >= 0 && b >= 0 {
      NatToStringInjective(a, b);
    }
  }
}

=== FILE: content_storage.dfy ===
/** The client-side content cache (`ContentStorageService`): a table from item
    id to stored record, kept in key-insertion order, plus the moments of the
    last full and per-provider syncs. The `Table` datatype gives the meaning
    of every operation; the `ContentStore` class performs the updates in
    place and is proved to follow it. */
module ContentStorage {
  import opened Base
  import opened Tmdb
  import opened Sorting

  /** An item as cached: the item plus when it was last touched and whether
      the last sync still saw it. */
  datatype StoredContent = StoredContent(item: ContentItem, lastUpdated: Timestamp, isAvailable: bool)

  /** `lastFullSync` `None` stands for the empty string the store starts with. */
  datatype Stats = Stats(totalContent: nat, availableContent: nat, lastFullSync: Option<Timestamp>,
                         providerLastSync: map<string, Timestamp>)

  /** The first-seen stamps of an item, `{}` when it has none. */
  function FirstSeenOf(x: ContentItem): map<int, Timestamp> {
    x.firstSeenAt.GetOr(map[])
  }

  /** `base` with a `now` stamp added for every provider in `providers` that
      has none yet, one provider after the other. Stamps already present are
      never overwritten. */
  function MergedFirstSeen(base: map<int, Timestamp>, providers: seq<int>, now: Timestamp): (m: map<int, Timestamp>)
    ensures forall p :: p in base ==> p in m && m[p] == base[p]
    ensures forall p :: p in providers ==> p in m
    ensures forall p :: p in m ==> p in base || (p in providers && m[p] == now)
  {
    if providers == [] then base
    else
      var rest := MergedFirstSeen(base, providers[..|providers| - 1], now);
      var p := providers[|providers| - 1];
      assert providers == providers[..|providers| - 1] + [p];
      if p in rest then rest else rest[p := now]
  }

  /** Stamping twice with the same providers changes nothing the second time,
      whatever the second clock reads. */
  lemma MergedFirstSeenIdempotent(base: map<int, Timestamp>, providers: seq<int>, now: Timestamp, later: Timestamp)
    ensures MergedFirstSeen(MergedFirstSeen(base, providers, now), providers, later) == MergedFirstSeen(base, providers, now)
  {
  }

  /** `r` is what a spread `{...old, ...new}` leaves under one optional key. */
  predicate Overlaid<T(==)>(before: Field<T>, after: Field<T>, r: Field<T>) {
    if after == Absent then r == before else r == after
  }

  /** `{...existing, ...item, firstSeenAt}`: the item's own keys win, the
      optional keys it lacks keep the existing record's values. */
  function MergeItem(existing: Option<ContentItem>, item: ContentItem, firstSeen: map<int, Timestamp>): (r: ContentItem)
    ensures r.(runtime := item.runtime, seasons := item.seasons, episodes := item.episodes,
               episodeRuntime := item.episodeRuntime, firstSeenAt := item.firstSeenAt) == item
    ensures existing.Some? ==>
              && Overlaid(existing.value.runtime, item.runtime, r.runtime)
              && Overlaid(existing.value.seasons, item.seasons, r.seasons)
              && Overlaid(existing.value.episodes, item.episodes, r.episodes)
              && Overlaid(existing.value.episodeRuntime, item.episodeRuntime, r.episodeRuntime)
    ensures existing.None? ==> r == item.(firstSeenAt := Some(firstSeen))
    ensures r.firstSeenAt == Some(firstSeen)
  {
    if existing.None? then item.(firstSeenAt := Some(firstSeen))
    else
      var e := existing.value;
      item.(runtime := if item.runtime == Absent then e.runtime else item.runtime,
            seasons := if item.seasons == Absent then e.seasons else item.seasons,
            episodes := if item.episodes == Absent then e.episodes else item.episodes,
            episodeRuntime := if item.episodeRuntime == Absent then e.episodeRuntime else item.episodeRuntime,
            firstSeenAt := Some(firstSeen))
  }

  /** The first-seen stamps an upsert starts from: the item's own for a new
      id, the stored record's for a known one (the item's are then ignored). */
  function FirstSeenBase(existing: Option<StoredContent>, item: ContentItem): map<int, Timestamp> {
    if existing.None? then FirstSeenOf(item) else FirstSeenOf(existing.value.item)
  }

  /** Expired: unavailable and last touched before the cutoff. */
  predicate Expired(rec: StoredContent, cutoff: Timestamp) {
    !rec.isAvailable && rec.lastUpdated < cutoff
  }

  /** A cleanup that finds nothing expired leaves the table as it is. */
  lemma CleanupKeepsAll(t: Table, daysToKeep: int, now: Timestamp)
    requires t.Valid()
    requires forall id :: id in t.content ==> !Expired(t.content[id], CutoffOf(daysToKeep, now))
    ensures t.Cleanup(daysToKeep, now) == t
  {
    FilterAllPass(t.order, KeepPred(t.content, CutoffOf(daysToKeep, now)));
  }

  /** The key test `cleanupOldContent` applies: keep unless expired. */
  function KeepPred(content: map<string, StoredContent>, cutoff: Timestamp): string -> bool {
    id => !(id in content && Expired(content[id], cutoff))
  }

  /** The records of the listed ids, in that order (`Object.values`). */
  function RecordsOf(ids: seq<string>, content: map<string, StoredContent>): (r: seq<StoredContent>)
    ensures |r| <= |ids|
    ensures forall rec :: rec in r ==> exists id :: id in ids && id in content && content[id] == rec
    ensures forall id :: id in ids && id in content ==> content[id] in r
  {
    if ids == [] then []
    else (if ids[0] in content then [content[ids[0]]] else []) + RecordsOf(ids[1..], content)
  }

  /** The records with their bookkeeping fields dropped. */
  function Items(rs: seq<StoredContent>): (r: seq<ContentItem>)
    ensures |r| == |rs|
    ensures forall i :: 0 <= i < |rs| ==> r[i] == rs[i].item
  {
    if rs == [] then [] else [rs[0].item] + Items(rs[1..])
  }

  /** Sort keys: `new Date(releaseDate || 0).getTime()` and `voteAverage`. */
  function DateKey(d: Option<Day>): real {
    if d.Some? then DayStart(d.value) as real else 0.0
  }
  function ItemDateKey(x: ContentItem): real { DateKey(x.releaseDate) }
  function ItemVoteKey(x: ContentItem): real { x.voteAverage }

  /** What `getAvailableContent` shows: available, and not a movie without a
      release date. */
  predicate Shown(rec: StoredContent) {
    rec.isAvailable && (rec.item.kind != Movie || rec.item.releaseDate.Some?)
  }

  /** Seen on some provider since `since`, or else released since then. */
  predicate SeenOrReleasedSince(x: ContentItem, since: Timestamp) {
    (exists p :: p in FirstSeenOf(x) && FirstSeenOf(x)[p] >= since)
    || (x.releaseDate.Some? && DayStart(x.releaseDate.value) >= since)
  }

  /** Lists some provider with the id in one of its buckets. */
  predicate HasProvider(x: ContentItem, providerId: int) {
    providerId in ProviderIds(x.providers)
  }

  datatype Table = Table(order: seq<string>, content: map<string, StoredContent>) {

    /** The key list holds each stored id once, and each record sits under
        its own item's id. */
    ghost predicate Valid() {
      && NoDup(order)
      && (forall id :: id in order <==> id in content)
      && (forall id :: id in content ==> content[id].item.id == id)
    }

    function Records(): seq<StoredContent> {
      RecordsOf(order, content)
    }

    /** How many stored records pass `keep`. */
    function CountWhere(keep: StoredContent -> bool): nat {
      |set id | id in content && keep(content[id])|
    }

    /** `Object.values(content).filter(keep).map(strip)`: in a valid table,
        one item for every stored record that passes. */
    function Select(keep: StoredContent -> bool): (r: seq<ContentItem>)
      ensures |r| <= |order|
      ensures Valid() ==> |r| == CountWhere(keep)
    {
      var f := Filter(Records(), keep);
      assert Valid() ==> |f| == CountWhere(keep) by {
        if Valid() {
          var picked := set id | id in content && keep(content[id]);
          FilterRecordsCount(order, content, keep);
          NoDupFilterCard(order, IdKeep(content, keep), picked);
        }
      }
      Items(f)
    }

    /** A selection holds only stored items whose records pass, and in a
        valid table exactly those. */
    lemma SelectExact(keep: StoredContent -> bool)
      ensures forall x :: x in Select(keep) ==> exists id :: id in content && content[id].item == x && keep(content[id])
      ensures Valid() ==> forall x :: x in Select(keep) ==> x.id in content && content[x.id].item == x && keep(content[x.id])
      ensures Valid() ==> forall id :: id in content ==> (content[id].item in Select(keep) <==> keep(content[id]))
    {
      var f := Filter(Records(), keep);
      forall x | x in Select(keep)
        ensures exists id :: id in content && content[id].item == x && keep(content[id])
      {
        var i :| 0 <= i < |f| && Select(keep)[i] == x;
        assert f[i] in f;
      }
      if Valid() {
        forall id | id in content && content[id].item in Select(keep)
          ensures keep(content[id])
        {
          var i :| 0 <= i < |f| && Select(keep)[i] == content[id].item;
          assert f[i] in f;
        }
        forall id | id in content && keep(content[id])
          ensures content[id].item in Select(keep)
        {
          var i :| 0 <= i < |f| && f[i] == content[id];
          assert Select(keep)[i] == content[id].item;
        }
      }
    }

    function GetContentById(id: string): (r: Option<StoredContent>)
      ensures r.Some? <==> id in content
      ensures Valid() && r.Some? ==> r.value.item.id == id
    {
      if id in content then Some(content[id]) else None
    }

    function HasContent(id: string): (b: bool)
      ensures Valid() ==> (b <==> id in GetAllIds())
    {
      id in content
    }

    function GetAllIds(): (r: seq<string>)
      ensures Valid() ==> NoDup(r) && forall id :: id in r <==> id in content
    {
      order
    }

    // -------------------------------------------------------------------
    // Transitions

    /** `addContent`: store the merged record under the item's id, available
        and stamped `now`, with first-seen stamps for all its providers. */
    function Upsert(item: ContentItem, now: Timestamp): (r: Table)
      ensures Valid() ==> r.Valid()
      ensures r.order == if item.id in content then order else order + [item.id]
      ensures r.content.Keys == content.Keys + {item.id}
      ensures forall id :: id in content && id != item.id ==> r.content[id] == content[id]
      ensures r.content[item.id].isAvailable && r.content[item.id].lastUpdated == now
      ensures r.content[item.id].item.id == item.id
      ensures r.content[item.id].item
              == MergeItem(if item.id in content then Some(content[item.id].item) else None, item,
                           FirstSeenOf(r.content[item.id].item))
      ensures forall p :: p in ProviderIds(item.providers) ==> p in FirstSeenOf(r.content[item.id].item)
      ensures item.id in content ==>
                var before, after := FirstSeenOf(content[item.id].item), FirstSeenOf(r.content[item.id].item);
                (forall p :: p in before ==> p in after && after[p] == before[p])
                && (forall p :: p in after ==> p in before || (p in ProviderIds(item.providers) && after[p] == now))
      ensures item.id !in content ==>
                var after := FirstSeenOf(r.content[item.id].item);
                (forall p :: p in FirstSeenOf(item) ==> p in after && after[p] == FirstSeenOf(item)[p])
                && (forall p :: p in after ==> p in FirstSeenOf(item) || (p in ProviderIds(item.providers) && after[p] == now))
    {
      var existing := GetContentById(item.id);
      var firstSeen := MergedFirstSeen(FirstSeenBase(existing, item), ProviderIds(item.providers), now);
      var merged := MergeItem(if existing.Some? then Some(existing.value.item) else None, item, firstSeen);
      var r := Table(if existing.Some? then order else order + [item.id],
                     content[item.id := StoredContent(merged, now, true)]);
      assert Valid() ==> r.Valid() by {
        if Valid() && existing.None? {
          assert forall k :: 0 <= k < |order| ==> order[k] in content;
        }
      }
      r
    }

    /** `markAsUnavailable`: a known id becomes unavailable and is stamped
        `now`, even if it already was unavailable; an unknown id changes
        nothing. */
    function MarkUnavailable(id: string, now: Timestamp): (r: Table)
      ensures Valid() ==> r.Valid()
      ensures id !in content ==> r == this
      ensures r.order == order && r.content.Keys == content.Keys
      ensures forall k :: k in content && k != id ==> r.content[k] == content[k]
      ensures id in content ==> r.content[id] == content[id].(isAvailable := false, lastUpdated := now)
    {
      if id in content then
        Table(order, content[id := content[id].(isAvailable := false, lastUpdated := now)])
      else this
    }

    /** `cleanupOldContent`: delete the records that are unavailable and were
        last touched more than `daysToKeep` days before `now`. */
    function Cleanup(daysToKeep: int, now: Timestamp): (r: Table)
      ensures Valid() ==> r.Valid()
      ensures Valid() ==> forall id :: id in r.content <==> id in content && !Expired(content[id], CutoffOf(daysToKeep, now))
      ensures forall id :: id in r.content ==> id in content && r.content[id] == content[id]
      ensures forall id :: id in content && content[id].isAvailable ==> id in r.content
    {
      var cutoff := CutoffOf(daysToKeep, now);
      var r := Table(Filter(order, KeepPred(content, cutoff)), Cleaned(content, order, cutoff));
      assert Valid() ==> r.Valid() by {
        if Valid() {
          FilterKeepsNoDup(order, KeepPred(content, cutoff));
        }
      }
      r
    }

    // -------------------------------------------------------------------
    // Getters

    /** `getAvailableContent`. */
    function AvailableContent(): (r: seq<ContentItem>)
      ensures forall x :: x in r ==> x.kind != Movie || x.releaseDate.Some?
      ensures Valid() ==> forall x :: x in r ==> x.id in content && content[x.id].item == x && Shown(content[x.id])
      ensures Valid() ==> forall id :: id in content ==> (content[id].item in r <==> Shown(content[id]))
    {
      SelectExact(Shown); Select(Shown)
    }

    /** `getTodaysNews`: available items released on `today`, the Madrid day. */
    function TodaysNews(today: Day): (r: seq<ContentItem>)
      ensures forall x :: x in r ==> x.releaseDate == Some(today)
      ensures Valid() ==> forall id :: id in content ==>
                (content[id].item in r <==> content[id].isAvailable && content[id].item.releaseDate == Some(today))
    {
      var keep := (rec: StoredContent) => rec.isAvailable && rec.item.releaseDate == Some(today);
      SelectExact(keep); Select(keep)
    }

    /** `getThisWeekNews`: despite its name, available items released in the
        31 days from `today - 30` to `today`. */
    function ThisWeekNews(today: Day): (r: seq<ContentItem>)
      ensures forall x :: x in r ==> x.releaseDate.Some? && today - 30 <= x.releaseDate.value <= today
      ensures Valid() ==> forall id :: id in content ==>
                (content[id].item in r <==> content[id].isAvailable && InWindow(content[id].item, today - 30, today))
    {
      var keep := (rec: StoredContent) => rec.isAvailable && InWindow(rec.item, today - 30, today);
      SelectExact(keep); Select(keep)
    }

    /** `getThisMonthNews`: available items first seen on some provider in the
        last 30 days, or else released in them. */
    function ThisMonthNews(now: Timestamp): (r: seq<ContentItem>)
      ensures forall x :: x in r ==> SeenOrReleasedSince(x, now - 30 * DayMs)
      ensures Valid() ==> forall id :: id in content ==>
                (content[id].item in r <==> content[id].isAvailable && SeenOrReleasedSince(content[id].item, now - 30 * DayMs))
    {
      var keep := (rec: StoredContent) => rec.isAvailable && SeenOrReleasedSince(rec.item, now - 30 * DayMs);
      SelectExact(keep); Select(keep)
    }

    /** `getReleasesOnDate`: available items released on `target`, sorted by
        release date (all equal, so the stable sort keeps store order). */
    function ReleasesOnDate(target: Day): (r: seq<ContentItem>)
      ensures forall x :: x in r ==> x.releaseDate == Some(target)
    {
      var keep := (rec: StoredContent) => rec.isAvailable && rec.item.releaseDate == Some(target);
      SelectExact(keep);
      SortDescMembers(Select(keep), ItemDateKey);
      SortDesc(Select(keep), ItemDateKey)
    }

    /** The date sort in `getReleasesOnDate` never reorders anything. */
    lemma {:induction false} ReleasesOnDateInStoreOrder(target: Day)
      ensures ReleasesOnDate(target) == Select((rec: StoredContent) => rec.isAvailable && rec.item.releaseDate == Some(target))
    {
      var keep := (rec: StoredContent) => rec.isAvailable && rec.item.releaseDate == Some(target);
      var s := Select(keep);
      SelectExact(keep);
      assert forall i :: 0 <= i < |s| ==> ItemDateKey(s[i]) == DateKey(Some(target)) by {
        forall i | 0 <= i < |s| ensures ItemDateKey(s[i]) == DateKey(Some(target)) {
          assert s[i] in s;
        }
      }
      SortDescTies(s, ItemDateKey);
    }

    /** `getRecentReleases(limit)`: available items already released at
        `now`, newest first, cut to `limit` as `slice(0, limit)` does. */
    function RecentReleases(limit: int, now: Timestamp): (r: seq<ContentItem>)
      ensures limit >= 0 ==> |r| <= limit
      ensures forall x :: x in r ==> x.releaseDate.Some? && DayStart(x.releaseDate.value) <= now
      ensures SortedDesc(r, ItemDateKey)
      ensures Valid() ==> |r| == SliceLength(limit, CountWhere(ReleasedBy(now)))
      ensures Valid() ==> forall x :: x in r ==> x.id in content && content[x.id].item == x && content[x.id].isAvailable
      ensures Valid() ==> forall id, x :: id in content && ReleasedBy(now)(content[id]) && content[id].item !in r && x in r
                            ==> ItemDateKey(content[id].item) <= ItemDateKey(x)
    {
      SelectExact(ReleasedBy(now));
      TopSelected(ReleasedBy(now), ItemDateKey, limit);
      TopOf(Select(ReleasedBy(now)), ItemDateKey, limit)
    }

    /** `getContentByProvider`: available items listing the provider. */
    function ContentByProvider(providerId: int): (r: seq<ContentItem>)
      ensures forall x :: x in r ==> HasProvider(x, providerId)
      ensures Valid() ==> forall id :: id in content ==>
                (content[id].item in r <==> content[id].isAvailable && HasProvider(content[id].item, providerId))
    {
      var keep := (rec: StoredContent) => rec.isAvailable && HasProvider(rec.item, providerId);
      SelectExact(keep); Select(keep)
    }

    /** `getContentByGenre`: available items tagged with the genre. */
    function ContentByGenre(genreId: int): (r: seq<ContentItem>)
      ensures forall x :: x in r ==> genreId in x.genres
      ensures Valid() ==> forall id :: id in content ==>
                (content[id].item in r <==> content[id].isAvailable && genreId in content[id].item.genres)
    {
      var keep := (rec: StoredContent) => rec.isAvailable && genreId in rec.item.genres;
      SelectExact(keep); Select(keep)
    }

    /** `getTopContent(limit)`: available items by non-increasing rating, cut
        to `limit`. */
    function TopContent(limit: int): (r: seq<ContentItem>)
      ensures limit >= 0 ==> |r| <= limit
      ensures SortedDesc(r, ItemVoteKey)
      ensures forall x :: x in r ==> exists id :: id in content && content[id].item == x && content[id].isAvailable
      ensures Valid() ==> forall x :: x in r ==> x.id in content && content[x.id].item == x && content[x.id].isAvailable
      ensures Valid() ==> |r| == SliceLength(limit, CountWhere(IsAvailable))
      ensures Valid() ==> forall id, x :: id in content && content[id].isAvailable && content[id].item !in r && x in r
                            ==> content[id].item.voteAverage <= x.voteAverage
    {
      SelectExact(IsAvailable);
      TopRated(limit);
      TopOf(Select(IsAvailable), ItemVoteKey, limit)
    }

    /** `TopSelected` for the rating order over the available records. */
    lemma TopRated(limit: int)
      ensures var r := TopOf(Select(IsAvailable), ItemVoteKey, limit);
        Valid() ==> forall id, x :: id in content && content[id].isAvailable && content[id].item !in r && x in r
                      ==> content[id].item.voteAverage <= x.voteAverage
    {
      var r := TopOf(Select(IsAvailable), ItemVoteKey, limit);
      TopSelected(IsAvailable, ItemVoteKey, limit);
      if Valid() {
        forall id, x | id in content && content[id].isAvailable && content[id].item !in r && x in r
          ensures content[id].item.voteAverage <= x.voteAverage
        {
          assert IsAvailable(content[id]);
          assert ItemVoteKey(content[id].item) <= ItemVoteKey(x);
        }
      }
    }

    /** The top of a selection holds stored items that pass, and no passing
        record left out ranks above one kept. */
    lemma TopSelected(keep: StoredContent -> bool, key: ContentItem -> real, limit: int)
      ensures Valid() ==> forall x :: x in TopOf(Select(keep), key, limit) ==>
                x.id in content && content[x.id].item == x && keep(content[x.id])
      ensures Valid() ==>
                forall id, x ::
                  (id in content && keep(content[id]) && content[id].item !in TopOf(Select(keep), key, limit)
                   && x in TopOf(Select(keep), key, limit)) ==> key(content[id].item) <= key(x)
    {
      SelectExact(keep);
      var s := Select(keep);
      var r := TopOf(s, key, limit);
      if Valid() {
        forall id, x | id in content && keep(content[id]) && content[id].item !in r && x in r
          ensures key(content[id].item) <= key(x)
        {
          assert content[id].item in s;
        }
      }
    }

    /** The figures `getStats` reports about the table: the number of stored
        records and the number of available ones. */
    function Counts(): (r: (nat, nat))
      ensures r.1 <= r.0
      ensures Valid() ==> r.0 == |content.Keys|
      ensures Valid() ==> r.1 == |set id | id in content && content[id].isAvailable|
    {
      var avail := Select(IsAvailable);
      AvailableCount(this);
      KeysCount(); (|order|, |avail|)
    }

    lemma KeysCount()
      ensures Valid() ==> |content.Keys| == |order|
    {
      if Valid() {
        NoDupSetCard(order);
        assert content.Keys == set id | id in order;
      }
    }

  }

  /** Counting with the named test is counting the available records. */
  lemma AvailableCount(t: Table)
    ensures t.CountWhere(IsAvailable) == |set id | id in t.content && t.content[id].isAvailable|
  {
    var keep := IsAvailable;
    var a := set id | id in t.content && keep(t.content[id]);
    var b := set id | id in t.content && t.content[id].isAvailable;
    assert t.CountWhere(keep) == |a|;
    assert a == b;
  }

  /** The length `slice(0, limit)` leaves of a list of `n` elements. */
  function SliceLength(limit: int, n: nat): nat {
    if limit >= 0 then Min(limit, n) else Max(0, n + limit)
  }

  predicate IsAvailable(rec: StoredContent) {
    rec.isAvailable
  }

  /** The `getRecentReleases` test: available and released by `now`. */
  function ReleasedBy(now: Timestamp): StoredContent -> bool {
    (rec: StoredContent) => rec.isAvailable && rec.item.releaseDate.Some? && DayStart(rec.item.releaseDate.value) <= now
  }

  /** The id test that matches a record test. */
  function IdKeep(c: map<string, StoredContent>, keep: StoredContent -> bool): string -> bool {
    id => id in c && keep(c[id])
  }

  /** Over ids that are all stored, picking records and picking ids agree
      in number. */
  lemma {:induction false} FilterRecordsCount(ids: seq<string>, c: map<string, StoredContent>, keep: StoredContent -> bool)
    requires forall id :: id in ids ==> id in c
    ensures |Filter(RecordsOf(ids, c), keep)| == |Filter(ids, IdKeep(c, keep))|
  {
    if ids != [] {
      var rest := RecordsOf(ids[1..], c);
      assert RecordsOf(ids, c) == [c[ids[0]]] + rest;
      assert ([c[ids[0]]] + rest)[1..] == rest;
      FilterRecordsCount(ids[1..], c, keep);
    }
  }

  /** The moment before which an unavailable record counts as old. */
  function CutoffOf(daysToKeep: int, now: Timestamp): Timestamp {
    now - daysToKeep * DayMs
  }

  /** The records left after deleting the expired ones among `ids`. */
  function Cleaned(c: map<string, StoredContent>, ids: seq<string>, cutoff: Timestamp): map<string, StoredContent> {
    map id | id in c && !(id in ids && Expired(c[id], cutoff)) :: c[id]
  }

  /** The kept keys and the remaining records after the cleanup walk has
      visited the first `i` keys. */
  ghost function Walk(c: map<string, StoredContent>, ids: seq<string>, i: nat, cutoff: Timestamp)
    : (seq<string>, map<string, StoredContent>)
    requires i <= |ids|
  {
    if i == 0 then ([], c)
    else
      var (kept, records) := Walk(c, ids, i - 1, cutoff);
      var id := ids[i - 1];
      if id in records && Expired(records[id], cutoff) then (kept, records - {id}) else (kept + [id], records)
  }

  lemma {:induction false} WalkState(c: map<string, StoredContent>, ids: seq<string>, i: nat, cutoff: Timestamp)
    requires i <= |ids| && NoDup(ids)
    requires forall id :: id in ids ==> id in c
    ensures Walk(c, ids, i, cutoff).0 == Filter(ids[..i], KeepPred(c, cutoff))
    ensures Walk(c, ids, i, cutoff).1 == Cleaned(c, ids[..i], cutoff)
  {
    if i == 0 {
      assert ids[..0] == [];
    } else {
      WalkState(c, ids, i - 1, cutoff);
      var id := ids[i - 1];
      assert id !in ids[..i - 1];
      assert ids[..i] == ids[..i - 1] + [id];
      CleanedStep(c, ids[..i - 1], id, cutoff);
    }
  }

  /** The next key of the walk still has its original record. */
  lemma WalkHas(c: map<string, StoredContent>, ids: seq<string>, i: nat, cutoff: Timestamp)
    requires i < |ids| && NoDup(ids)
    requires forall id :: id in ids ==> id in c
    ensures ids[i] in Walk(c, ids, i, cutoff).1 && Walk(c, ids, i, cutoff).1[ids[i]] == c[ids[i]]
  {
    WalkState(c, ids, i, cutoff);
    assert ids[i] !in ids[..i];
  }

  /** In a valid table, walking the whole key list is the cleanup. */
  lemma WalkIsCleanup(t: Table, daysToKeep: int, now: Timestamp)
    requires t.Valid()
    ensures Walk(t.content, t.order, |t.order|, CutoffOf(daysToKeep, now)).0 == t.Cleanup(daysToKeep, now).order
    ensures Walk(t.content, t.order, |t.order|, CutoffOf(daysToKeep, now)).1 == t.Cleanup(daysToKeep, now).content
  {
    WalkState(t.content, t.order, |t.order|, CutoffOf(daysToKeep, now));
    assert t.order[..|t.order|] == t.order;
  }

  /** One step of the cleanup walk, on the kept keys and on the records. */
  lemma CleanedStep(c: map<string, StoredContent>, ids: seq<string>, id: string, cutoff: Timestamp)
    requires id in c && id !in ids
    ensures id in Cleaned(c, ids, cutoff) && Cleaned(c, ids, cutoff)[id] == c[id]
    ensures Cleaned(c, ids + [id], cutoff) ==
              if Expired(c[id], cutoff) then Cleaned(c, ids, cutoff) - {id} else Cleaned(c, ids, cutoff)
    ensures Filter(ids + [id], KeepPred(c, cutoff)) ==
              Filter(ids, KeepPred(c, cutoff)) + if Expired(c[id], cutoff) then [] else [id]
  {
    CleanedMapStep(c, ids, id, cutoff);
    FilterAppend(ids, id, KeepPred(c, cutoff));
  }

  lemma CleanedMapStep(c: map<string, StoredContent>, ids: seq<string>, id: string, cutoff: Timestamp)
    requires id in c && id !in ids
    ensures Cleaned(c, ids + [id], cutoff) ==
              if Expired(c[id], cutoff) then Cleaned(c, ids, cutoff) - {id} else Cleaned(c, ids, cutoff)
  {
    var before, after := Cleaned(c, ids, cutoff), Cleaned(c, ids + [id], cutoff);
    var want := if Expired(c[id], cutoff) then before - {id} else before;
    forall k ensures k in after <==> k in want {
      assert k in ids + [id] <==> k in ids || k == id;
    }
    assert after.Keys == want.Keys;
  }

  /** Released within the days `from` to `to`, both included. */
  predicate InWindow(x: ContentItem, from: Day, to: Day) {
    x.releaseDate.Some? && from <= x.releaseDate.value <= to
  }

  lemma {:induction false} FilterKeepsNoDup<T>(s: seq<T>, p: T -> bool)
    requires NoDup(s)
    ensures NoDup(Filter(s, p))
  {
    if s != [] {
      var rest := s[1..];
      assert NoDup(rest) by {
        forall i, j | 0 <= i < j < |rest| ensures rest[i] != rest[j] {
          assert rest[i] == s[i + 1] && rest[j] == s[j + 1];
        }
      }
      FilterKeepsNoDup(rest, p);
      assert s[0] !in rest by {
        forall k | 0 <= k < |rest| ensures rest[k] != s[0] {
          assert rest[k] == s[k + 1];
        }
      }
    }
  }

  lemma {:induction false} NoDupSetCard<T>(s: seq<T>)
    requires NoDup(s)
    ensures |set x | x in s| == |s|
  {
    if s != [] {
      var rest := s[1..];
      assert NoDup(rest) by {
        forall i, j | 0 <= i < j < |rest| ensures rest[i] != rest[j] {
          assert rest[i] == s[i + 1] && rest[j] == s[j + 1];
        }
      }
      NoDupSetCard(rest);
      assert s[0] !in rest by {
        forall k | 0 <= k < |rest| ensures rest[k] != s[0] {
          assert rest[k] == s[k + 1];
        }
      }
      assert (set x | x in s) == {s[0]} + (set x | x in rest);
    }
  }

  /** Upsert, then mark unavailable: the id drops out of the available list;
      upserting it again brings it back unless it is a movie without a date. */
  lemma UpsertMarkRoundTrip(t: Table, item: ContentItem, again: ContentItem, now: Timestamp, later: Timestamp, last: Timestamp)
    requires t.Valid()
    requires again.id == item.id
    ensures forall x :: x in t.Upsert(item, now).MarkUnavailable(item.id, later).AvailableContent() ==> x.id != item.id
    ensures again.kind != Movie || again.releaseDate.Some? ==>
              exists x :: x in t.Upsert(item, now).MarkUnavailable(item.id, later).Upsert(again, last).AvailableContent()
                          && x.id == item.id
  {
    var t1 := t.Upsert(item, now).MarkUnavailable(item.id, later);
    var t2 := t1.Upsert(again, last);
    assert t2.content[item.id].item.kind == again.kind && t2.content[item.id].item.releaseDate == again.releaseDate;
  }

  // ---------------------------------------------------------------------
  // The service object

  class ContentStore {
    var order: seq<string>
    var content: map<string, StoredContent>
    var lastFullSync: Option<Timestamp>
    var providerLastSync: map<string, Timestamp>

    function Snapshot(): Table
      reads this
    {
      Table(order, content)
    }

    ghost predicate Valid()
      reads this
    {
      Snapshot().Valid()
    }

    /** An empty store that has never synced. */
    constructor()
      ensures Snapshot() == Table([], map[]) && Valid()
      ensures lastFullSync == None && providerLastSync == map[]
    {
      order := [];
      content := map[];
      lastFullSync := None;
      providerLastSync := map[];
    }

    /** `addContent(item)`: stamps every provider of the item that has no
        first-seen stamp yet, then stores the merged record. */
    method AddContent(item: ContentItem, now: Timestamp)
      modifies this
      ensures Snapshot() == old(Snapshot()).Upsert(item, now)
      ensures old(Valid()) ==> Valid()
      ensures lastFullSync == old(lastFullSync) && providerLastSync == old(providerLastSync)
    {
      var existing := if item.id in content then Some(content[item.id]) else None;
      var base := FirstSeenBase(existing, item);
      var firstSeen := StampProviders(base, ProviderIds(item.providers), now);
      var merged := MergeItem(if existing.Some? then Some(existing.value.item) else None, item, firstSeen);
      content := content[item.id := StoredContent(merged, now, true)];
      if existing.None? {
        order := order + [item.id];
      }
    }

    /** The `forEach` of `addContent`: give each provider without a stamp
        the stamp `now`. */
    static method StampProviders(base: map<int, Timestamp>, providers: seq<int>, now: Timestamp)
      returns (firstSeen: map<int, Timestamp>)
      ensures firstSeen == MergedFirstSeen(base, providers, now)
    {
      firstSeen := base;
      var i := 0;
      while i < |providers|
        invariant 0 <= i <= |providers|
        invariant firstSeen == MergedFirstSeen(base, providers[..i], now)
      {
        ghost var next := providers[..i + 1];
        assert next[..|next| - 1] == providers[..i] && next[|next| - 1] == providers[i];
        if providers[i] !in firstSeen {
          firstSeen := firstSeen[providers[i] := now];
        }
        i := i + 1;
      }
      assert providers[..i] == providers;
    }

    /** `markAsUnavailable(id)`. */
    method MarkAsUnavailable(id: string, now: Timestamp)
      modifies this
      ensures Snapshot() == old(Snapshot()).MarkUnavailable(id, now)
      ensures old(Valid()) ==> Valid()
      ensures lastFullSync == old(lastFullSync) && providerLastSync == old(providerLastSync)
    {
      if id in content {
        var rec := content[id];
        content := content[id := rec.(isAvailable := false)];
        content := content[id := content[id].(lastUpdated := now)];
      }
    }

    /** `cleanupOldContent(daysToKeep)`: walks the keys and deletes each
        expired record. */
    method CleanupOldContent(daysToKeep: int, now: Timestamp)
      requires Valid()
      modifies this
      ensures Snapshot() == old(Snapshot()).Cleanup(daysToKeep, now)
      ensures Valid()
      ensures lastFullSync == old(lastFullSync) && providerLastSync == old(providerLastSync)
    {
      var cutoff := CutoffOf(daysToKeep, now);
      var ids, start := order, content;
      ghost var snap := Snapshot();
      var kept: seq<string> := [];
      var records := start;
      var i := 0;
      while i < |ids|
        invariant 0 <= i <= |ids|
        invariant (kept, records) == Walk(start, ids, i, cutoff)
        invariant unchanged(this)
      {
        var id := ids[i];
        WalkHas(start, ids, i, cutoff);
        if !records[id].isAvailable && records[id].lastUpdated < cutoff {
          records := records - {id};
        } else {
          kept := kept + [id];
        }
        i := i + 1;
      }
      WalkIsCleanup(snap, daysToKeep, now);
      order, content := kept, records;
    }

    /** `updateLastSync(providerId?)`: a non-empty provider id stamps that
        provider; a missing or empty one stamps the full sync. */
    method UpdateLastSync(providerId: Option<string>, now: Timestamp)
      modifies this
      ensures providerId.Some? && providerId.value != "" ==>
                providerLastSync == old(providerLastSync)[providerId.value := now] && lastFullSync == old(lastFullSync)
      ensures !(providerId.Some? && providerId.value != "") ==>
                lastFullSync == Some(now) && providerLastSync == old(providerLastSync)
      ensures Snapshot() == old(Snapshot())
    {
      if providerId.Some? && providerId.value != "" {
        providerLastSync := providerLastSync[providerId.value := now];
      } else {
        lastFullSync := Some(now);
      }
    }

    /** `getStats`. */
    function GetStats(): (s: Stats)
      reads this
      ensures s.availableContent <= s.totalContent
      ensures Valid() ==> s.totalContent == |content.Keys|
      ensures Valid() ==> s.availableContent == |set id | id in content && content[id].isAvailable|
      ensures s.lastFullSync == lastFullSync && s.providerLastSync == providerLastSync
    {
      var c := Snapshot().Counts();
      Stats(c.0, c.1, lastFullSync, providerLastSync)
    }
  }
}

=== FILE: content_sync.dfy ===
/** The catalogue synchroniser (`ContentSyncService`): one pass crawls the
    discover pages of each content type, normalises and stores every item it
    can fetch, marks the stored ids it did not see as unavailable, prunes
    old unavailable records and stamps the full sync. Concurrent callers
    share the pass in flight.

    The remote catalogue and the clock are parameters (`Environment`): the
    page a discover query returns, the details of each result, and the
    elapsed time read before each content type and each page. */
module ContentSync {
  import opened Base
  import opened Tmdb
  import opened Sorting
  import opened ContentStorage

  /** `maxSyncDurationMs`: the budget of a pass and of each content type. */
  const MaxSyncDurationMs: int := 60000

  /** A discover page with fewer results than this is the last one. */
  const PageSize: int := 20

  /** `supportedProviders`: Netflix, Prime Video, Max, Disney+, Filmin,
      Movistar Plus+ and Apple TV+. */
  const DefaultProviders: seq<int> := [8, 119, 384, 337, 174, 149, 350]

  /** The pages crawled when the caller gives no (or a zero) page count. */
  const DefaultMaxPages: int := 10

  /** The days an unavailable record survives `cleanupOldContent()`. */
  const CleanupDays: int := 30

  const TimeoutMessage: string := "Sync timed out by max duration."
  const BusyMessage: string := "Sync already in progress"

  /** The synchroniser's own provider list is the normaliser's list. */
  lemma DefaultProvidersSupported()
    ensures forall p :: p in DefaultProviders <==> IsProviderSupported(p)
  {
  }

  // ---------------------------------------------------------------------
  // What the outside world answers

  /** The details request for one discover result. */
  datatype ItemFetch = DetailFailed | Detail(raw: RawDetail)

  /** One discover page: the recent-content query, completed by the
      provider query when it returned fewer than a page of results. */
  datatype PageFetch = PageFailed | Page(results: seq<ItemFetch>)

  /** `catalogue(kind, providers, page)` is what the discover queries return;
      `passClock(i)` is the time elapsed in the pass before the `i`-th content
      type, `pageClock(kind, page)` the time elapsed in that type's crawl
      before the page; `now` is the moment every stamp of the pass carries. */
  datatype Environment = Environment(
    catalogue: (ContentKind, seq<int>, int) -> PageFetch,
    now: Timestamp,
    passClock: int -> int,
    pageClock: (ContentKind, int) -> int)

  /** `SyncOptions`; `forceSync` is accepted but never read. */
  datatype SyncOptions = SyncOptions(
    providers: Option<seq<int>>,
    contentTypes: Option<seq<ContentKind>>,
    maxPages: Option<int>,
    forceSync: Option<bool>)

  datatype SyncResult = SyncResult(
    newContent: nat,
    updatedContent: nat,
    removedContent: nat,
    totalContent: nat,
    errors: seq<string>)

  /** What `syncAllContent` hands back: the pass already in flight, the
      "already in progress" error, or the result of a pass it ran. */
  datatype SyncOutcome = Joined | Rejected(error: string) | Completed(result: SyncResult)

  /** `options.providers || supportedProviders`: any given list, even an
      empty one, is used as is. */
  function ProvidersOf(options: SyncOptions): seq<int> {
    options.providers.GetOr(DefaultProviders)
  }

  function TypesOf(options: SyncOptions): seq<ContentKind> {
    options.contentTypes.GetOr([Movie, Tv])
  }

  /** `options.maxPages || 10`: zero counts as missing. */
  function MaxPagesOf(options: SyncOptions): (n: int)
    ensures options.maxPages.Some? && options.maxPages.value != 0 ==> n == options.maxPages.value
    ensures options.maxPages.None? || options.maxPages.value == 0 ==> n == DefaultMaxPages
  {
    if options.maxPages.None? || options.maxPages.value == 0 then DefaultMaxPages else options.maxPages.value
  }

  // ---------------------------------------------------------------------
  // Change detection

  function Abs(x: real): real {
    if x < 0.0 then -x else x
  }

  /** `hasSignificantChanges`: the two provider id lists differ once sorted,
      or the rating moved by more than 0.1, or the vote count changed. */
  function HasSignificantChanges(existing: ContentItem, updated: ContentItem): (b: bool)
    ensures b <==> multiset(ProviderIds(existing.providers)) != multiset(ProviderIds(updated.providers))
                   || Abs(existing.voteAverage - updated.voteAverage) > 0.1
                   || existing.voteCount != updated.voteCount
  {
    var before := SortDesc(ProviderIds(existing.providers), IntKey);
    var after := SortDesc(ProviderIds(updated.providers), IntKey);
    assert multiset(before) == multiset(after) ==> before == after by {
      if multiset(before) == multiset(after) {
        SortedUnique(before, after);
      }
    }
    if |before| != |after| then true
    else if before != after then true
    else if Abs(existing.voteAverage - updated.voteAverage) > 0.1 then true
    else existing.voteCount != updated.voteCount
  }

  // ---------------------------------------------------------------------
  // The meaning of a pass

  /** What a crawl has done so far: the table, the new and updated counts,
      and the ids it stored, in order. */
  datatype Tally = Tally(table: Table, newCount: nat, updatedCount: nat, found: seq<string>)

  /** The item a discover result yields: none when its details cannot be
      fetched or the normaliser rejects it. */
  function Processed(f: ItemFetch, kind: ContentKind, now: Timestamp): (r: Option<ContentItem>)
    ensures f.DetailFailed? ==> r.None?
    ensures f.Detail? ==> (r.Some? <==> ProcessContentProviders(f.raw, kind, now).Some?)
    ensures r.Some? ==> f.Detail? && r.value.id == ItemId(kind, f.raw.id) && r.value.kind == kind
  {
    if f.DetailFailed? then None else ProcessContentProviders(f.raw, kind, now)
  }

  /** Count and store one normalised item. A new item gets its first-seen
      stamps before it is stored; a known one counts as updated when it
      changed significantly. */
  function Record(t: Tally, item: ContentItem, now: Timestamp): (r: Tally)
    ensures r.found == t.found + [item.id]
    ensures r.newCount == t.newCount + if item.id in t.table.content then 0 else 1
    ensures r.updatedCount == t.updatedCount
              + if item.id in t.table.content && HasSignificantChanges(t.table.content[item.id].item, item) then 1 else 0
    ensures r.table.content.Keys == t.table.content.Keys + {item.id}
    ensures r.table.content[item.id].isAvailable && r.table.content[item.id].lastUpdated == now
    ensures t.table.Valid() ==> r.table.Valid()
  {
    var existing := t.table.GetContentById(item.id);
    var changed := existing.Some? && HasSignificantChanges(existing.value.item, item);
    Tally(t.table.Upsert(if existing.None? then WithFirstSeen(item, now) else item, now),
          t.newCount + (if existing.None? then 1 else 0),
          t.updatedCount + (if changed then 1 else 0),
          t.found + [item.id])
  }

  /** A new item's first-seen stamps: `now` for every provider it lists that
      has none yet. */
  function WithFirstSeen(item: ContentItem, now: Timestamp): (r: ContentItem)
    ensures r.id == item.id && r.providers == item.providers
    ensures forall p :: p in ProviderIds(item.providers) ==> p in FirstSeenOf(r)
    ensures forall p :: p in FirstSeenOf(item) ==> p in FirstSeenOf(r) && FirstSeenOf(r)[p] == FirstSeenOf(item)[p]
  {
    item.(firstSeenAt := Some(MergedFirstSeen(FirstSeenOf(item), ProviderIds(item.providers), now)))
  }

  /** Stamping a new item before storing it changes nothing: storing a new
      item stamps the same providers with the same time. */
  lemma {:induction false} FirstSeenStampRedundant(t: Table, item: ContentItem, now: Timestamp)
    requires item.id !in t.content
    ensures t.Upsert(WithFirstSeen(item, now), now) == t.Upsert(item, now)
  {
    MergedFirstSeenIdempotent(FirstSeenOf(item), ProviderIds(item.providers), now, now);
  }

  /** The results of one page, processed in order; a result that yields no
      item changes nothing. */
  function Feed(t: Tally, kind: ContentKind, rs: seq<ItemFetch>, now: Timestamp): Tally {
    if rs == [] then t
    else
      var before := Feed(t, kind, rs[..|rs| - 1], now);
      var item := Processed(rs[|rs| - 1], kind, now);
      if item.Some? then Record(before, item.value, now) else before
  }

  /** Processing a page only appends to the found ids, at most one per
      result, and every result that yields an item has its id found. */
  lemma {:induction false} FeedFound(t: Tally, kind: ContentKind, rs: seq<ItemFetch>, now: Timestamp)
    ensures var r := Feed(t, kind, rs, now);
      && t.found <= r.found && |r.found| <= |t.found| + |rs|
      && forall i :: 0 <= i < |rs| && Processed(rs[i], kind, now).Some? ==> Processed(rs[i], kind, now).value.id in r.found
  {
    if rs != [] {
      var init := rs[..|rs| - 1];
      FeedFound(t, kind, init, now);
      var before := Feed(t, kind, init, now);
      var r := Feed(t, kind, rs, now);
      assert t.found == before.found[..|t.found|];
      assert before.found <= r.found;
      assert t.found == r.found[..|t.found|];
      forall i | 0 <= i < |rs| && Processed(rs[i], kind, now).Some?
        ensures Processed(rs[i], kind, now).value.id in r.found
      {
        if i < |rs| - 1 {
          assert init[i] == rs[i];
          var id := Processed(rs[i], kind, now).value.id;
          var j :| 0 <= j < |before.found| && before.found[j] == id;
          assert r.found[j] == id;
        }
      }
    }
  }

  /** The crawl of `syncContentType` from page `page` on, where `clock(p)`
      is the time spent before page `p`, `fetch(p)` the page itself and
      `feed` the processing of its results: stop past `maxPages`, when the
      budget is spent, when the first page fails, or after a page shorter
      than `PageSize`; a later page that fails is skipped. */
  function CrawlFrom(t: Tally, page: int, maxPages: int, clock: int -> int, fetch: int -> PageFetch,
                     feed: (Tally, seq<ItemFetch>) -> Tally): Tally
    requires page >= 1
    decreases maxPages - page
  {
    if page > maxPages then t
    else if clock(page) > MaxSyncDurationMs then t
    else
      var f := fetch(page);
      if f.PageFailed? then
        if page == 1 then t else CrawlFrom(t, page + 1, maxPages, clock, fetch, feed)
      else
        var next := feed(t, f.results);
        if |f.results| < PageSize then next else CrawlFrom(next, page + 1, maxPages, clock, fetch, feed)
  }

  /** A crawl processes the pages it reads, in turn, and no others. */
  lemma {:induction false} CrawlFromPages(t: Tally, page: int, maxPages: int, clock: int -> int, fetch: int -> PageFetch,
                                          feed: (Tally, seq<ItemFetch>) -> Tally)
    requires page >= 1
    ensures CrawlFrom(t, page, maxPages, clock, fetch, feed) == FeedPages(t, Visited(page, maxPages, clock, fetch), fetch, feed)
    decreases maxPages - page
  {
    var pages := Visited(page, maxPages, clock, fetch);
    CrawlFromStep(t, page, maxPages, clock, fetch, feed);
    if Readable(page, maxPages, clock) {
      var next := FeedPage(t, fetch(page), feed);
      if Continues(page, fetch) {
        var rest := Visited(page + 1, maxPages, clock, fetch);
        CrawlFromPages(next, page + 1, maxPages, clock, fetch, feed);
        assert pages == [page] + rest;
        FeedPagesCons(t, page, rest, fetch, feed);
      } else {
        assert pages == [page] + [];
        FeedPagesCons(t, page, [], fetch, feed);
      }
    } else {
      assert pages == [];
    }
  }

  /** Reading a first page, then the rest. */
  lemma FeedPagesCons(t: Tally, p: int, rest: seq<int>, fetch: int -> PageFetch, feed: (Tally, seq<ItemFetch>) -> Tally)
    ensures FeedPages(t, [p] + rest, fetch, feed) == FeedPages(FeedPage(t, fetch(p), feed), rest, fetch, feed)
  {
    assert ([p] + rest)[1..] == rest;
  }

  /** One step of a crawl: an unread page ends it, a page that ends it is
      the last one processed, any other page is processed and the crawl
      goes on. */
  lemma CrawlFromStep(t: Tally, page: int, maxPages: int, clock: int -> int, fetch: int -> PageFetch,
                      feed: (Tally, seq<ItemFetch>) -> Tally)
    requires page >= 1
    ensures !Readable(page, maxPages, clock) ==> CrawlFrom(t, page, maxPages, clock, fetch, feed) == t
    ensures Readable(page, maxPages, clock) && !Continues(page, fetch) ==>
              CrawlFrom(t, page, maxPages, clock, fetch, feed) == FeedPage(t, fetch(page), feed)
    ensures Readable(page, maxPages, clock) && Continues(page, fetch) ==>
              CrawlFrom(t, page, maxPages, clock, fetch, feed)
              == CrawlFrom(FeedPage(t, fetch(page), feed), page + 1, maxPages, clock, fetch, feed)
  {
  }

  /** A crawl whose first page fails reads nothing more and changes nothing. */
  lemma FirstPageFailure(t: Tally, maxPages: int, clock: int -> int, fetch: int -> PageFetch,
                         feed: (Tally, seq<ItemFetch>) -> Tally)
    requires fetch(1).PageFailed?
    ensures |Visited(1, maxPages, clock, fetch)| <= 1
    ensures CrawlFrom(t, 1, maxPages, clock, fetch, feed) == t
  {
    var pages := Visited(1, maxPages, clock, fetch);
    if pages != [] {
      assert !Continues(1, fetch);
      assert pages == [1];
    } else {
      assert !Readable(1, maxPages, clock);
    }
  }

  /** No page after a short one is read. */
  lemma ShortPageEndsCrawl(page: int, maxPages: int, clock: int -> int, fetch: int -> PageFetch, p: int)
    requires page >= 1
    requires p in Visited(page, maxPages, clock, fetch)
    requires fetch(p).Page? && |fetch(p).results| < PageSize
    ensures forall q :: q in Visited(page, maxPages, clock, fetch) ==> q <= p
  {
    var pages := Visited(page, maxPages, clock, fetch);
    var i :| 0 <= i < |pages| && pages[i] == p;
    assert !Continues(p, fetch);
    assert i == |pages| - 1;
  }

  /** A failed page other than the first is skipped: the next page is read
      when it is within `maxPages` and the budget is not spent before it. */
  lemma FailedPageSkipped(page: int, maxPages: int, clock: int -> int, fetch: int -> PageFetch, p: int)
    requires page >= 1
    requires p in Visited(page, maxPages, clock, fetch)
    requires p > 1 && fetch(p).PageFailed?
    requires p + 1 <= maxPages && clock(p + 1) <= MaxSyncDurationMs
    ensures p + 1 in Visited(page, maxPages, clock, fetch)
  {
    var pages := Visited(page, maxPages, clock, fetch);
    var i :| 0 <= i < |pages| && pages[i] == p;
    assert Continues(p, fetch) && Readable(p + 1, maxPages, clock);
    assert i < |pages| - 1;
    assert pages[i + 1] == p + 1;
  }

  /** A full page is followed by the next one, under the same conditions. */
  lemma FullPageContinues(page: int, maxPages: int, clock: int -> int, fetch: int -> PageFetch, p: int)
    requires page >= 1
    requires p in Visited(page, maxPages, clock, fetch)
    requires fetch(p).Page? && |fetch(p).results| >= PageSize
    requires p + 1 <= maxPages && clock(p + 1) <= MaxSyncDurationMs
    ensures p + 1 in Visited(page, maxPages, clock, fetch)
  {
    var pages := Visited(page, maxPages, clock, fetch);
    var i :| 0 <= i < |pages| && pages[i] == p;
    assert Continues(p, fetch) && Readable(p + 1, maxPages, clock);
    assert i < |pages| - 1;
    assert pages[i + 1] == p + 1;
  }

  /** A page read lets the crawl go on: a page other than the first that
      failed, or a full page. */
  predicate Continues(page: int, fetch: int -> PageFetch) {
    if fetch(page).PageFailed? then page != 1 else |fetch(page).results| >= PageSize
  }

  /** Page `p` is read: it is within `maxPages` and the budget is not
      spent before it. */
  predicate Readable(p: int, maxPages: int, clock: int -> int) {
    p <= maxPages && clock(p) <= MaxSyncDurationMs
  }

  /** The crawl stops after page `p`: the page ends it, or the next page is
      not read. */
  predicate EndsAt(p: int, maxPages: int, clock: int -> int, fetch: int -> PageFetch) {
    !Continues(p, fetch) || !Readable(p + 1, maxPages, clock)
  }

  /** The pages a crawl from `page` reads, in order: consecutive numbers,
      each within `maxPages` and the time budget; every page but the last
      lets the crawl go on, and the crawl stops after the last one. */
  function Visited(page: int, maxPages: int, clock: int -> int, fetch: int -> PageFetch): (r: seq<int>)
    requires page >= 1
    ensures forall i :: 0 <= i < |r| ==> r[i] == page + i && Readable(r[i], maxPages, clock)
    ensures forall i :: 0 <= i < |r| - 1 ==> Continues(r[i], fetch)
    ensures |r| == 0 <==> !Readable(page, maxPages, clock)
    ensures |r| > 0 ==> EndsAt(r[|r| - 1], maxPages, clock, fetch)
    decreases maxPages - page
  {
    if !Readable(page, maxPages, clock) then []
    else if !Continues(page, fetch) then [page]
    else
      var rest := Visited(page + 1, maxPages, clock, fetch);
      var r := [page] + rest;
      assert forall i :: 1 <= i < |r| ==> r[i] == rest[i - 1];
      assert |rest| > 0 ==> r[|r| - 1] == rest[|rest| - 1];
      r
  }

  /** One page read: a failed page changes nothing. */
  function FeedPage(t: Tally, f: PageFetch, feed: (Tally, seq<ItemFetch>) -> Tally): Tally {
    if f.PageFailed? then t else feed(t, f.results)
  }

  /** The pages read in turn. */
  function FeedPages(t: Tally, pages: seq<int>, fetch: int -> PageFetch, feed: (Tally, seq<ItemFetch>) -> Tally): Tally
    decreases |pages|
  {
    if pages == [] then t else FeedPages(FeedPage(t, fetch(pages[0]), feed), pages[1..], fetch, feed)
  }

  /** `syncContentType(kind, providers, maxPages)` on table `table`. */
  function CrawlType(table: Table, kind: ContentKind, providers: seq<int>, maxPages: int, env: Environment): Tally {
    CrawlFrom(Tally(table, 0, 0, []), 1, maxPages, PageClock(env, kind), Fetcher(env, kind, providers), Feeder(kind, env.now))
  }

  /** A content type's crawl reads pages 1, 2, ... up to `maxPages` and
      processes them in turn; a failure of the first page leaves the table
      as it was, with nothing found. */
  lemma CrawlTypePages(table: Table, kind: ContentKind, providers: seq<int>, maxPages: int, env: Environment)
    ensures var pages := Visited(1, maxPages, PageClock(env, kind), Fetcher(env, kind, providers));
      && (forall i :: 0 <= i < |pages| ==> pages[i] == i + 1 && pages[i] <= maxPages)
      && CrawlType(table, kind, providers, maxPages, env)
         == FeedPages(Tally(table, 0, 0, []), pages, Fetcher(env, kind, providers), Feeder(kind, env.now))
    ensures env.catalogue(kind, providers, 1).PageFailed? ==> CrawlType(table, kind, providers, maxPages, env) == Tally(table, 0, 0, [])
  {
    var fetch := Fetcher(env, kind, providers);
    CrawlFromPages(Tally(table, 0, 0, []), 1, maxPages, PageClock(env, kind), fetch, Feeder(kind, env.now));
    if fetch(1).PageFailed? {
      FirstPageFailure(Tally(table, 0, 0, []), maxPages, PageClock(env, kind), fetch, Feeder(kind, env.now));
    }
  }

  function PageClock(env: Environment, kind: ContentKind): int -> int {
    p => env.pageClock(kind, p)
  }

  function Fetcher(env: Environment, kind: ContentKind, providers: seq<int>): int -> PageFetch {
    p => env.catalogue(kind, providers, p)
  }

  function Feeder(kind: ContentKind, now: Timestamp): (Tally, seq<ItemFetch>) -> Tally {
    (t, rs) => Feed(t, kind, rs, now)
  }

  /** The state of a pass between content types. */
  datatype PassState = PassState(table: Table, newCount: nat, updatedCount: nat, found: set<string>, errors: seq<string>)

  function Ids(s: seq<string>): set<string> {
    set id | id in s
  }

  /** The loop over the content types from the `i`-th on, where `clock(i)` is
      the time spent before the `i`-th type and `crawl` the per-type crawl:
      each type's counts and ids are added to the pass; a spent budget
      records the timeout and ends the loop. */
  function SyncTypes(s: PassState, types: seq<ContentKind>, i: nat, clock: int -> int,
                     crawl: (Table, ContentKind) -> Tally): PassState
    decreases |types| - i
  {
    if i >= |types| then s
    else if clock(i) > MaxSyncDurationMs then s.(errors := s.errors + [TimeoutMessage])
    else SyncTypes(Absorb(s, crawl(s.table, types[i])), types, i + 1, clock, crawl)
  }

  /** The loop over the content types adds at most the timeout message to
      the errors, and only adds to the found ids and the counts. */
  lemma {:induction false} SyncTypesErrors(s: PassState, types: seq<ContentKind>, i: nat, clock: int -> int,
                                           crawl: (Table, ContentKind) -> Tally)
    ensures var r := SyncTypes(s, types, i, clock, crawl);
      && (r.errors == s.errors || r.errors == s.errors + [TimeoutMessage])
      && s.found <= r.found && s.newCount <= r.newCount && s.updatedCount <= r.updatedCount
    decreases |types| - i
  {
    if i < |types| && clock(i) <= MaxSyncDurationMs {
      SyncTypesErrors(Absorb(s, crawl(s.table, types[i])), types, i + 1, clock, crawl);
    }
  }

  /** A loop whose every crawl finds nothing leaves the found ids and the
      counts as they were. */
  lemma {:induction false} SyncTypesFindsNothing(s: PassState, types: seq<ContentKind>, i: nat, clock: int -> int,
                                                 crawl: (Table, ContentKind) -> Tally)
    requires forall t: Table, k: ContentKind :: crawl(t, k) == Tally(t, 0, 0, [])
    ensures var r := SyncTypes(s, types, i, clock, crawl);
      r.found == s.found && r.newCount == s.newCount && r.updatedCount == s.updatedCount && r.table == s.table
    decreases |types| - i
  {
    if i < |types| && clock(i) <= MaxSyncDurationMs {
      var next := Absorb(s, crawl(s.table, types[i]));
      assert Ids([]) == {};
      assert next == s;
      SyncTypesFindsNothing(next, types, i + 1, clock, crawl);
    }
  }

  /** Adds one content type's crawl to the pass. */
  function Absorb(s: PassState, r: Tally): PassState {
    PassState(r.table, s.newCount + r.newCount, s.updatedCount + r.updatedCount, s.found + Ids(r.found), s.errors)
  }

  /** `markAsUnavailable` for each id, in order. */
  function MarkAll(t: Table, ids: seq<string>, now: Timestamp): (r: Table)
    ensures t.Valid() ==> r.Valid()
    ensures r.order == t.order && r.content.Keys == t.content.Keys
    ensures forall id :: id in t.content && id in ids ==> r.content[id] == t.content[id].(isAvailable := false, lastUpdated := now)
    ensures forall id :: id in t.content && id !in ids ==> r.content[id] == t.content[id]
  {
    if ids == [] then t
    else MarkAll(t, ids[..|ids| - 1], now).MarkUnavailable(ids[|ids| - 1], now)
  }

  function NotFound(found: set<string>): string -> bool {
    id => id !in found
  }

  /** The per-type loop of a pass from table `t0`. */
  function Crawled(t0: Table, options: SyncOptions, env: Environment): PassState {
    SyncTypes(PassState(t0, 0, 0, {}, []), TypesOf(options), 0, env.passClock, Crawler(options, env))
  }

  function Crawler(options: SyncOptions, env: Environment): (Table, ContentKind) -> Tally {
    (t, k) => CrawlType(t, k, ProvidersOf(options), MaxPagesOf(options), env)
  }

  /** The table a pass leaves and the result it reports. */
  datatype PassOutcome = PassOutcome(table: Table, result: SyncResult)

  /** One whole pass of `syncAllContent` from table `t0`: it reports no
      error but the timeout, and no more removed ids than `t0` stored. */
  function PassOf(t0: Table, options: SyncOptions, env: Environment): (r: PassOutcome)
    ensures r.result.errors == [] || r.result.errors == [TimeoutMessage]
    ensures r.result.removedContent <= |t0.order|
    ensures t0.Valid() ==> r.table.Valid()
  {
    var s := Crawled(t0, options, env);
    SyncTypesErrors(PassState(t0, 0, 0, {}, []), TypesOf(options), 0, env.passClock, Crawler(options, env));
    assert t0.Valid() ==> s.table.Valid() by {
      if t0.Valid() {
        CrawledOk(t0, options, env);
      }
    }
    var removed := Filter(t0.order, NotFound(s.found));
    var marked := MarkAll(s.table, removed, env.now);
    PassOutcome(marked.Cleanup(CleanupDays, env.now),
                SyncResult(s.newCount, s.updatedCount, |removed|, |marked.AvailableContent()|, s.errors))
  }

  // ---------------------------------------------------------------------
  // What a crawl keeps

  /** A crawl that started from `t0` has stored exactly the ids it found,
      left available every id it found or that was available before, and
      counted as new the found ids `t0` lacked. */
  ghost predicate TallyOk(t0: Table, t: Tally) {
    t.table.Valid() && Grown(t0, t.table, Ids(t.found), t.newCount) && Kept(t0, t.table, Ids(t.found))
  }

  /** `table` is `t0` with the ids `found` stored and available, `newCount`
      of them new. */
  ghost predicate Grown(t0: Table, table: Table, found: set<string>, newCount: nat) {
    && table.content.Keys == t0.content.Keys + found
    && found + AvailableIds(t0) <= AvailableIds(table)
    && newCount == |found - t0.content.Keys|
  }

  /** `table` keeps the records of `t0` whose ids are not in `found`. */
  ghost predicate Kept(t0: Table, table: Table, found: set<string>) {
    forall id :: id in t0.content && id !in found ==> id in table.content && table.content[id] == t0.content[id]
  }

  /** The ids whose records are available. */
  ghost function AvailableIds(t: Table): set<string> {
    set id | id in t.content && t.content[id].isAvailable
  }

  lemma RecordOk(t0: Table, t: Tally, item: ContentItem, now: Timestamp)
    requires TallyOk(t0, t)
    ensures TallyOk(t0, Record(t, item, now))
  {
    var x := if item.id in t.table.content then item else WithFirstSeen(item, now);
    UpsertOk(t0, t, x, now, Record(t, item, now));
  }

  /** Storing one found item keeps a crawl's invariant. */
  lemma UpsertOk(t0: Table, t: Tally, x: ContentItem, now: Timestamp, r: Tally)
    requires TallyOk(t0, t)
    requires r.table == t.table.Upsert(x, now) && r.found == t.found + [x.id]
    requires r.newCount == t.newCount + if x.id in t.table.content then 0 else 1
    ensures TallyOk(t0, r)
  {
    UpsertAvailable(t.table, x, now);
    TallyStep(t0, t, r, x.id);
  }

  /** The invariant step in terms of sets: the new table holds one more id,
      which is available. */
  lemma TallyStep(t0: Table, t: Tally, r: Tally, id: string)
    requires TallyOk(t0, t) && r.table.Valid()
    requires r.table.content.Keys == t.table.content.Keys + {id}
    requires AvailableIds(r.table) == AvailableIds(t.table) + {id}
    requires forall k :: k in t.table.content && k != id ==> r.table.content[k] == t.table.content[k]
    requires r.newCount == t.newCount + (if id in t.table.content then 0 else 1) && r.found == t.found + [id]
    ensures TallyOk(t0, r)
  {
    IdsAppend(t.found, id);
    GrownStep(t0, t.table, r.table, Ids(t.found), id, t.newCount);
    KeptStep(t0, t.table, r.table, Ids(t.found), id);
  }

  lemma KeptStep(t0: Table, table: Table, u: Table, found: set<string>, id: string)
    requires Kept(t0, table, found)
    requires forall k :: k in table.content && k != id ==> k in u.content && u.content[k] == table.content[k]
    ensures Kept(t0, u, found + {id})
  {
  }

  lemma GrownStep(t0: Table, table: Table, u: Table, found: set<string>, id: string, newCount: nat)
    requires Grown(t0, table, found, newCount)
    requires u.content.Keys == table.content.Keys + {id}
    requires AvailableIds(u) == AvailableIds(table) + {id}
    ensures Grown(t0, u, found + {id}, newCount + if id in table.content then 0 else 1)
  {
    GrowOne(t0.content.Keys, AvailableIds(t0), table.content.Keys, AvailableIds(table), found, id);
  }

  /** `GrownStep` on the key and availability sets alone. */
  lemma GrowOne<T>(k0: set<T>, a0: set<T>, k: set<T>, a: set<T>, f: set<T>, id: T)
    requires k == k0 + f && f + a0 <= a
    ensures k + {id} == k0 + (f + {id})
    ensures (f + {id}) + a0 <= a + {id}
    ensures |(f + {id}) - k0| == |f - k0| + if id in k then 0 else 1
  {
    CountStep(f, k0, k, id);
  }

  /** Finding `id` adds one to the new count exactly when the table lacked it. */
  lemma CountStep<T>(f: set<T>, k: set<T>, t: set<T>, id: T)
    requires t == k + f
    ensures |(f + {id}) - k| == |f - k| + if id in t then 0 else 1
  {
    CardUnionNew(f, {id}, k, t);
    if id !in t {
      assert {id} - t == {id};
    } else {
      assert {id} - t == {};
    }
  }

  /** An upsert makes its id available and leaves the others as they were. */
  lemma UpsertAvailable(t: Table, x: ContentItem, now: Timestamp)
    ensures AvailableIds(t.Upsert(x, now)) == AvailableIds(t) + {x.id}
  {
  }

  /** Adding ids `f` to the found set `s` adds to the new count exactly the
      ids of `f` not yet in the table `k + s`. */
  lemma CardUnionNew<T>(s: set<T>, f: set<T>, k: set<T>, t: set<T>)
    requires t == k + s
    ensures |(s + f) - k| == |s - k| + |f - t|
  {
    assert (s + f) - k == (s - k) + (f - t);
    assert (s - k) * (f - t) == {};
  }

  /** Storing one more id adds it to the found set; `TallyStep` needs the
      set form of `found + [id]`. */
  lemma IdsAppend(s: seq<string>, x: string)
    ensures Ids(s + [x]) == Ids(s) + {x}
  {
  }

  lemma {:induction false} FeedOk(t0: Table, t: Tally, kind: ContentKind, rs: seq<ItemFetch>, now: Timestamp)
    requires TallyOk(t0, t)
    ensures TallyOk(t0, Feed(t, kind, rs, now))
  {
    if rs != [] {
      FeedOk(t0, t, kind, rs[..|rs| - 1], now);
      var item := Processed(rs[|rs| - 1], kind, now);
      if item.Some? {
        RecordOk(t0, Feed(t, kind, rs[..|rs| - 1], now), item.value, now);
      }
    }
  }

  lemma {:induction false} CrawlOk(t0: Table, t: Tally, page: int, maxPages: int, clock: int -> int, fetch: int -> PageFetch,
                                   feed: (Tally, seq<ItemFetch>) -> Tally)
    requires page >= 1 && TallyOk(t0, t)
    requires forall u: Tally, rs: seq<ItemFetch> :: TallyOk(t0, u) ==> TallyOk(t0, feed(u, rs))
    ensures TallyOk(t0, CrawlFrom(t, page, maxPages, clock, fetch, feed))
    decreases maxPages - page
  {
    if page <= maxPages && clock(page) <= MaxSyncDurationMs {
      var f := fetch(page);
      if f.PageFailed? {
        if page != 1 {
          CrawlOk(t0, t, page + 1, maxPages, clock, fetch, feed);
        }
      } else if |f.results| >= PageSize {
        CrawlOk(t0, feed(t, f.results), page + 1, maxPages, clock, fetch, feed);
      }
    }
  }

  lemma CrawlTypeOk(table: Table, kind: ContentKind, providers: seq<int>, maxPages: int, env: Environment)
    requires table.Valid()
    ensures TallyOk(table, CrawlType(table, kind, providers, maxPages, env))
  {
    var feed := Feeder(kind, env.now);
    forall u: Tally, rs: seq<ItemFetch> | TallyOk(table, u) ensures TallyOk(table, feed(u, rs)) {
      FeedOk(table, u, kind, rs, env.now);
    }
    assert Ids([]) == {};
    CrawlOk(table, Tally(table, 0, 0, []), 1, maxPages, PageClock(env, kind), Fetcher(env, kind, providers), feed);
  }

  /** The pass-level counterpart of `TallyOk`. */
  ghost predicate PassOk(t0: Table, s: PassState) {
    s.table.Valid() && Grown(t0, s.table, s.found, s.newCount) && Kept(t0, s.table, s.found)
  }

  lemma {:induction false} SyncTypesOk(t0: Table, s: PassState, types: seq<ContentKind>, i: nat, clock: int -> int,
                                       crawl: (Table, ContentKind) -> Tally)
    requires PassOk(t0, s)
    requires forall t: Table, k: ContentKind :: t.Valid() ==> TallyOk(t, crawl(t, k))
    ensures PassOk(t0, SyncTypes(s, types, i, clock, crawl))
    decreases |types| - i
  {
    if i >= |types| {
      SyncTypesDone(s, types, i, clock, crawl);
    } else if clock(i) > MaxSyncDurationMs {
      SyncTypesTimeout(s, types, i, clock, crawl);
      PassOkErrors(t0, s, s.errors + [TimeoutMessage]);
    } else {
      var next := Absorb(s, crawl(s.table, types[i]));
      AbsorbOk(t0, s, crawl(s.table, types[i]));
      SyncTypesOk(t0, next, types, i + 1, clock, crawl);
      SyncTypesStep(s, types, i, clock, crawl);
      PassOkSame(t0, SyncTypes(next, types, i + 1, clock, crawl), SyncTypes(s, types, i, clock, crawl));
    }
  }

  /** The end of the content-type loop, as a fact `SyncTypesLoop` can cite
      after the loop without unfolding `SyncTypes` itself. */
  lemma SyncTypesDone(s: PassState, types: seq<ContentKind>, i: nat, clock: int -> int, crawl: (Table, ContentKind) -> Tally)
    requires i >= |types|
    ensures SyncTypes(s, types, i, clock, crawl) == s
  {
  }

  /** The budget check of the content-type loop, likewise. */
  lemma SyncTypesTimeout(s: PassState, types: seq<ContentKind>, i: nat, clock: int -> int, crawl: (Table, ContentKind) -> Tally)
    requires i < |types| && clock(i) > MaxSyncDurationMs
    ensures SyncTypes(s, types, i, clock, crawl) == s.(errors := s.errors + [TimeoutMessage])
  {
  }

  /** One round of the content-type loop. */
  lemma SyncTypesStep(s: PassState, types: seq<ContentKind>, i: nat, clock: int -> int, crawl: (Table, ContentKind) -> Tally)
    requires i < |types| && clock(i) <= MaxSyncDurationMs
    ensures SyncTypes(s, types, i, clock, crawl) == SyncTypes(Absorb(s, crawl(s.table, types[i])), types, i + 1, clock, crawl)
  {
  }

  /** `SyncTypesStep` for a state given field by field. */
  lemma SyncTypesAdvance(s: PassState, types: seq<ContentKind>, i: nat, clock: int -> int,
                         crawl: (Table, ContentKind) -> Tally, next: PassState)
    requires i < |types| && clock(i) <= MaxSyncDurationMs
    requires var r := crawl(s.table, types[i]);
      && next.table == r.table && next.newCount == s.newCount + r.newCount
      && next.updatedCount == s.updatedCount + r.updatedCount
      && next.found == s.found + Ids(r.found) && next.errors == s.errors
    ensures SyncTypes(next, types, i + 1, clock, crawl) == SyncTypes(s, types, i, clock, crawl)
  {
    SyncTypesStep(s, types, i, clock, crawl);
  }

  /** Carries the invariant across the equation `SyncTypesStep` gives,
      so that `SyncTypesOk` never unfolds `SyncTypes` in its own context. */
  lemma PassOkSame(t0: Table, a: PassState, b: PassState)
    requires PassOk(t0, a) && a == b
    ensures PassOk(t0, b)
  {
  }

  /** The invariant says nothing of the errors, so a timeout keeps it. */
  lemma PassOkErrors(t0: Table, s: PassState, errors: seq<string>)
    requires PassOk(t0, s)
    ensures PassOk(t0, s.(errors := errors))
  {
  }

  /** Adding one content type's crawl to the pass keeps the pass invariant. */
  lemma AbsorbOk(t0: Table, s: PassState, r: Tally)
    requires PassOk(t0, s) && TallyOk(s.table, r)
    ensures PassOk(t0, Absorb(s, r))
  {
    GrownTrans(t0, s.table, r.table, s.found, Ids(r.found), s.newCount, r.newCount);
    KeptTrans(t0, s.table, r.table, s.found, Ids(r.found));
  }

  lemma GrownTrans(t0: Table, a: Table, b: Table, f: set<string>, g: set<string>, n: nat, m: nat)
    requires Grown(t0, a, f, n) && Grown(a, b, g, m)
    ensures Grown(t0, b, f + g, n + m)
  {
    GrowMany(t0.content.Keys, AvailableIds(t0), a.content.Keys, AvailableIds(a), b.content.Keys, AvailableIds(b), f, g);
  }

  /** `GrownTrans` on the key and availability sets alone. */
  lemma GrowMany<T>(k0: set<T>, a0: set<T>, k1: set<T>, a1: set<T>, k2: set<T>, a2: set<T>, f: set<T>, g: set<T>)
    requires k1 == k0 + f && f + a0 <= a1
    requires k2 == k1 + g && g + a1 <= a2
    ensures k2 == k0 + (f + g)
    ensures (f + g) + a0 <= a2
    ensures |(f + g) - k0| == |f - k0| + |g - k1|
  {
    CardUnionNew(f, g, k0, k1);
  }

  lemma KeptTrans(t0: Table, a: Table, b: Table, f: set<string>, g: set<string>)
    requires Kept(t0, a, f) && Kept(a, b, g)
    ensures Kept(t0, b, f + g)
  {
  }

  lemma CrawledOk(t0: Table, options: SyncOptions, env: Environment)
    requires t0.Valid()
    ensures PassOk(t0, Crawled(t0, options, env))
  {
    var crawl := Crawler(options, env);
    forall t: Table, k: ContentKind | t.Valid() ensures TallyOk(t, crawl(t, k)) {
      CrawlTypeOk(t, k, ProvidersOf(options), MaxPagesOf(options), env);
    }
    assert {} - t0.content.Keys == {};
    SyncTypesOk(t0, PassState(t0, 0, 0, {}, []), TypesOf(options), 0, env.passClock, crawl);
  }

  /** What a pass leaves behind. Every id the table held or the crawl found is
      still stored (the cleanup at the end of a pass finds nothing to delete,
      since it only deletes records unavailable for thirty days); the found
      ids are available; every other id is marked unavailable at the pass's
      time with its record otherwise kept; the counts are those of the new
      and the no-longer-listed ids, and the total counts shown items that
      were all found by this pass. */
  lemma PassReconciles(t0: Table, options: SyncOptions, env: Environment)
    requires t0.Valid()
    ensures var s, out := Crawled(t0, options, env), PassOf(t0, options, env);
      && out.table.Valid()
      && out.table.content.Keys == t0.content.Keys + s.found
      && (forall id :: id in s.found ==> out.table.content[id].isAvailable)
      && (forall id :: id in t0.content && id !in s.found ==>
            out.table.content[id] == t0.content[id].(isAvailable := false, lastUpdated := env.now))
      && out.result.newContent == |s.found - t0.content.Keys|
      && out.result.removedContent == |t0.content.Keys - s.found|
      && out.result.totalContent == |out.table.AvailableContent()|
      && (forall x :: x in out.table.AvailableContent() ==> x.id in s.found)
      && out.result.errors == s.errors
  {
    var s := Crawled(t0, options, env);
    CrawledOk(t0, options, env);
    var removed := Filter(t0.order, NotFound(s.found));
    RemovedIds(t0, s.found);
    MarkedTable(t0, s, removed, env.now);
    var marked := MarkAll(s.table, removed, env.now);
    CleanupKeepsAll(marked, CleanupDays, env.now);
  }

  /** The ids `syncAllContent` marks: the stored ids the pass did not find. */
  lemma RemovedIds(t0: Table, found: set<string>)
    requires t0.Valid()
    ensures forall id :: id in Filter(t0.order, NotFound(found)) <==> id in t0.content && id !in found
    ensures |Filter(t0.order, NotFound(found))| == |t0.content.Keys - found|
  {
    NoDupFilterCard(t0.order, NotFound(found), t0.content.Keys - found);
  }

  /** Marking the unfound ids after the crawl: what each record becomes, and
      that none of them is old enough for the cleanup. */
  lemma MarkedTable(t0: Table, s: PassState, removed: seq<string>, now: Timestamp)
    requires PassOk(t0, s)
    requires forall id :: id in removed <==> id in t0.content && id !in s.found
    ensures var m := MarkAll(s.table, removed, now);
      && m.Valid()
      && m.content.Keys == t0.content.Keys + s.found
      && (forall id :: id in s.found ==> m.content[id].isAvailable)
      && (forall id :: id in t0.content && id !in s.found ==>
            m.content[id] == t0.content[id].(isAvailable := false, lastUpdated := now))
      && (forall x :: x in m.AvailableContent() ==> x.id in s.found)
      && (forall id :: id in m.content ==> !Expired(m.content[id], CutoffOf(CleanupDays, now)))
  {
    var m := MarkAll(s.table, removed, now);
    forall id | id in m.content ensures !Expired(m.content[id], CutoffOf(CleanupDays, now)) {
      if id !in s.found {
        assert id in removed;
      }
    }
  }

  // ---------------------------------------------------------------------
  // The recent-content query

  /** As written, every page of every crawl is requested through
      `discoverRecentContent`, which the TMDb service does not define: the
      call throws, the first page counts as failed and ends the crawl. A
      pass then finds nothing, counts nothing as new, and counts every
      stored item as removed. */
  lemma DiscoverUndefinedFindsNothing(t0: Table, options: SyncOptions, env: Environment)
    requires t0.Valid()
    requires forall k, ps, p :: env.catalogue(k, ps, p) == PageFailed
    ensures Crawled(t0, options, env).found == {}
    ensures PassOf(t0, options, env).result.newContent == 0
    ensures PassOf(t0, options, env).result.removedContent == |t0.content.Keys|
  {
    var s := Crawled(t0, options, env);
    FailingCrawlsFindNothing(t0, options, env);
    RemovedIds(t0, s.found);
    assert t0.content.Keys - s.found == t0.content.Keys;
  }

  /** As written, with `discoverRecentContent` undefined, a pass marks
      every stored item unavailable. */
  lemma DiscoverUndefinedMarksAll(t0: Table, options: SyncOptions, env: Environment)
    requires t0.Valid()
    requires forall k, ps, p :: env.catalogue(k, ps, p) == PageFailed
    ensures forall id :: id in t0.content ==>
              id in PassOf(t0, options, env).table.content && !PassOf(t0, options, env).table.content[id].isAvailable
  {
    var s := Crawled(t0, options, env);
    FailingCrawlsFindNothing(t0, options, env);
    CrawledOk(t0, options, env);
    var removed := Filter(t0.order, NotFound(s.found));
    RemovedIds(t0, s.found);
    MarkedTable(t0, s, removed, env.now);
    var marked := MarkAll(s.table, removed, env.now);
    CleanupKeepsAll(marked, CleanupDays, env.now);
    assert PassOf(t0, options, env).table == marked;
  }

  /** The content-type loop when every page fails: nothing found, nothing
      new. */
  lemma FailingCrawlsFindNothing(t0: Table, options: SyncOptions, env: Environment)
    requires forall k, ps, p :: env.catalogue(k, ps, p) == PageFailed
    ensures Crawled(t0, options, env).found == {} && Crawled(t0, options, env).newCount == 0
  {
    var crawl := Crawler(options, env);
    forall t: Table, k: ContentKind ensures crawl(t, k) == Tally(t, 0, 0, []) {
      CrawlTypePages(t, k, ProvidersOf(options), MaxPagesOf(options), env);
    }
    SyncTypesFindsNothing(PassState(t0, 0, 0, {}, []), TypesOf(options), 0, env.passClock, crawl);
  }

  /** With a recent-content query that answers, the first page's results
      are stored: every result of page 1 that yields an item is among the
      ids the crawl found, whenever page 1 is read at all. */
  lemma FirstPageFound(table: Table, kind: ContentKind, providers: seq<int>, maxPages: int, env: Environment,
                       rs: seq<ItemFetch>)
    requires maxPages >= 1 && env.pageClock(kind, 1) <= MaxSyncDurationMs
    requires env.catalogue(kind, providers, 1) == Page(rs)
    ensures forall i :: 0 <= i < |rs| && Processed(rs[i], kind, env.now).Some? ==>
              Processed(rs[i], kind, env.now).value.id in CrawlType(table, kind, providers, maxPages, env).found
  {
    var fetch, feed := Fetcher(env, kind, providers), Feeder(kind, env.now);
    var pages := Visited(1, maxPages, PageClock(env, kind), fetch);
    CrawlTypePages(table, kind, providers, maxPages, env);
    assert Readable(1, maxPages, PageClock(env, kind));
    assert pages[0] == 1;
    var first := Feed(Tally(table, 0, 0, []), kind, rs, env.now);
    FeedFound(Tally(table, 0, 0, []), kind, rs, env.now);
    assert FeedPage(Tally(table, 0, 0, []), fetch(1), feed) == first;
    var r := FeedPages(first, pages[1..], fetch, feed);
    assert CrawlType(table, kind, providers, maxPages, env) == r;
    FeedPagesKeepsFound(first, pages[1..], fetch, kind, env.now);
    forall i | 0 <= i < |rs| && Processed(rs[i], kind, env.now).Some?
      ensures Processed(rs[i], kind, env.now).value.id in r.found
    {
      var id := Processed(rs[i], kind, env.now).value.id;
      var j :| 0 <= j < |first.found| && first.found[j] == id;
      assert r.found[j] == id;
    }
  }

  /** Reading more pages only appends to the found ids. */
  lemma {:induction false} FeedPagesKeepsFound(t: Tally, pages: seq<int>, fetch: int -> PageFetch, kind: ContentKind, now: Timestamp)
    ensures t.found <= FeedPages(t, pages, fetch, Feeder(kind, now)).found
    decreases |pages|
  {
    if pages != [] {
      var f := fetch(pages[0]);
      var next := FeedPage(t, f, Feeder(kind, now));
      assert next == if f.PageFailed? then t else Feed(t, kind, f.results, now);
      if f.Page? {
        FeedFound(t, kind, f.results, now);
      }
      var last := FeedPages(next, pages[1..], fetch, Feeder(kind, now));
      FeedPagesKeepsFound(next, pages[1..], fetch, kind, now);
      assert t.found == next.found[..|t.found|] && next.found == last.found[..|next.found|];
      assert t.found == last.found[..|t.found|];
    }
  }

  // ---------------------------------------------------------------------
  // The service

  /** `ContentSyncService`: the store it writes to and the flags that keep
      a second pass from starting while one runs. A pass runs here from
      start to end within one call, so a call never finds the flags set
      unless its caller set them. */
  class ContentSyncService {
    var isSyncing: bool
    var hasPendingPass: bool
    const store: ContentStore

    constructor(store: ContentStore)
      ensures this.store == store && !isSyncing && !hasPendingPass
    {
      this.store := store;
      isSyncing := false;
      hasPendingPass := false;
    }

    /** The item loop of `syncContentType` over one page's results. */
    method ProcessPage(kind: ContentKind, results: seq<ItemFetch>, now: Timestamp,
                       newIn: nat, updatedIn: nat, foundIn: seq<string>)
      returns (newContent: nat, updatedContent: nat, found: seq<string>)
      modifies store
      ensures Tally(store.Snapshot(), newContent, updatedContent, found)
              == Feed(Tally(old(store.Snapshot()), newIn, updatedIn, foundIn), kind, results, now)
      ensures store.lastFullSync == old(store.lastFullSync) && store.providerLastSync == old(store.providerLastSync)
    {
      ghost var start := Tally(store.Snapshot(), newIn, updatedIn, foundIn);
      newContent, updatedContent, found := newIn, updatedIn, foundIn;
      var i := 0;
      while i < |results|
        invariant 0 <= i <= |results|
        invariant Tally(store.Snapshot(), newContent, updatedContent, found) == Feed(start, kind, results[..i], now)
        invariant store.lastFullSync == old(store.lastFullSync) && store.providerLastSync == old(store.providerLastSync)
      {
        FeedStep(start, kind, results, i, now);
        var processed := Processed(results[i], kind, now);
        if processed.Some? {
          newContent, updatedContent, found := StoreItem(processed.value, now, newContent, updatedContent, found);
        }
        i := i + 1;
      }
      assert results[..i] == results;
    }

    /** One processed item: count it as new or updated, stamp a new one, and
        store it. */
    method StoreItem(item: ContentItem, now: Timestamp, newIn: nat, updatedIn: nat, foundIn: seq<string>)
      returns (newContent: nat, updatedContent: nat, found: seq<string>)
      modifies store
      ensures Tally(store.Snapshot(), newContent, updatedContent, found)
              == Record(Tally(old(store.Snapshot()), newIn, updatedIn, foundIn), item, now)
      ensures store.lastFullSync == old(store.lastFullSync) && store.providerLastSync == old(store.providerLastSync)
    {
      ghost var t := Tally(store.Snapshot(), newIn, updatedIn, foundIn);
      ghost var expected := Record(t, item, now);
      newContent, updatedContent := newIn, updatedIn;
      var existing := store.Snapshot().GetContentById(item.id);
      var toStore := item;
      if existing.None? {
        newContent := newContent + 1;
        var firstSeen := ContentStore.StampProviders(FirstSeenOf(item), ProviderIds(item.providers), now);
        toStore := item.(firstSeenAt := Some(firstSeen));
        assert toStore == WithFirstSeen(item, now);
      } else if HasSignificantChanges(existing.value.item, item) {
        updatedContent := updatedContent + 1;
      }
      assert expected.table == t.table.Upsert(toStore, now);
      assert expected.newCount == newContent && expected.updatedCount == updatedContent;
      store.AddContent(toStore, now);
      found := foundIn + [item.id];
    }

    /** `syncContentType(kind, providers, maxPages)`. */
    method SyncContentType(kind: ContentKind, providers: seq<int>, maxPages: int, env: Environment)
      returns (found: seq<string>, newContent: nat, updatedContent: nat)
      modifies store
      ensures Tally(store.Snapshot(), newContent, updatedContent, found)
              == CrawlType(old(store.Snapshot()), kind, providers, maxPages, env)
      ensures store.lastFullSync == old(store.lastFullSync) && store.providerLastSync == old(store.providerLastSync)
    {
      ghost var clock, fetch, feed := PageClock(env, kind), Fetcher(env, kind, providers), Feeder(kind, env.now);
      found, newContent, updatedContent := [], 0, 0;
      var page := 1;
      while page <= maxPages
        invariant page >= 1
        invariant CrawlFrom(Tally(store.Snapshot(), newContent, updatedContent, found), page, maxPages, clock, fetch, feed)
                  == CrawlType(old(store.Snapshot()), kind, providers, maxPages, env)
        invariant store.lastFullSync == old(store.lastFullSync) && store.providerLastSync == old(store.providerLastSync)
        decreases maxPages - page
      {
        ghost var before := Tally(store.Snapshot(), newContent, updatedContent, found);
        CrawlFromStep(before, page, maxPages, clock, fetch, feed);
        if env.pageClock(kind, page) > MaxSyncDurationMs {
          assert !Readable(page, maxPages, clock);
          break;
        }
        assert Readable(page, maxPages, clock);
        var response := env.catalogue(kind, providers, page);
        assert fetch(page) == response;
        if response.PageFailed? {
          assert FeedPage(before, response, feed) == before;
          if page == 1 {
            break;
          }
        } else {
          newContent, updatedContent, found := ProcessPage(kind, response.results, env.now, newContent, updatedContent, found);
          assert Tally(store.Snapshot(), newContent, updatedContent, found) == FeedPage(before, response, feed);
          if |response.results| < PageSize {
            break;
          }
        }
        page := page + 1;
      }
      CrawlFromStep(Tally(store.Snapshot(), newContent, updatedContent, found), page, maxPages, clock, fetch, feed);
    }

    /** The body of one pass of `syncAllContent`: the per-type loop, the
        marking of the ids not found, the total, the cleanup and the
        full-sync stamp. */
    method RunPass(options: SyncOptions, env: Environment) returns (result: SyncResult)
      requires store.Valid()
      modifies store
      ensures store.Snapshot() == PassOf(old(store.Snapshot()), options, env).table
      ensures result == PassOf(old(store.Snapshot()), options, env).result
      ensures store.Valid()
      ensures store.lastFullSync == Some(env.now) && store.providerLastSync == old(store.providerLastSync)
    {
      ghost var t0 := store.Snapshot();
      var currentIds := store.Snapshot().GetAllIds();
      var newContent, updatedContent, found, errors := SyncTypesLoop(options, env);
      CrawledOk(t0, options, env);
      var removed := Filter(currentIds, NotFound(found));
      var removedContent := MarkRemoved(removed, env.now);
      var totalContent := |store.Snapshot().AvailableContent()|;
      store.CleanupOldContent(CleanupDays, env.now);
      store.UpdateLastSync(None, env.now);
      result := SyncResult(newContent, updatedContent, removedContent, totalContent, errors);
    }

    /** The loop of `syncAllContent` over the content types. */
    method SyncTypesLoop(options: SyncOptions, env: Environment)
      returns (newContent: nat, updatedContent: nat, found: set<string>, errors: seq<string>)
      modifies store
      ensures PassState(store.Snapshot(), newContent, updatedContent, found, errors) == Crawled(old(store.Snapshot()), options, env)
      ensures store.providerLastSync == old(store.providerLastSync)
    {
      var types := TypesOf(options);
      ghost var t0 := store.Snapshot();
      ghost var crawl := Crawler(options, env);
      found, newContent, updatedContent, errors := {}, 0, 0, [];
      var i := 0;
      while i < |types| && env.passClock(i) <= MaxSyncDurationMs
        invariant i <= |types|
        invariant SyncTypes(PassState(store.Snapshot(), newContent, updatedContent, found, errors), types, i, env.passClock, crawl)
                  == Crawled(t0, options, env)
        invariant store.providerLastSync == old(store.providerLastSync)
      {
        ghost var before := PassState(store.Snapshot(), newContent, updatedContent, found, errors);
        newContent, updatedContent, found := AddType(types[i], options, env, newContent, updatedContent, found);
        SyncTypesAdvance(before, types, i, env.passClock, crawl,
                         PassState(store.Snapshot(), newContent, updatedContent, found, errors));
        i := i + 1;
      }
      if i < |types| {
        SyncTypesTimeout(PassState(store.Snapshot(), newContent, updatedContent, found, errors), types, i, env.passClock, crawl);
        errors := errors + [TimeoutMessage];
      } else {
        SyncTypesDone(PassState(store.Snapshot(), newContent, updatedContent, found, errors), types, i, env.passClock, crawl);
      }
    }

    /** One content type's turn in the loop: crawl it and add its counts
        and ids to the pass. */
    method AddType(kind: ContentKind, options: SyncOptions, env: Environment, newIn: nat, updatedIn: nat, foundIn: set<string>)
      returns (newContent: nat, updatedContent: nat, found: set<string>)
      modifies store
      ensures var r := Crawler(options, env)(old(store.Snapshot()), kind);
        && store.Snapshot() == r.table
        && newContent == newIn + r.newCount && updatedContent == updatedIn + r.updatedCount
        && found == foundIn + Ids(r.found)
      ensures store.providerLastSync == old(store.providerLastSync)
    {
      var ids, n, u := SyncContentType(kind, ProvidersOf(options), MaxPagesOf(options), env);
      found := foundIn + Ids(ids);
      newContent, updatedContent := newIn + n, updatedIn + u;
    }

    /** `markAsUnavailable` on each removed id, counting them. */
    method MarkRemoved(removed: seq<string>, now: Timestamp) returns (count: nat)
      modifies store
      ensures store.Snapshot() == MarkAll(old(store.Snapshot()), removed, now) && count == |removed|
      ensures store.providerLastSync == old(store.providerLastSync)
    {
      ghost var t := store.Snapshot();
      count := 0;
      while count < |removed|
        invariant count <= |removed|
        invariant store.Snapshot() == MarkAll(t, removed[..count], now)
        invariant store.providerLastSync == old(store.providerLastSync)
      {
        assert removed[..count + 1][..count] == removed[..count];
        store.MarkAsUnavailable(removed[count], now);
        count := count + 1;
      }
      assert removed[..count] == removed;
    }

    /** `syncAllContent(options)`: a call made while a pass runs gets that
        pass (or, without one, the busy error) and changes nothing; otherwise
        the pass runs and the flags are cleared afterwards. */
    method SyncAllContent(options: SyncOptions, env: Environment) returns (outcome: SyncOutcome)
      requires store.Valid()
      modifies this, store
      ensures old(isSyncing) ==> outcome == (if old(hasPendingPass) then Joined else Rejected(BusyMessage))
      ensures old(isSyncing) ==> unchanged(this) && unchanged(store)
      ensures !old(isSyncing) ==>
                && outcome == Completed(PassOf(old(store.Snapshot()), options, env).result)
                && store.Snapshot() == PassOf(old(store.Snapshot()), options, env).table
                && store.lastFullSync == Some(env.now) && store.providerLastSync == old(store.providerLastSync)
                && !isSyncing && !hasPendingPass
      ensures store.Valid()
    {
      if isSyncing {
        if hasPendingPass {
          return Joined;
        }
        return Rejected(BusyMessage);
      }
      isSyncing, hasPendingPass := true, true;
      var result := RunPass(options, env);
      isSyncing, hasPendingPass := false, false;
      outcome := Completed(result);
    }

    /** `syncProviderContent(providerId, options)`: the options with the
        provider list replaced by that one provider. */
    method SyncProviderContent(providerId: int, options: SyncOptions, env: Environment) returns (outcome: SyncOutcome)
      requires store.Valid()
      modifies this, store
      ensures ProvidersOf(options.(providers := Some([providerId]))) == [providerId]
      ensures old(isSyncing) ==> outcome == (if old(hasPendingPass) then Joined else Rejected(BusyMessage))
      ensures old(isSyncing) ==> unchanged(this) && unchanged(store)
      ensures !old(isSyncing) ==>
                && outcome == Completed(PassOf(old(store.Snapshot()), options.(providers := Some([providerId])), env).result)
                && store.Snapshot() == PassOf(old(store.Snapshot()), options.(providers := Some([providerId])), env).table
                && store.lastFullSync == Some(env.now) && store.providerLastSync == old(store.providerLastSync)
                && !isSyncing && !hasPendingPass
      ensures store.Valid()
    {
      outcome := SyncAllContent(options.(providers := Some([providerId])), env);
    }

    /** `incrementalSync(options)`: at most two pages per type. */
    method IncrementalSync(options: SyncOptions, env: Environment) returns (outcome: SyncOutcome)
      requires store.Valid()
      modifies this, store
      ensures MaxPagesOf(options.(maxPages := Some(2))) == 2
      ensures old(isSyncing) ==> outcome == (if old(hasPendingPass) then Joined else Rejected(BusyMessage))
      ensures old(isSyncing) ==> unchanged(this) && unchanged(store)
      ensures !old(isSyncing) ==>
                && outcome == Completed(PassOf(old(store.Snapshot()), options.(maxPages := Some(2)), env).result)
                && store.Snapshot() == PassOf(old(store.Snapshot()), options.(maxPages := Some(2)), env).table
                && store.lastFullSync == Some(env.now) && store.providerLastSync == old(store.providerLastSync)
                && !isSyncing && !hasPendingPass
      ensures store.Valid()
    {
      outcome := SyncAllContent(options.(maxPages := Some(2)), env);
    }

    /** `forceFullSync(options)`: ten pages per type, with the force flag set
        (no step of a pass reads it). */
    method ForceFullSync(options: SyncOptions, env: Environment) returns (outcome: SyncOutcome)
      requires store.Valid()
      modifies this, store
      ensures MaxPagesOf(options.(forceSync := Some(true), maxPages := Some(10))) == 10
      ensures old(isSyncing) ==> outcome == (if old(hasPendingPass) then Joined else Rejected(BusyMessage))
      ensures old(isSyncing) ==> unchanged(this) && unchanged(store)
      ensures !old(isSyncing) ==>
                && outcome == Completed(PassOf(old(store.Snapshot()), options.(forceSync := Some(true), maxPages := Some(10)), env).result)
                && store.Snapshot() == PassOf(old(store.Snapshot()), options.(forceSync := Some(true), maxPages := Some(10)), env).table
                && store.lastFullSync == Some(env.now) && store.providerLastSync == old(store.providerLastSync)
                && !isSyncing && !hasPendingPass
      ensures store.Valid()
    {
      outcome := SyncAllContent(options.(forceSync := Some(true), maxPages := Some(10)), env);
    }

    /** `getSyncStats`: the store's statistics. */
    function GetSyncStats(): (s: Stats)
      reads store
      ensures store.Valid() ==> s.totalContent == |store.content.Keys|
      ensures store.Valid() ==> s.availableContent == |set id | id in store.content && store.content[id].isAvailable|
      ensures s.availableContent <= s.totalContent
      ensures s.lastFullSync == store.lastFullSync && s.providerLastSync == store.providerLastSync
    {
      store.GetStats()
    }

    /** `isCurrentlySyncing`. */
    function IsCurrentlySyncing(): (b: bool)
      reads this
      ensures b <==> isSyncing
    {
      isSyncing
    }
  }

  /** The results up to and including the `i`-th. */
  lemma FeedStep(t: Tally, kind: ContentKind, rs: seq<ItemFetch>, i: nat, now: Timestamp)
    requires i < |rs|
    ensures Feed(t, kind, rs[..i + 1], now)
            == var item := Processed(rs[i], kind, now);
               if item.Some? then Record(Feed(t, kind, rs[..i], now), item.value, now) else Feed(t, kind, rs[..i], now)
  {
    assert rs[..i + 1][..i] == rs[..i];
  }
}

=== FILE: explore_filters.dfy ===
/** The explore page's filter state: the presets, the updaters, the URL
    parameters it is read from and written to, and the title built from
    it. Every updater builds a new state from the previous one, so each is a
    function here. The enumerated fields hold strings, as the URL can put any
    string in them. */
module ExploreFilters {
  import opened Base

  datatype FilterState = FilterState(
    timeWindow: string,
    platforms: seq<string>,
    contentType: string,
    modalidad: string,
    orden: string,
    generos: seq<string>,
    duracion: seq<string>,
    anio: string,
    clasificacion: seq<string>,
    pais: string,
    idioma: string,
    q: string,
    strictMode: bool)

  /** The state the page starts from. */
  const Initial := FilterState("semana", [], "cualquiera", "cualquiera", "mas-recientes",
                               [], [], "", [], "", "", "", false)

  /** The fields by name, so that "only this field changes" can be said. */
  datatype Key = TimeWindowKey | PlatformsKey | ContentTypeKey | ModalidadKey | OrdenKey | GenerosKey
               | DuracionKey | AnioKey | ClasificacionKey | PaisKey | IdiomaKey | QKey | StrictModeKey

  datatype Value = Text(text: string) | Items(items: seq<string>) | Flag(flag: bool)

  function Get(f: FilterState, k: Key): Value {
    match k
    case TimeWindowKey => Text(f.timeWindow)
    case PlatformsKey => Items(f.platforms)
    case ContentTypeKey => Text(f.contentType)
    case ModalidadKey => Text(f.modalidad)
    case OrdenKey => Text(f.orden)
    case GenerosKey => Items(f.generos)
    case DuracionKey => Items(f.duracion)
    case AnioKey => Text(f.anio)
    case ClasificacionKey => Items(f.clasificacion)
    case PaisKey => Text(f.pais)
    case IdiomaKey => Text(f.idioma)
    case QKey => Text(f.q)
    case StrictModeKey => Flag(f.strictMode)
  }

  /** The value has the field's type (what the TypeScript signature of
      `updateFilter` enforces). */
  predicate Fits(k: Key, v: Value) {
    match k
    case PlatformsKey | GenerosKey | DuracionKey | ClasificacionKey => v.Items?
    case StrictModeKey => v.Flag?
    case _ => v.Text?
  }

  /** The list fields `toggleArrayFilter` accepts. */
  predicate IsListKey(k: Key) {
    k == PlatformsKey || k == GenerosKey || k == DuracionKey || k == ClasificacionKey
  }

  /** Two states agree on every field but `k`. */
  predicate AgreeExcept(f: FilterState, g: FilterState, k: Key) {
    forall k' :: k' != k ==> Get(f, k') == Get(g, k')
  }

  /** A state is its fields. */
  lemma FieldsDetermine(f: FilterState, g: FilterState)
    requires forall k :: Get(f, k) == Get(g, k)
    ensures f == g
  {
    assert Get(f, TimeWindowKey) == Get(g, TimeWindowKey);
    assert Get(f, PlatformsKey) == Get(g, PlatformsKey);
    assert Get(f, ContentTypeKey) == Get(g, ContentTypeKey);
    assert Get(f, ModalidadKey) == Get(g, ModalidadKey);
    assert Get(f, OrdenKey) == Get(g, OrdenKey);
    assert Get(f, GenerosKey) == Get(g, GenerosKey);
    assert Get(f, DuracionKey) == Get(g, DuracionKey);
    assert Get(f, AnioKey) == Get(g, AnioKey);
    assert Get(f, ClasificacionKey) == Get(g, ClasificacionKey);
    assert Get(f, PaisKey) == Get(g, PaisKey);
    assert Get(f, IdiomaKey) == Get(g, IdiomaKey);
    assert Get(f, QKey) == Get(g, QKey);
    assert Get(f, StrictModeKey) == Get(g, StrictModeKey);
  }

  // ---------------------------------------------------------------------
  // Updaters

  /** `updateFilter(key, value)`: the field takes the value, the others
      stay. */
  function UpdateFilter(f: FilterState, k: Key, v: Value): (r: FilterState)
    requires Fits(k, v)
    ensures Get(r, k) == v
    ensures AgreeExcept(r, f, k)
  {
    match k
    case TimeWindowKey => f.(timeWindow := v.text)
    case PlatformsKey => f.(platforms := v.items)
    case ContentTypeKey => f.(contentType := v.text)
    case ModalidadKey => f.(modalidad := v.text)
    case OrdenKey => f.(orden := v.text)
    case GenerosKey => f.(generos := v.items)
    case DuracionKey => f.(duracion := v.items)
    case AnioKey => f.(anio := v.text)
    case ClasificacionKey => f.(clasificacion := v.items)
    case PaisKey => f.(pais := v.text)
    case IdiomaKey => f.(idioma := v.text)
    case QKey => f.(q := v.text)
    case StrictModeKey => f.(strictMode := v.flag)
  }

  function Without(l: seq<string>, value: string): seq<string> {
    Filter(l, (x: string) => x != value)
  }

  /** The list with `value` removed (every occurrence) when present, or
      appended when absent. */
  function Toggle(l: seq<string>, value: string): (r: seq<string>)
    ensures value in r <==> value !in l
    ensures forall x :: x != value ==> (x in r <==> x in l)
  {
    if value in l then Without(l, value) else l + [value]
  }

  /** Filtering out a value that is absent changes nothing. */
  lemma WithoutAbsent(l: seq<string>, value: string)
    requires value !in l
    ensures Without(l, value) == l
  {
    FilterAllPass(l, (x: string) => x != value);
  }

  /** Toggling a value the list lacks, twice, gives the list back. */
  lemma ToggleTwiceAbsent(l: seq<string>, value: string)
    requires value !in l
    ensures Toggle(Toggle(l, value), value) == l
  {
    assert value in l + [value];
    FilterAppend(l, value, (x: string) => x != value);
    WithoutAbsent(l, value);
  }

  /** Toggling a value the list holds, twice, gives back the same elements
      (the value moves to the end, so the order is not kept). */
  lemma ToggleTwicePresent(l: seq<string>, value: string)
    requires value in l
    ensures forall x :: x in Toggle(Toggle(l, value), value) <==> x in l
    ensures Toggle(Toggle(l, value), value) == Without(l, value) + [value]
  {
  }

  /** The order is lost: `["a", "b"]` toggled twice on `"a"` is
      `["b", "a"]`. */
  lemma ToggleTwiceReorders()
    ensures Toggle(Toggle(["a", "b"], "a"), "a") == ["b", "a"]
  {
    assert Toggle(["a", "b"], "a") == ["b"] by {
      assert ["a", "b"][1..] == ["b"];
      assert ["b"][1..] == [];
    }
  }

  /** `toggleArrayFilter(key, value)`: the list field toggles `value`, the
      other fields stay. */
  function ToggleArrayFilter(f: FilterState, k: Key, value: string): (r: FilterState)
    requires IsListKey(k)
    ensures AgreeExcept(r, f, k)
    ensures Get(r, k).Items? && Get(f, k).Items?
    ensures value in Get(r, k).items <==> value !in Get(f, k).items
    ensures forall x :: x != value ==> (x in Get(r, k).items <==> x in Get(f, k).items)
  {
    UpdateFilter(f, k, Items(Toggle(Get(f, k).items, value)))
  }

  /** `resetFilters`: back to the initial state, which writes no URL
      parameter. */
  function ResetFilters(): (r: FilterState)
    ensures forall k :: Get(r, k) == Get(Initial, k)
    ensures WriteUrl(r) == map[]
  {
    Initial
  }

  /** The field `removeFilter(type)` clears: note `'platform'` and
      `'genero'` for the lists named `platforms` and `generos`. */
  function RemovedKey(kind: string): Option<Key> {
    if kind == "platform" then Some(PlatformsKey)
    else if kind == "genero" then Some(GenerosKey)
    else if kind == "duracion" then Some(DuracionKey)
    else if kind == "clasificacion" then Some(ClasificacionKey)
    else if kind == "contentType" then Some(ContentTypeKey)
    else if kind == "modalidad" then Some(ModalidadKey)
    else if kind == "anio" then Some(AnioKey)
    else if kind == "pais" then Some(PaisKey)
    else if kind == "idioma" then Some(IdiomaKey)
    else None
  }

  /** `x !== value`, where a missing `value` is `undefined` and differs
      from every string. */
  function Kept(value: Option<string>): string -> bool {
    (x: string) => value.None? || x != value.value
  }

  /** `removeFilter(type, value)`: a list field loses every occurrence of
      `value`; a scalar field goes back to its initial value; an unknown
      type changes nothing. */
  function RemoveFilter(f: FilterState, kind: string, value: Option<string>): (r: FilterState)
    ensures RemovedKey(kind).None? ==> r == f
    ensures RemovedKey(kind).Some? ==> AgreeExcept(r, f, RemovedKey(kind).value)
    ensures RemovedKey(kind).Some? && !IsListKey(RemovedKey(kind).value) ==>
              Get(r, RemovedKey(kind).value) == Get(Initial, RemovedKey(kind).value)
    ensures RemovedKey(kind).Some? && IsListKey(RemovedKey(kind).value) ==>
              Get(r, RemovedKey(kind).value).Items? &&
              forall x :: x in Get(r, RemovedKey(kind).value).items <==>
                          x in Get(f, RemovedKey(kind).value).items && (value.None? || x != value.value)
  {
    match RemovedKey(kind)
    case None => f
    case Some(k) =>
      if IsListKey(k) then UpdateFilter(f, k, Items(Filter(Get(f, k).items, Kept(value))))
      else UpdateFilter(f, k, Get(Initial, k))
  }

  /** Without a value, removing from a list field changes nothing. */
  lemma RemoveWithoutValue(f: FilterState, kind: string)
    requires RemovedKey(kind).Some? && IsListKey(RemovedKey(kind).value)
    ensures RemoveFilter(f, kind, None) == f
  {
    var k := RemovedKey(kind).value;
    FilterAllPass(Get(f, k).items, Kept(None));
    FieldsDetermine(RemoveFilter(f, kind, None), f);
  }

  // ---------------------------------------------------------------------
  // Presets

  predicate StartsWith(s: string, prefix: string) {
    |prefix| <= |s| && s[..|prefix|] == prefix
  }

  /** `s.replace(pattern, "")`: the first occurrence removed. */
  function ReplaceFirst(s: string, pattern: string): (r: string)
    requires |pattern| > 0
    ensures StartsWith(s, pattern) ==> r == s[|pattern|..]
    ensures |r| <= |s|
    decreases |s|
  {
    if |s| < |pattern| then s
    else if s[..|pattern|] == pattern then s[|pattern|..]
    else [s[0]] + ReplaceFirst(s[1..], pattern)
  }

  /** The six presets with a name of their own. */
  predicate NamedPreset(preset: string) {
    preset in {"novedades-hoy", "novedades-semana", "novedades-30-dias", "proximamente", "top-semana", "catalogo-completo"}
  }

  /** `applyPreset(preset)`: the initial state with the preset's time
      window, order, strictness and a platform or genre taken from the
      name. */
  function ApplyPreset(preset: string): (r: FilterState)
    ensures forall k :: k !in {TimeWindowKey, OrdenKey, StrictModeKey, PlatformsKey, GenerosKey} ==>
              Get(r, k) == Get(Initial, k)
    ensures r.strictMode <==> preset == "novedades-hoy" || preset == "novedades-semana"
    ensures !NamedPreset(preset) && !StartsWith(preset, "plataforma-") && !StartsWith(preset, "genero-") ==> r == Initial
    ensures !NamedPreset(preset) && StartsWith(preset, "plataforma-") ==>
              r == Initial.(platforms := [preset[|"plataforma-"|..]])
    ensures !NamedPreset(preset) && !StartsWith(preset, "plataforma-") && StartsWith(preset, "genero-") ==>
              r == Initial.(generos := [preset[|"genero-"|..]])
    ensures NamedPreset(preset) ==> r.platforms == [] && r.generos == []
  {
    if preset == "novedades-hoy" then Initial.(timeWindow := "hoy", orden := "mas-recientes", strictMode := true)
    else if preset == "novedades-semana" then Initial.(timeWindow := "semana", orden := "mas-recientes", strictMode := true)
    else if preset == "novedades-30-dias" then Initial.(timeWindow := "ultimos-30-dias", orden := "mas-recientes")
    else if preset == "proximamente" then Initial.(timeWindow := "proximos-30-dias", orden := "mas-recientes")
    else if preset == "top-semana" then Initial.(timeWindow := "semana", orden := "mejor-valoradas")
    else if preset == "catalogo-completo" then Initial.(timeWindow := "cualquiera")
    else if StartsWith(preset, "plataforma-") then
      Initial.(timeWindow := "semana", platforms := [ReplaceFirst(preset, "plataforma-")], orden := "mas-recientes")
    else if StartsWith(preset, "genero-") then
      Initial.(timeWindow := "semana", generos := [ReplaceFirst(preset, "genero-")], orden := "mas-recientes")
    else Initial
  }

  // ---------------------------------------------------------------------
  // URL parameters

  /** `parts.join(sep)`. */
  function Join(parts: seq<string>, sep: string): (r: string)
    ensures parts == [] ==> r == ""
    ensures |parts| == 1 ==> r == parts[0]
    ensures parts != [] ==> parts[0] <= r
    ensures |r| == if parts == [] then 0 else (|parts| - 1) * |sep| + SumLengths(parts)
  {
    if parts == [] then ""
    else if |parts| == 1 then parts[0]
    else
      var r := parts[0] + sep + Join(parts[1..], sep);
      assert r[..|parts[0]|] == parts[0];
      r
  }

  /** The total length of the pieces. */
  function SumLengths(parts: seq<string>): nat {
    if parts == [] then 0 else |parts[0]| + SumLengths(parts[1..])
  }

  /** `s.split(sep)` for a one-character separator: the pieces between
      separators, at least one. */
  function Split(s: string, sep: char): (r: seq<string>)
    ensures |r| >= 1
  {
    if s == [] then [""]
    else
      var rest := Split(s[1..], sep);
      if s[0] == sep then [""] + rest else [[s[0]] + rest[0]] + rest[1..]
  }

  /** Splitting undoes joining when no piece holds the separator. */
  lemma {:induction false} SplitJoin(parts: seq<string>, sep: char)
    requires parts != []
    requires forall p :: p in parts ==> sep !in p
    ensures Split(Join(parts, [sep]), sep) == parts
  {
    if |parts| == 1 {
      SplitNoSep(parts[0], sep);
    } else {
      SplitJoin(parts[1..], sep);
      SplitPrefix(parts[0], Join(parts[1..], [sep]), sep);
      assert parts == [parts[0]] + parts[1..];
    }
  }

  /** A string without the separator splits into itself. */
  lemma {:induction false} SplitNoSep(s: string, sep: char)
    requires sep !in s
    ensures Split(s, sep) == [s]
  {
    if s != [] {
      SplitNoSep(s[1..], sep);
      assert s == [s[0]] + s[1..];
    }
  }

  /** A piece followed by the separator comes off the front. */
  lemma {:induction false} SplitPrefix(p: string, rest: string, sep: char)
    requires sep !in p
    ensures Split(p + [sep] + rest, sep) == [p] + Split(rest, sep)
  {
    if p == [] {
      assert [sep] + rest == p + [sep] + rest;
      assert ([sep] + rest)[1..] == rest;
    } else {
      SplitPrefix(p[1..], rest, sep);
      assert (p + [sep] + rest)[1..] == p[1..] + [sep] + rest;
      assert [p[0]] + p[1..] == p;
    }
  }

  /** The URL parameters the page reads and writes, by name: `preset`,
      `timeWindow`, `platforms`, `contentType`, `modalidad`, `orden`,
      `generos` and `q`. Other parameters are ignored. */
  datatype UrlParam = PresetParam | TimeWindowParam | PlatformsParam | ContentTypeParam
                    | ModalidadParam | OrdenParam | GenerosParam | QParam

  /** Whether the URL carries a parameter: the fields that differ from
      the initial state, the non-empty lists, and a non-empty search. */
  predicate Written(f: FilterState, p: UrlParam) {
    match p
    case PresetParam => false
    case TimeWindowParam => f.timeWindow != Initial.timeWindow
    case PlatformsParam => |f.platforms| > 0
    case ContentTypeParam => f.contentType != Initial.contentType
    case ModalidadParam => f.modalidad != Initial.modalidad
    case OrdenParam => f.orden != Initial.orden
    case GenerosParam => |f.generos| > 0
    case QParam => f.q != ""
  }

  /** The text of a parameter: the field, a list joined by commas. */
  function Rendered(f: FilterState, p: UrlParam): string {
    match p
    case PresetParam => ""
    case TimeWindowParam => f.timeWindow
    case PlatformsParam => Join(f.platforms, ",")
    case ContentTypeParam => f.contentType
    case ModalidadParam => f.modalidad
    case OrdenParam => f.orden
    case GenerosParam => Join(f.generos, ",")
    case QParam => f.q
  }

  /** The parameters written whenever the filters change. */
  function WriteUrl(f: FilterState): (m: map<UrlParam, string>)
    ensures forall p :: p in m <==> Written(f, p)
    ensures forall p :: p in m ==> m[p] == Rendered(f, p)
    ensures PresetParam !in m
  {
    map p | p in {TimeWindowParam, PlatformsParam, ContentTypeParam, ModalidadParam, OrdenParam, GenerosParam, QParam}
              && Written(f, p) :: Rendered(f, p)
  }

  /** `searchParams.get(name)`, with a missing parameter read as the empty
      string (both are falsy). */
  function Param(m: map<UrlParam, string>, name: UrlParam): string {
    if name in m then m[name] else ""
  }

  /** A non-empty parameter replaces the field. */
  function Override(param: string, prev: string): string {
    if param != "" then param else prev
  }

  /** A non-empty parameter, split at the commas, replaces the list. */
  function OverrideList(param: string, prev: seq<string>): seq<string> {
    if param != "" then Split(param, ',') else prev
  }

  /** Loading the URL on mount: a `preset` parameter applies the preset;
      otherwise each non-empty parameter overrides its field. */
  function ReadUrl(prev: FilterState, m: map<UrlParam, string>): (r: FilterState)
    ensures Param(m, PresetParam) != "" ==> r == ApplyPreset(Param(m, PresetParam))
    ensures Param(m, PresetParam) == "" ==>
              r.duracion == prev.duracion && r.anio == prev.anio && r.clasificacion == prev.clasificacion &&
              r.pais == prev.pais && r.idioma == prev.idioma && r.strictMode == prev.strictMode
    ensures m == map[] ==> r == prev
    ensures Param(m, PresetParam) == "" ==>
              && (TimeWindowParam in m && m[TimeWindowParam] != "" ==> r.timeWindow == m[TimeWindowParam])
              && (TimeWindowParam !in m || m[TimeWindowParam] == "" ==> r.timeWindow == prev.timeWindow)
              && (PlatformsParam in m && m[PlatformsParam] != "" ==> r.platforms == Split(m[PlatformsParam], ','))
              && (PlatformsParam !in m || m[PlatformsParam] == "" ==> r.platforms == prev.platforms)
              && (ContentTypeParam in m && m[ContentTypeParam] != "" ==> r.contentType == m[ContentTypeParam])
              && (ContentTypeParam !in m || m[ContentTypeParam] == "" ==> r.contentType == prev.contentType)
              && (ModalidadParam in m && m[ModalidadParam] != "" ==> r.modalidad == m[ModalidadParam])
              && (ModalidadParam !in m || m[ModalidadParam] == "" ==> r.modalidad == prev.modalidad)
              && (OrdenParam in m && m[OrdenParam] != "" ==> r.orden == m[OrdenParam])
              && (OrdenParam !in m || m[OrdenParam] == "" ==> r.orden == prev.orden)
              && (GenerosParam in m && m[GenerosParam] != "" ==> r.generos == Split(m[GenerosParam], ','))
              && (GenerosParam !in m || m[GenerosParam] == "" ==> r.generos == prev.generos)
              && (QParam in m && m[QParam] != "" ==> r.q == m[QParam])
              && (QParam !in m || m[QParam] == "" ==> r.q == prev.q)
  {
    if Param(m, PresetParam) != "" then ApplyPreset(Param(m, PresetParam))
    else
      prev.(timeWindow := Override(Param(m, TimeWindowParam), prev.timeWindow),
            platforms := OverrideList(Param(m, PlatformsParam), prev.platforms),
            contentType := Override(Param(m, ContentTypeParam), prev.contentType),
            modalidad := Override(Param(m, ModalidadParam), prev.modalidad),
            orden := Override(Param(m, OrdenParam), prev.orden),
            generos := OverrideList(Param(m, GenerosParam), prev.generos),
            q := Override(Param(m, QParam), prev.q))
  }

  /** A list that survives the URL: no element holds a comma, and it is
      not the one list whose join is empty. */
  predicate UrlSafeList(l: seq<string>) {
    l != [""] && forall p :: p in l ==> ',' !in p
  }

  /** The URL carries the state back, except the fields it never holds. */
  predicate UrlSafe(f: FilterState) {
    && f.timeWindow != "" && f.contentType != "" && f.modalidad != "" && f.orden != ""
    && UrlSafeList(f.platforms) && UrlSafeList(f.generos)
  }

  /** A list written (when non-empty) and read back over the empty list. */
  lemma ListRoundTrip(l: seq<string>)
    requires UrlSafeList(l)
    ensures OverrideList(if |l| > 0 then Join(l, ",") else "", []) == l
  {
    if |l| > 0 {
      SplitJoin(l, ',');
      assert Join(l, ",") != "" by {
        if |l| == 1 {
          assert l[0] != "";
        } else {
          assert |Join(l, ",")| >= |l[0] + ","|;
        }
      }
    }
  }

  /** What a fresh page reads for a parameter the filters wrote. */
  lemma ParamWritten(f: FilterState, p: UrlParam)
    ensures Param(WriteUrl(f), p) == if Written(f, p) then Rendered(f, p) else ""
  {
  }

  /** A text field written (when it differs from its initial value) and
      read back over the initial value. */
  lemma TextRoundTrip(field: string, initial: string)
    requires field != ""
    ensures Override(if field != initial then field else "", initial) == field
  {
  }

  /** Writing the URL and loading it on a fresh page gives the state back
      on the seven fields the URL carries; the others come back initial. */
  lemma UrlRoundTrip(f: FilterState)
    requires UrlSafe(f)
    ensures ReadUrl(Initial, WriteUrl(f)) ==
            f.(duracion := [], anio := "", clasificacion := [], pais := "", idioma := "", strictMode := false)
  {
    ParamWritten(f, PresetParam);
    ParamWritten(f, TimeWindowParam);
    ParamWritten(f, PlatformsParam);
    ParamWritten(f, ContentTypeParam);
    ParamWritten(f, ModalidadParam);
    ParamWritten(f, OrdenParam);
    ParamWritten(f, GenerosParam);
    ParamWritten(f, QParam);
    ListRoundTrip(f.platforms);
    ListRoundTrip(f.generos);
    TextRoundTrip(f.timeWindow, Initial.timeWindow);
    TextRoundTrip(f.contentType, Initial.contentType);
    TextRoundTrip(f.modalidad, Initial.modalidad);
    TextRoundTrip(f.orden, Initial.orden);
  }

  /** The strict presets do not survive the URL: their state is written
      without `strictMode`, so reloading the page reads it back as not
      strict. */
  lemma StrictPresetLostInUrl()
    ensures ApplyPreset("novedades-hoy").strictMode
    ensures !ReadUrl(Initial, WriteUrl(ApplyPreset("novedades-hoy"))).strictMode
  {
  }

  // ---------------------------------------------------------------------
  // Title

  /** The title's first part, from the time window or else the order. */
  function WindowPart(f: FilterState): (r: seq<string>)
    ensures |r| <= 1
    ensures f.timeWindow == "hoy" ==> r == ["Novedades de hoy"]
    ensures f.timeWindow == "semana" ==> r == ["Novedades de la semana"]
    ensures f.timeWindow == "ultimos-30-dias" ==> r == ["Novedades últimos 30 días"]
    ensures f.timeWindow == "proximos-30-dias" ==> r == ["Próximamente (30 días)"]
    ensures f.timeWindow !in {"hoy", "semana", "ultimos-30-dias", "proximos-30-dias"} ==>
              r == (if f.orden == "mejor-valoradas" then ["Top novedades de la semana"] else [])
  {
    if f.timeWindow == "hoy" then ["Novedades de hoy"]
    else if f.timeWindow == "semana" then ["Novedades de la semana"]
    else if f.timeWindow == "ultimos-30-dias" then ["Novedades últimos 30 días"]
    else if f.timeWindow == "proximos-30-dias" then ["Próximamente (30 días)"]
    else if f.orden == "mejor-valoradas" then ["Top novedades de la semana"]
    else []
  }

  /** The title's parts. A single platform is appended to the last part
      through `parts[parts.length - 1]`; with no part yet that index is -1,
      which sets a property instead of an element, so the platform is
      dropped. */
  function TitleParts(f: FilterState): (r: seq<string>)
    ensures |r| == |WindowPart(f)| + if |f.generos| == 1 then 1 else 0
    ensures forall i :: 0 <= i < |r| ==> r[i] != "" && r[i][0] in {'N', 'P', 'T', 'G'}
    ensures |WindowPart(f)| == 1 ==>
              r[0] == if |f.platforms| == 1 then WindowPart(f)[0] + " en " + f.platforms[0] else WindowPart(f)[0]
    ensures |f.generos| == 1 ==> r[|r| - 1] == "Género: " + f.generos[0]
  {
    var first := WindowPart(f);
    var withPlatform := if |f.platforms| == 1 && |first| > 0 then [first[0] + " en " + f.platforms[0]] else first;
    withPlatform + (if |f.generos| == 1 then ["Género: " + f.generos[0]] else [])
  }

  /** `getDynamicTitle`: the search when there is one, else the parts
      joined by a middle dot, else a generic title. */
  function Title(f: FilterState): (r: string)
    ensures f.q != "" ==> r == "Resultados para \"" + f.q + "\""
  {
    if f.q != "" then "Resultados para \"" + f.q + "\""
    else
      var parts := TitleParts(f);
      if |parts| > 0 then Join(parts, " · ") else "Explorar contenido"
  }

  /** The generic title shows exactly when there is no search and no
      part. */
  lemma TitleGeneric(f: FilterState)
    ensures Title(f) == "Explorar contenido" <==> f.q == "" && TitleParts(f) == []
  {
    if f.q != "" {
      assert Title(f)[0] == 'R';
    } else if TitleParts(f) != [] {
      assert Title(f)[0] == TitleParts(f)[0][0];
    }
  }

  /** With no time part a single platform is left out of the title. */
  lemma TitleDropsPlatform(f: FilterState)
    requires f.q == "" && WindowPart(f) == [] && |f.platforms| == 1 && f.generos == []
    ensures Title(f) == "Explorar contenido"
  {
  }
}

=== FILE: sorting.dfy ===
/** The in-place sorts the services call (`items.sort((a, b) => key(b) - key(a))`)
    as a function: a stable sort into non-increasing key order. JavaScript's
    `Array.prototype.sort` is stable, so equal keys keep their input order,
    and that makes the result unique. */
module Sorting {
  import opened Base

  predicate SortedDesc<T>(s: seq<T>, key: T -> real) {
    forall i, j :: 0 <= i < j < |s| ==> key(s[i]) >= key(s[j])
  }

  /** Places `x` in front of the first element whose key is not above its
      own, so `x` stays ahead of later elements with an equal key. */
  function Insert<T>(x: T, s: seq<T>, key: T -> real): (r: seq<T>)
    ensures multiset(r) == multiset(s) + multiset{x}
    ensures SortedDesc(s, key) ==> SortedDesc(r, key)
  {
    if s == [] || key(x) >= key(s[0]) then
      PrependSorted(x, s, key);
      [x] + s
    else
      var tail := Insert(x, s[1..], key);
      assert s == [s[0]] + s[1..];
      PrependAfterInsert(x, s, key, tail);
      [s[0]] + tail
  }

  /** An element no smaller than the head goes in front. */
  lemma PrependSorted<T>(x: T, s: seq<T>, key: T -> real)
    requires s == [] || key(x) >= key(s[0])
    ensures SortedDesc(s, key) ==> SortedDesc([x] + s, key)
  {
    var r := [x] + s;
    if SortedDesc(s, key) && s != [] {
      forall i, j | 0 <= i < j < |r| ensures key(r[i]) >= key(r[j]) {
        if i > 0 {
          assert r[i] == s[i - 1] && r[j] == s[j - 1];
        } else {
          assert r[j] == s[j - 1];
        }
      }
    }
  }

  /** The head stays in front of the rest with `x` inserted, since `x` is
      smaller than the head. */
  lemma PrependAfterInsert<T>(x: T, s: seq<T>, key: T -> real, tail: seq<T>)
    requires s != [] && key(x) < key(s[0])
    requires multiset(tail) == multiset(s[1..]) + multiset{x}
    requires SortedDesc(s[1..], key) ==> SortedDesc(tail, key)
    ensures SortedDesc(s, key) ==> SortedDesc([s[0]] + tail, key)
  {
    var r := [s[0]] + tail;
    if SortedDesc(s, key) {
      assert SortedDesc(s[1..], key);
      forall i, j | 0 <= i < j < |r| ensures key(r[i]) >= key(r[j]) {
        if i == 0 {
          var y := r[j];
          assert y in multiset(tail);
          assert y in multiset(s[1..]) || y == x;
          if y != x {
            var k :| 0 <= k < |s[1..]| && s[1..][k] == y;
            assert s[k + 1] == y;
          }
        }
      }
    }
  }

  /** Insertion sort from the back: every element is inserted ahead of the
      equal-keyed elements that follow it in the input. */
  function SortDesc<T>(s: seq<T>, key: T -> real): (r: seq<T>)
    ensures multiset(r) == multiset(s)
    ensures |r| == |s|
    ensures SortedDesc(r, key)
  {
    if s == [] then []
    else
      assert s == [s[0]] + s[1..];
      var r := Insert(s[0], SortDesc(s[1..], key), key);
      assert |r| == |multiset(r)|;
      r
  }

  /** Stability: when no two keys differ, sorting changes nothing. */
  lemma {:induction false} SortDescTies<T>(s: seq<T>, key: T -> real)
    requires forall i, j :: 0 <= i < |s| && 0 <= j < |s| ==> key(s[i]) == key(s[j])
    ensures SortDesc(s, key) == s
  {
    if s != [] {
      var rest := s[1..];
      forall i, j | 0 <= i < |rest| && 0 <= j < |rest| ensures key(rest[i]) == key(rest[j]) {
        assert rest[i] == s[i + 1] && rest[j] == s[j + 1];
      }
      SortDescTies(rest, key);
      if rest != [] {
        assert rest[0] == s[1];
        assert key(s[0]) == key(rest[0]);
      }
      assert Insert(s[0], rest, key) == [s[0]] + rest;
      assert s == [s[0]] + rest;
    }
  }

  /** Sorting a permutation gives the same list. Two lists that are sorted
      under a key that separates all values, and that hold the same elements,
      are equal. */
  lemma {:induction false} SortedUnique(a: seq<int>, b: seq<int>)
    requires SortedDesc(a, IntKey) && SortedDesc(b, IntKey)
    requires multiset(a) == multiset(b)
    ensures a == b
  {
    if a != [] {
      assert |a| == |multiset(a)|;
      assert b != [];
      SortedHeadIsMax(a, b[0]);
      SortedHeadIsMax(b, a[0]);
      var h := a[0];
      assert a == [h] + a[1..];
      assert b == [h] + b[1..];
      assert multiset(a[1..]) == multiset(a) - multiset{h};
      assert multiset(b[1..]) == multiset(b) - multiset{h};
      SortedTail(a, IntKey);
      SortedTail(b, IntKey);
      SortedUnique(a[1..], b[1..]);
    }
  }

  lemma SortedHeadIsMax(a: seq<int>, x: int)
    requires SortedDesc(a, IntKey) && x in multiset(a)
    ensures a != [] && x <= a[0]
  {
    var i :| 0 <= i < |a| && a[i] == x;
    assert IntKey(a[0]) >= IntKey(a[i]);
  }

  lemma SortedTail<T>(a: seq<T>, key: T -> real)
    requires a != [] && SortedDesc(a, key)
    ensures SortedDesc(a[1..], key)
  {
    forall i, j | 0 <= i < j < |a| - 1 ensures key(a[1..][i]) >= key(a[1..][j]) {
      assert a[1..][i] == a[i + 1] && a[1..][j] == a[j + 1];
    }
  }

  /** Membership is what sorting keeps. */
  lemma SortDescMembers<T>(s: seq<T>, key: T -> real)
    ensures forall x :: x in SortDesc(s, key) <==> x in s
  {
    var r := SortDesc(s, key);
    assert forall x :: x in r <==> x in multiset(r);
  }

  /** The first `limit` elements after sorting (`sort(...).slice(0, limit)`):
      a sorted list of elements of `s`, no longer than the limit. */
  function TopOf<T>(s: seq<T>, key: T -> real, limit: int): (r: seq<T>)
    ensures |r| == if limit >= 0 then Min(limit, |s|) else Max(0, |s| + limit)
    ensures forall x :: x in r ==> x in s
    ensures SortedDesc(r, key)
    ensures r == SortDesc(s, key)[..|r|]
    ensures forall x, y :: x in r && y in s && y !in r ==> key(y) <= key(x)
  {
    var sorted := SortDesc(s, key);
    SortDescMembers(s, key);
    var r := SliceTo(sorted, limit);
    assert forall i :: 0 <= i < |r| ==> r[i] == sorted[i];
    forall x, y | x in r && y in s && y !in r ensures key(y) <= key(x) {
      var i :| 0 <= i < |r| && r[i] == x;
      var j :| 0 <= j < |sorted| && sorted[j] == y;
    }
    r
  }

  /** The test "has key `k`", for picking out the elements of one key. */
  function KeyIs<T>(key: T -> real, k: real): T -> bool {
    x => key(x) == k
  }

  /** Inserting `x` puts it ahead of every element with the same key and
      leaves the order of those elements alone. */
  lemma {:induction false} InsertKeyed<T>(x: T, s: seq<T>, key: T -> real, k: real)
    ensures Filter(Insert(x, s, key), KeyIs(key, k))
         == (if key(x) == k then [x] else []) + Filter(s, KeyIs(key, k))
  {
    var p := KeyIs(key, k);
    if s == [] || key(x) >= key(s[0]) {
      assert Insert(x, s, key) == [x] + s;
      FilterCons(x, s, p);
    } else {
      var tail := Insert(x, s[1..], key);
      assert Insert(x, s, key) == [s[0]] + tail;
      InsertKeyed(x, s[1..], key, k);
      assert s == [s[0]] + s[1..];
      FilterBehindHead(x, s[0], s[1..], tail, p);
    }
  }

  /** Putting a head before a list that filters to `x` (if it passes)
      ahead of the rest: when `x` and the head do not both pass, `x`
      still comes first. */
  lemma FilterBehindHead<T>(x: T, h: T, rest: seq<T>, tail: seq<T>, p: T -> bool)
    requires Filter(tail, p) == (if p(x) then [x] else []) + Filter(rest, p)
    requires !(p(x) && p(h))
    ensures Filter([h] + tail, p) == (if p(x) then [x] else []) + Filter([h] + rest, p)
  {
    FilterCons(h, tail, p);
    FilterCons(h, rest, p);
    if p(h) {
      assert Filter(tail, p) == Filter(rest, p);
    } else {
      assert Filter([h] + tail, p) == Filter(tail, p);
      assert Filter([h] + rest, p) == Filter(rest, p);
    }
  }

  /** Filtering a list with a known head. */
  lemma FilterCons<T>(a: T, s: seq<T>, p: T -> bool)
    ensures Filter([a] + s, p) == (if p(a) then [a] else []) + Filter(s, p)
  {
    assert ([a] + s)[1..] == s;
  }

  /** Stability: the elements of any one key come out of the sort in the
      order they went in. */
  lemma {:induction false} SortDescStable<T>(s: seq<T>, key: T -> real, k: real)
    ensures Filter(SortDesc(s, key), KeyIs(key, k)) == Filter(s, KeyIs(key, k))
  {
    if s != [] {
      SortDescStable(s[1..], key, k);
      InsertKeyed(s[0], SortDesc(s[1..], key), key, k);
    }
  }

  /** The numeric key: `Array.prototype.sort` on provider ids. */
  function IntKey(x: int): real {
    x as real
  }
}

=== FILE: tmdb.dfy ===
/** The normaliser of the TMDB service: it turns a raw movie or series record,
    as the details endpoint returns it, into the `ContentItem` the cache
    stores, or rejects it. It filters providers against the Spanish
    allow-list, resolves the Spanish release date, and applies the 90-day
    exemption for upcoming movies. */
module Tmdb {
  import opened Base

  datatype ContentKind = Movie | Tv

  /** The `type` string of an item: `'movie'` or `'tv'`. */
  function KindName(k: ContentKind): (s: string)
    ensures |s| >= 2 && s[|s| - 1] != '_'
    ensures k == Movie <==> s == "movie"
  {
    if k == Movie then "movie" else "tv"
  }

  datatype Provider = Provider(providerId: int, providerName: string, logoPath: string, displayPriority: int)

  /** The three Spanish monetisation buckets of an item. */
  datatype Providers = Providers(flatrate: seq<Provider>, rent: seq<Provider>, buy: seq<Provider>)

  /** An optional property of an object: a missing key, a key holding
      `undefined`, or a key holding a value. Spreading an object copies only
      the keys it has, so the first two behave differently under a merge. */
  datatype Field<T> = Absent | Undefined | Defined(value: T)

  /** A `T | undefined` value stored under a key that is always written. */
  function FieldOf<T>(o: Option<T>): Field<T> {
    if o.Some? then Defined(o.value) else Undefined
  }

  /** A normalised movie or series. `releaseDate` `None` is the empty string;
      `firstSeenAt` maps a provider id to the moment it was first seen. */
  datatype ContentItem = ContentItem(
    id: string,
    tmdbId: int,
    kind: ContentKind,
    title: string,
    overview: string,
    posterPath: string,
    backdropPath: string,
    releaseDate: Option<Day>,
    voteAverage: real,
    voteCount: int,
    genres: seq<int>,
    runtime: Field<int>,
    seasons: Field<int>,
    episodes: Field<int>,
    episodeRuntime: Field<int>,
    providers: Providers,
    firstSeenAt: Option<map<int, Timestamp>>)

  /** Netflix, Prime Video, Max, Disney+, Filmin, Movistar Plus+, Apple TV+. */
  const SupportedProviders: seq<int> := [8, 119, 384, 337, 174, 149, 350]

  function IsProviderSupported(providerId: int): (b: bool)
    ensures b <==> providerId in {8, 119, 384, 337, 174, 149, 350}
  {
    providerId in SupportedProviders
  }

  predicate SupportedEntry(p: Provider) {
    IsProviderSupported(p.providerId)
  }

  /** The provider ids of a list, in order. */
  function ProviderIdsOf(s: seq<Provider>): (r: seq<int>)
    ensures |r| == |s|
    ensures forall i :: 0 <= i < |s| ==> r[i] == s[i].providerId
  {
    if s == [] then [] else [s[0].providerId] + ProviderIdsOf(s[1..])
  }

  /** The ids of flatrate, then rent, then buy providers, duplicates kept. */
  function ProviderIds(p: Providers): seq<int> {
    ProviderIdsOf(p.flatrate) + ProviderIdsOf(p.rent) + ProviderIdsOf(p.buy)
  }

  // ---------------------------------------------------------------------
  // The Spanish release date

  datatype ReleaseDateEntry = ReleaseDateEntry(releaseDate: Timestamp, releaseType: int)
  datatype CountryReleases = CountryReleases(country: string, releaseDates: Option<seq<ReleaseDateEntry>>)

  /** The release types kept: digital (4), TV (6), theatrical (3) and limited
      theatrical (2). */
  const AcceptedTypes: seq<int> := [4, 6, 3, 2]
  /** The order in which release types are preferred. */
  const PreferOrder: seq<int> := [4, 6, 3, 2]

  predicate IsAcceptedEntry(e: ReleaseDateEntry) {
    e.releaseType in AcceptedTypes
  }

  /** The first entry for a country, as `Array.prototype.find` gives it. */
  function FindCountry(rs: seq<CountryReleases>, country: string): (r: Option<CountryReleases>)
    ensures r.Some? ==> r.value in rs && r.value.country == country
    ensures r.None? ==> forall c :: c in rs ==> c.country != country
    ensures r.Some? ==> exists i :: 0 <= i < |rs| && rs[i] == r.value && forall k :: 0 <= k < i ==> rs[k].country != country
  {
    if rs == [] then None
    else if rs[0].country == country then Some(rs[0])
    else
      var r := FindCountry(rs[1..], country);
      assert r.Some? ==> exists i :: 0 <= i < |rs| && rs[i] == r.value && forall k :: 0 <= k < i ==> rs[k].country != country by {
        if r.Some? {
          var i :| 0 <= i < |rs[1..]| && rs[1..][i] == r.value && forall k :: 0 <= k < i ==> rs[1..][k].country != country;
          assert rs[i + 1] == r.value;
          assert forall k :: 1 <= k < i + 1 ==> rs[k] == rs[1..][k - 1];
        }
      }
      r
  }

  /** The Spanish release dates of a record, empty when there are none. */
  function EsDates(results: Option<seq<CountryReleases>>): seq<ReleaseDateEntry> {
    if results.None? then []
    else
      var es := FindCountry(results.value, "ES");
      if es.Some? && es.value.releaseDates.Some? then es.value.releaseDates.value else []
  }

  function OfType(es: seq<ReleaseDateEntry>, t: int): (r: seq<ReleaseDateEntry>)
    ensures forall e :: e in r <==> e in es && e.releaseType == t
  {
    Filter(es, (e: ReleaseDateEntry) => e.releaseType == t)
  }

  /** The index in `PreferOrder`, from `j` on, of the first type some entry
      has. */
  function TypeFrom(es: seq<ReleaseDateEntry>, j: nat): (r: Option<nat>)
    requires j <= |PreferOrder|
    ensures r.Some? ==> j <= r.value < |PreferOrder|
    ensures r.Some? ==> exists e :: e in es && e.releaseType == PreferOrder[r.value]
    ensures r.Some? ==> forall e :: e in es ==> e.releaseType !in PreferOrder[j..r.value]
    ensures r.None? ==> forall e :: e in es ==> e.releaseType !in PreferOrder[j..]
    decreases |PreferOrder| - j
  {
    if j == |PreferOrder| then None
    else if OfType(es, PreferOrder[j]) != [] then
      assert OfType(es, PreferOrder[j])[0] in OfType(es, PreferOrder[j]);
      Some(j)
    else
      assert forall e :: e in es ==> e.releaseType != PreferOrder[j];
      TypeFrom(es, j + 1)
  }

  /** The first entry with the smallest timestamp: what an ascending stable
      sort puts in front. */
  function Earliest(s: seq<ReleaseDateEntry>): (e: ReleaseDateEntry)
    requires s != []
    ensures e in s
    ensures forall x :: x in s ==> e.releaseDate <= x.releaseDate
  {
    if |s| == 1 then s[0]
    else
      var m := Earliest(s[..|s| - 1]);
      assert s == s[..|s| - 1] + [s[|s| - 1]];
      if s[|s| - 1].releaseDate < m.releaseDate then s[|s| - 1] else m
  }

  /** `e` is of the most preferred type that occurs among `es`, and no entry
      of that type is earlier. */
  ghost predicate PreferredEarliest(es: seq<ReleaseDateEntry>, e: ReleaseDateEntry) {
    && e in es
    && (exists j :: 0 <= j < |PreferOrder| && e.releaseType == PreferOrder[j]
          && forall x :: x in es ==> x.releaseType !in PreferOrder[..j])
    && (forall x :: x in es && x.releaseType == e.releaseType ==> e.releaseDate <= x.releaseDate)
  }

  /** The Spanish release day of a movie: absent when Spain has no date of an
      accepted type; otherwise the day of the earliest date of the most
      preferred type present. */
  function SpainReleaseDate(results: Option<seq<CountryReleases>>): (r: Option<Day>)
    ensures r.None? <==> forall e :: e in EsDates(results) ==> e.releaseType !in PreferOrder
    ensures r.Some? ==> exists e :: PreferredEarliest(EsDates(results), e) && DayOf(e.releaseDate) == r.value
  {
    var filtered := Filter(EsDates(results), IsAcceptedEntry);
    match TypeFrom(filtered, 0)
    case None =>
      NoPreferredType(results);
      None
    case Some(j) =>
      var e := Earliest(OfType(filtered, PreferOrder[j]));
      PreferredType(results, j);
      Some(DayOf(e.releaseDate))
  }

  lemma NoPreferredType(results: Option<seq<CountryReleases>>)
    requires TypeFrom(Filter(EsDates(results), IsAcceptedEntry), 0).None?
    ensures forall e :: e in EsDates(results) ==> e.releaseType !in PreferOrder
  {
    assert PreferOrder[0..] == PreferOrder;
  }

  lemma PreferredType(results: Option<seq<CountryReleases>>, j: nat)
    requires TypeFrom(Filter(EsDates(results), IsAcceptedEntry), 0) == Some(j)
    ensures j < |PreferOrder|
    ensures var filtered := Filter(EsDates(results), IsAcceptedEntry);
      PreferredEarliest(EsDates(results), Earliest(OfType(filtered, PreferOrder[j])))
  {
    var filtered := Filter(EsDates(results), IsAcceptedEntry);
    var e := Earliest(OfType(filtered, PreferOrder[j]));
    assert PreferOrder[0..j] == PreferOrder[..j];
    forall x | x in EsDates(results) && x.releaseType == e.releaseType ensures e.releaseDate <= x.releaseDate {
      assert x in OfType(filtered, PreferOrder[j]);
    }
  }

  /** The lookup as the service performs it: find the Spanish entry, keep
      the accepted types, walk the preference order and return at the first
      type present, taking the earliest date of that type. */
  method GetSpainReleaseDate(results: Option<seq<CountryReleases>>) returns (r: Option<Day>)
    ensures r == SpainReleaseDate(results)
  {
    if results.None? {
      return None;
    }
    var dates := SpanishDates(results.value);
    if |dates| == 0 {
      return None;
    }
    var filtered := Filter(dates, IsAcceptedEntry);
    if |filtered| == 0 {
      return None;
    }
    var j := 0;
    while j < |PreferOrder|
      invariant 0 <= j <= |PreferOrder|
      invariant TypeFrom(filtered, 0) == TypeFrom(filtered, j)
    {
      var t := PreferOrder[j];
      var ofType := Filter(filtered, (e: ReleaseDateEntry) => e.releaseType == t);
      if |ofType| > 0 {
        var best := EarliestEntry(ofType);
        return Some(DayOf(best.releaseDate));
      }
      j := j + 1;
    }
    assert false;
  }

  /** The `find` for the Spanish entry and its dates (none when absent). */
  method SpanishDates(rs: seq<CountryReleases>) returns (dates: seq<ReleaseDateEntry>)
    ensures dates == EsDates(Some(rs))
  {
    var i := 0;
    while i < |rs| && rs[i].country != "ES"
      invariant 0 <= i <= |rs|
      invariant FindCountry(rs, "ES") == FindCountry(rs[i..], "ES")
    {
      FindCountrySkip(rs, i, "ES");
      i := i + 1;
    }
    dates := if i < |rs| && rs[i].releaseDates.Some? then rs[i].releaseDates.value else [];
  }

  /** An entry of another country is passed over by the search. */
  lemma FindCountrySkip(rs: seq<CountryReleases>, i: nat, country: string)
    requires i < |rs| && rs[i].country != country
    ensures FindCountry(rs[i..], country) == FindCountry(rs[i + 1..], country)
  {
    assert rs[i..][1..] == rs[i + 1..];
  }

  /** The first element after sorting by ascending timestamp. */
  method EarliestEntry(s: seq<ReleaseDateEntry>) returns (best: ReleaseDateEntry)
    requires s != []
    ensures best == Earliest(s)
  {
    best := s[0];
    var k := 1;
    while k < |s|
      invariant 1 <= k <= |s|
      invariant best == Earliest(s[..k])
    {
      assert s[..k + 1][..k] == s[..k];
      if s[k].releaseDate < best.releaseDate {
        best := s[k];
      }
      k := k + 1;
    }
    assert s[..k] == s;
  }

  // ---------------------------------------------------------------------
  // The raw record and its normalisation

  /** A genre object of a details response; its id may be missing. */
  datatype GenreRef = GenreRef(id: Option<int>)

  /** The fields of a details response the normaliser reads. Missing
      provider buckets are empty lists; dates are day numbers. */
  datatype RawDetail = RawDetail(
    id: int,
    title: string,
    name: string,
    overview: string,
    posterPath: string,
    backdropPath: string,
    releaseDate: Option<Day>,
    firstAirDate: Option<Day>,
    voteAverage: real,
    voteCount: int,
    genreIds: Option<seq<int>>,
    genres: Option<seq<GenreRef>>,
    runtime: Option<int>,
    numberOfSeasons: Option<int>,
    numberOfEpisodes: Option<int>,
    episodeRunTime: Option<seq<int>>,
    esFlatrate: seq<Provider>,
    esRent: seq<Provider>,
    esBuy: seq<Provider>,
    releaseResults: Option<seq<CountryReleases>>)

  /** The release day an item gets: for a movie the Spanish date, else the
      global `release_date`; for a series `first_air_date`. */
  function ReleaseOf(content: RawDetail, kind: ContentKind): (r: Option<Day>)
    ensures kind == Tv ==> r == content.firstAirDate
    ensures kind == Movie && SpainReleaseDate(content.releaseResults).Some? ==> r == SpainReleaseDate(content.releaseResults)
    ensures kind == Movie && SpainReleaseDate(content.releaseResults).None? ==> r == content.releaseDate
  {
    if kind == Movie then
      var es := SpainReleaseDate(content.releaseResults);
      if es.Some? then es else content.releaseDate
    else content.firstAirDate
  }

  /** A release that falls after `now` and no later than 90 days after it. */
  predicate Upcoming(d: Day, now: Timestamp) {
    DayStart(d) > now && DayStart(d) <= now + 90 * DayMs
  }

  /** The ids of the genre objects that have one, in order. */
  function GenreRefIds(gs: seq<GenreRef>): (r: seq<int>)
    ensures forall x :: x in r <==> GenreRef(Some(x)) in gs
  {
    if gs == [] then []
    else (if gs[0].id.Some? then [gs[0].id.value] else []) + GenreRefIds(gs[1..])
  }

  function GenresOf(content: RawDetail): (r: seq<int>)
    ensures content.genreIds.Some? && content.genreIds.value != [] ==> r == content.genreIds.value
    ensures (content.genreIds.None? || content.genreIds.value == []) ==>
              forall x :: x in r <==> content.genres.Some? && GenreRef(Some(x)) in content.genres.value
  {
    if content.genreIds.Some? && |content.genreIds.value| > 0 then content.genreIds.value
    else if content.genres.Some? then GenreRefIds(content.genres.value)
    else []
  }

  /** Some provider in the raw Spanish buckets is on the allow-list. */
  predicate HasSupportedProvider(content: RawDetail) {
    exists p :: p in content.esFlatrate + content.esRent + content.esBuy && IsProviderSupported(p.providerId)
  }

  /** `type + "_" + id`. */
  function ItemId(kind: ContentKind, tmdbId: int): string {
    KindName(kind) + "_" + IntToString(tmdbId)
  }

  /** Normalises a raw record, or rejects it. A movie needs a release day;
      an item needs a supported provider, unless it is a movie released
      within the next 90 days. */
  function ProcessContentProviders(content: RawDetail, kind: ContentKind, now: Timestamp): (r: Option<ContentItem>)
    ensures kind == Movie ==>
              (r.Some? <==>
                 ReleaseOf(content, kind).Some? && (HasSupportedProvider(content) || Upcoming(ReleaseOf(content, kind).value, now)))
    ensures kind == Tv ==> (r.Some? <==> HasSupportedProvider(content))
    ensures r.Some? ==> r.value.id == ItemId(kind, content.id) && r.value.tmdbId == content.id && r.value.kind == kind
    ensures r.Some? ==> r.value.providers == Providers(Filter(content.esFlatrate, SupportedEntry),
                                                       Filter(content.esRent, SupportedEntry),
                                                       Filter(content.esBuy, SupportedEntry))
    ensures r.Some? ==> r.value.releaseDate == ReleaseOf(content, kind) && r.value.genres == GenresOf(content)
    ensures r.Some? ==> r.value.firstSeenAt.None?
    ensures r.Some? ==> (kind == Movie <==> r.value.runtime != Absent)
    ensures r.Some? ==> r.value.title == (if kind == Movie then content.title else content.name)
                        && r.value.voteAverage == content.voteAverage && r.value.voteCount == content.voteCount
    ensures r.Some? ==> r.value.overview == content.overview && r.value.posterPath == content.posterPath
                        && r.value.backdropPath == content.backdropPath
    ensures r.Some? && kind == Movie ==>
              r.value.runtime == FieldOf(content.runtime)
              && r.value.seasons == Absent && r.value.episodes == Absent && r.value.episodeRuntime == Absent
    ensures r.Some? && kind == Tv ==>
              && r.value.seasons == FieldOf(content.numberOfSeasons) && r.value.episodes == FieldOf(content.numberOfEpisodes)
              && r.value.episodeRuntime == (if content.episodeRunTime.Some? && |content.episodeRunTime.value| > 0
                                            then Defined(content.episodeRunTime.value[0]) else Undefined)
  {
    var flatrate := Filter(content.esFlatrate, SupportedEntry);
    var rent := Filter(content.esRent, SupportedEntry);
    var buy := Filter(content.esBuy, SupportedEntry);
    var release := ReleaseOf(content, kind);
    assert HasSupportedProvider(content) <==> flatrate != [] || rent != [] || buy != [] by {
      if HasSupportedProvider(content) {
        var p :| p in content.esFlatrate + content.esRent + content.esBuy && IsProviderSupported(p.providerId);
        assert p in flatrate || p in rent || p in buy;
      }
      if flatrate != [] {
        assert flatrate[0] in content.esFlatrate + content.esRent + content.esBuy;
      } else if rent != [] {
        assert rent[0] in content.esFlatrate + content.esRent + content.esBuy;
      } else if buy != [] {
        assert buy[0] in content.esFlatrate + content.esRent + content.esBuy;
      }
    }
    if kind == Movie && release.None? then None
    else
      var allowWithoutProviders := kind == Movie && release.Some? && Upcoming(release.value, now);
      if |flatrate| == 0 && |rent| == 0 && |buy| == 0 && !allowWithoutProviders then None
      else
        Some(ContentItem(
          id := ItemId(kind, content.id),
          tmdbId := content.id,
          kind := kind,
          title := if kind == Movie then content.title else content.name,
          overview := content.overview,
          posterPath := content.posterPath,
          backdropPath := content.backdropPath,
          releaseDate := release,
          voteAverage := content.voteAverage,
          voteCount := content.voteCount,
          genres := GenresOf(content),
          runtime := if kind == Movie then FieldOf(content.runtime) else Absent,
          seasons := if kind == Tv then FieldOf(content.numberOfSeasons) else Absent,
          episodes := if kind == Tv then FieldOf(content.numberOfEpisodes) else Absent,
          episodeRuntime :=
            if kind == Movie then Absent
            else if content.episodeRunTime.Some? && |content.episodeRunTime.value| > 0 then Defined(content.episodeRunTime.value[0])
            else Undefined,
          providers := Providers(flatrate, rent, buy),
          firstSeenAt := None))
  }

  /** A dated movie released within the next 90 days is kept even when no
      supported provider offers it yet, with empty provider lists; a later
      or past release without a supported provider is dropped. */
  lemma {:induction false} UpcomingAdmitted(content: RawDetail, now: Timestamp)
    requires ReleaseOf(content, Movie).Some? && !HasSupportedProvider(content)
    ensures var r := ProcessContentProviders(content, Movie, now);
      (r.Some? <==> Upcoming(ReleaseOf(content, Movie).value, now))
      && (r.Some? ==> r.value.providers == Providers([], [], []))
  {
    var r := ProcessContentProviders(content, Movie, now);
    if r.Some? {
      NoSupportedEntries(content.esFlatrate, content);
      NoSupportedEntries(content.esRent, content);
      NoSupportedEntries(content.esBuy, content);
    }
  }

  /** Without a supported provider, filtering any of the lists leaves
      nothing. */
  lemma {:induction false} NoSupportedEntries(s: seq<Provider>, content: RawDetail)
    requires !HasSupportedProvider(content)
    requires forall q :: q in s ==> q in content.esFlatrate + content.esRent + content.esBuy
    ensures Filter(s, SupportedEntry) == []
  {
    if s != [] {
      assert s[0] in content.esFlatrate + content.esRent + content.esBuy;
      NoSupportedEntries(s[1..], content);
    }
  }

  /** Every provider an accepted item lists is on the allow-list. */
  lemma {:induction false} NormalisedProvidersSupported(content: RawDetail, kind: ContentKind, now: Timestamp)
    requires ProcessContentProviders(content, kind, now).Some?
    ensures forall id :: id in ProviderIds(ProcessContentProviders(content, kind, now).value.providers) ==> IsProviderSupported(id)
  {
    var p := ProcessContentProviders(content, kind, now).value.providers;
    SupportedIds(p.flatrate);
    SupportedIds(p.rent);
    SupportedIds(p.buy);
  }

  lemma {:induction false} SupportedIds(s: seq<Provider>)
    requires forall q :: q in s ==> SupportedEntry(q)
    ensures forall id :: id in ProviderIdsOf(s) ==> IsProviderSupported(id)
  {
    forall id | id in ProviderIdsOf(s) ensures IsProviderSupported(id) {
      var k :| 0 <= k < |s| && ProviderIdsOf(s)[k] == id;
      assert s[k] in s;
    }
  }

  /** Distinct (type, TMDB id) pairs give distinct item ids, so a movie and a
      series with the same TMDB id never share a record. */
  lemma {:induction false} ItemIdInjective(k1: ContentKind, id1: int, k2: ContentKind, id2: int)
    requires ItemId(k1, id1) == ItemId(k2, id2)
    ensures k1 == k2 && id1 == id2
  {
    var s1, s2 := ItemId(k1, id1), ItemId(k2, id2);
    assert s1[2] == (if k1 == Movie then 'v' else '_');
    assert s2[2] == (if k2 == Movie then 'v' else '_');
    assert k1 == k2;
    var n := |KindName(k1)| + 1;
    assert IntToString(id1) == s1[n..] == s2[n..] == IntToString(id2);
    IntToStringInjective(id1, id2);
  }
}

=== FILE: use_content.dfy ===
/** The query the content hook runs over the store (`loadContent`), and the
    staleness test that decides whether the hook starts a sync
    (`isDataStale`). The hook's React state is not modelled: a query reads a
    snapshot of the store and returns the list it would show. */
module UseContent {
  import opened Base
  import opened Tmdb
  import opened Sorting
  import opened ContentStorage

  datatype TypeFilter = AllTypes | OnlyKind(kind: ContentKind)
  datatype TimeFilter = Today | Week | Month | AllTime
  datatype SortBy = Popularity | Rating | Newest

  /** The hook's options, defaults applied: `contentType = 'all'`,
      `timeFilter = 'all'`, `sortBy = 'popularity'`, `strictTimeFilter =
      false`. */
  datatype Query = Query(contentType: TypeFilter, providerId: Option<int>, genreId: Option<int>,
                         timeFilter: TimeFilter, sortBy: SortBy, limit: Option<int>, strictTimeFilter: bool)

  /** `if (x)` on an optional number: present and not zero. */
  predicate Truthy(o: Option<int>) {
    o.Some? && o.value != 0
  }

  /** No fallback: the strict flag, or the `'today'` filter. */
  predicate Strict(q: Query) {
    q.strictTimeFilter || q.timeFilter == Today
  }

  /** The time filters. `today` is the Madrid calendar day; `now` the
      current instant, from which the month filter counts 30 days back. */
  predicate InTime(x: ContentItem, tf: TimeFilter, today: Day, now: Timestamp) {
    match tf
    case Today => x.releaseDate == Some(today)
    case Week => InWindow(x, today - 7, today)
    case Month => SeenOrReleasedSince(x, now - 30 * DayMs)
    case AllTime => true
  }

  /** The time, provider and genre filters together. */
  predicate Matches(x: ContentItem, q: Query, today: Day, now: Timestamp) {
    && InTime(x, q.timeFilter, today, now)
    && (Truthy(q.providerId) ==> HasProvider(x, q.providerId.value))
    && (Truthy(q.genreId) ==> q.genreId.value in x.genres)
  }

  /** A movie shown needs a release date; a series need not. */
  predicate Dated(x: ContentItem) {
    x.kind != Movie || x.releaseDate.Some?
  }

  predicate OfKind(x: ContentItem, tf: TypeFilter) {
    tf.OnlyKind? ==> x.kind == tf.kind
  }

  function InTimeTest(tf: TimeFilter, today: Day, now: Timestamp): ContentItem -> bool {
    (x: ContentItem) => InTime(x, tf, today, now)
  }

  function ProviderTest(providerId: int): ContentItem -> bool {
    (x: ContentItem) => HasProvider(x, providerId)
  }

  function GenreTest(genreId: int): ContentItem -> bool {
    (x: ContentItem) => genreId in x.genres
  }

  function KindTest(kind: ContentKind): ContentItem -> bool {
    (x: ContentItem) => x.kind == kind
  }

  function DatedTest(): ContentItem -> bool {
    (x: ContentItem) => Dated(x)
  }

  // ---------------------------------------------------------------------
  // The pipeline, stage by stage

  /** The time filter, when one is chosen. */
  function Timed(items: seq<ContentItem>, tf: TimeFilter, today: Day, now: Timestamp): (r: seq<ContentItem>)
    ensures forall x :: x in r <==> x in items && InTime(x, tf, today, now)
  {
    if tf != AllTime then Filter(items, InTimeTest(tf, today, now)) else items
  }

  /** The provider filter, when a provider is given. */
  function ByProvider(items: seq<ContentItem>, providerId: Option<int>): (r: seq<ContentItem>)
    ensures forall x :: x in r <==> x in items && (Truthy(providerId) ==> HasProvider(x, providerId.value))
  {
    if Truthy(providerId) then Filter(items, ProviderTest(providerId.value)) else items
  }

  /** The genre filter, when a genre is given. */
  function ByGenre(items: seq<ContentItem>, genreId: Option<int>): (r: seq<ContentItem>)
    ensures forall x :: x in r <==> x in items && (Truthy(genreId) ==> genreId.value in x.genres)
  {
    if Truthy(genreId) then Filter(items, GenreTest(genreId.value)) else items
  }

  /** The available content narrowed by the time, provider and genre
      filters that apply. */
  function Narrowed(t: Table, q: Query, today: Day, now: Timestamp): (r: seq<ContentItem>)
    ensures forall x :: x in r <==> x in t.AvailableContent() && Matches(x, q, today, now)
  {
    ByGenre(ByProvider(Timed(t.AvailableContent(), q.timeFilter, today, now), q.providerId), q.genreId)
  }

  /** What replaces an empty narrowed list: the provider's content, else
      the genre's, else (for the week filter) the month's news, and when
      that is empty too all available content. */
  function Fallback(t: Table, q: Query, now: Timestamp): (r: seq<ContentItem>)
    ensures Truthy(q.providerId) ==> r == t.ContentByProvider(q.providerId.value)
    ensures Truthy(q.providerId) ==> forall x :: x in r ==> HasProvider(x, q.providerId.value)
    ensures Truthy(q.providerId) && t.Valid() ==>
              forall id :: id in t.content ==>
                (t.content[id].item in r <==> t.content[id].isAvailable && HasProvider(t.content[id].item, q.providerId.value))
    ensures !Truthy(q.providerId) && Truthy(q.genreId) ==> r == t.ContentByGenre(q.genreId.value)
    ensures !Truthy(q.providerId) && Truthy(q.genreId) ==> forall x :: x in r ==> q.genreId.value in x.genres
    ensures !Truthy(q.providerId) && Truthy(q.genreId) && t.Valid() ==>
              forall id :: id in t.content ==>
                (t.content[id].item in r <==> t.content[id].isAvailable && q.genreId.value in t.content[id].item.genres)
    ensures !Truthy(q.providerId) && !Truthy(q.genreId) && q.timeFilter == Week && |t.ThisMonthNews(now)| > 0 ==>
              r == t.ThisMonthNews(now)
    ensures !Truthy(q.providerId) && !Truthy(q.genreId) && (q.timeFilter != Week || |t.ThisMonthNews(now)| == 0) ==>
              r == t.AvailableContent()
  {
    if Truthy(q.providerId) then t.ContentByProvider(q.providerId.value)
    else if Truthy(q.genreId) then t.ContentByGenre(q.genreId.value)
    else
      var month := if q.timeFilter == Week then t.ThisMonthNews(now) else [];
      if |month| == 0 then t.AvailableContent() else month
  }

  /** The narrowed list, or the fallback when it is empty and the query is
      not strict. */
  function Candidates(t: Table, q: Query, today: Day, now: Timestamp): (r: seq<ContentItem>)
    ensures Strict(q) || |Narrowed(t, q, today, now)| > 0 ==> r == Narrowed(t, q, today, now)
    ensures Strict(q) || |Narrowed(t, q, today, now)| > 0 ==>
              forall x :: x in r <==> x in t.AvailableContent() && Matches(x, q, today, now)
    ensures !Strict(q) && |Narrowed(t, q, today, now)| == 0 ==> r == Fallback(t, q, now)
  {
    var narrowed := Narrowed(t, q, today, now);
    if |narrowed| == 0 && !Strict(q) then Fallback(t, q, now) else narrowed
  }

  /** The type filter and the dated-movie filter. */
  function Finished(items: seq<ContentItem>, q: Query): (r: seq<ContentItem>)
    ensures forall x :: x in r <==> x in items && OfKind(x, q.contentType) && Dated(x)
  {
    var typed := if q.contentType.OnlyKind? then Filter(items, KindTest(q.contentType.kind)) else items;
    Filter(typed, DatedTest())
  }

  /** The sort the query asks for: by rating or by release date, both
      highest first; none for popularity. */
  function Ordered(items: seq<ContentItem>, sortBy: SortBy): (r: seq<ContentItem>)
    ensures multiset(r) == multiset(items)
    ensures forall x :: x in r <==> x in items
    ensures |r| == |items|
    ensures sortBy == Rating ==> SortedDesc(r, ItemVoteKey)
    ensures sortBy == Newest ==> SortedDesc(r, ItemDateKey)
    ensures sortBy == Popularity ==> r == items
  {
    match sortBy
    case Rating => SortDescMembers(items, ItemVoteKey); SortDesc(items, ItemVoteKey)
    case Newest => SortDescMembers(items, ItemDateKey); SortDesc(items, ItemDateKey)
    case Popularity => items
  }

  /** The cut to `limit` items when a positive limit is given. */
  function Limited(items: seq<ContentItem>, limit: Option<int>): (r: seq<ContentItem>)
    ensures limit.Some? && limit.value > 0 ==> |r| == Min(limit.value, |items|)
    ensures !(limit.Some? && limit.value > 0) ==> r == items
    ensures r == items[..|r|]
  {
    if limit.Some? && limit.value > 0 then SliceTo(items, limit.value) else items
  }

  /** The second half of `loadContent`: the type and dated-movie filters,
      the sort and the cut. */
  function Shaped(items: seq<ContentItem>, q: Query): (r: seq<ContentItem>)
    ensures forall x :: x in r ==> x in items && Dated(x) && OfKind(x, q.contentType)
    ensures q.sortBy == Rating ==> SortedDesc(r, ItemVoteKey)
    ensures q.sortBy == Newest ==> SortedDesc(r, ItemDateKey)
    ensures |r| == if q.limit.Some? && q.limit.value > 0 then Min(q.limit.value, |Finished(items, q)|)
                   else |Finished(items, q)|
    ensures r == Ordered(Finished(items, q), q.sortBy)[..|r|]
  {
    var ordered := Ordered(Finished(items, q), q.sortBy);
    var r := Limited(ordered, q.limit);
    SortedPrefix(ordered, |r|);
    r
  }

  /** What `loadContent` shows: the candidates, finished, ordered and cut. */
  function Loaded(t: Table, q: Query, today: Day, now: Timestamp): (r: seq<ContentItem>)
    ensures forall x :: x in r ==> x in Candidates(t, q, today, now) && Dated(x) && OfKind(x, q.contentType)
    ensures q.sortBy == Rating ==> SortedDesc(r, ItemVoteKey)
    ensures q.sortBy == Newest ==> SortedDesc(r, ItemDateKey)
    ensures q.limit.Some? && q.limit.value > 0 ==> |r| <= q.limit.value
    ensures |r| == if q.limit.Some? && q.limit.value > 0
                   then Min(q.limit.value, |Finished(Candidates(t, q, today, now), q)|)
                   else |Finished(Candidates(t, q, today, now), q)|
    ensures r == Ordered(Finished(Candidates(t, q, today, now), q), q.sortBy)[..|r|]
  {
    Shaped(Candidates(t, q, today, now), q)
  }

  /** A prefix of a sorted list is sorted. */
  lemma SortedPrefix(s: seq<ContentItem>, n: nat)
    requires n <= |s|
    ensures SortedDesc(s, ItemVoteKey) ==> SortedDesc(s[..n], ItemVoteKey)
    ensures SortedDesc(s, ItemDateKey) ==> SortedDesc(s[..n], ItemDateKey)
  {
  }

  /** `loadContent`: the list is narrowed, replaced by a fallback, filtered,
      sorted and cut in turn, as the hook does. */
  method LoadContent(t: Table, q: Query, today: Day, now: Timestamp) returns (items: seq<ContentItem>)
    ensures items == Loaded(t, q, today, now)
  {
    items := SelectCandidates(t, q, today, now);
    ghost var candidates := items;
    if q.contentType.OnlyKind? {
      items := Filter(items, KindTest(q.contentType.kind));
    }
    items := Filter(items, DatedTest());
    if q.sortBy == Rating {
      items := SortDesc(items, ItemVoteKey);
    } else if q.sortBy == Newest {
      items := SortDesc(items, ItemDateKey);
    }
    if q.limit.Some? && q.limit.value > 0 {
      items := SliceTo(items, q.limit.value);
    }
    assert items == Shaped(candidates, q);
  }

  /** The first half of `loadContent`: the available content, narrowed by
      the time, provider and genre filters, then the fallback. */
  method SelectCandidates(t: Table, q: Query, today: Day, now: Timestamp) returns (items: seq<ContentItem>)
    ensures items == Candidates(t, q, today, now)
  {
    items := t.AvailableContent();
    if q.timeFilter != AllTime {
      items := Filter(items, InTimeTest(q.timeFilter, today, now));
    }
    if Truthy(q.providerId) {
      items := Filter(items, ProviderTest(q.providerId.value));
    }
    if Truthy(q.genreId) {
      items := Filter(items, GenreTest(q.genreId.value));
    }
    assert items == Narrowed(t, q, today, now);
    if |items| == 0 && !Strict(q) {
      if Truthy(q.providerId) {
        items := t.ContentByProvider(q.providerId.value);
      } else if Truthy(q.genreId) {
        items := t.ContentByGenre(q.genreId.value);
      } else {
        if q.timeFilter == Week {
          items := t.ThisMonthNews(now);
        }
        if |items| == 0 {
          items := t.AvailableContent();
        }
      }
    }
  }

  // ---------------------------------------------------------------------
  // Properties of the query

  /** A strict query never falls back: every item passes every filter
      that applies. */
  lemma LoadedStrict(t: Table, q: Query, today: Day, now: Timestamp)
    requires Strict(q)
    ensures forall x :: x in Loaded(t, q, today, now) ==> x in t.AvailableContent() && Matches(x, q, today, now)
  {
  }

  /** With a provider given, every item lists the provider, fallback or
      not. */
  lemma LoadedProvider(t: Table, q: Query, today: Day, now: Timestamp)
    requires Truthy(q.providerId)
    ensures forall x :: x in Loaded(t, q, today, now) ==> HasProvider(x, q.providerId.value)
  {
  }

  /** With a genre given and no provider, every item has the genre, fallback
      or not. (With a provider as well, the fallback is the provider's
      content, whatever its genres.) */
  lemma LoadedGenre(t: Table, q: Query, today: Day, now: Timestamp)
    requires Truthy(q.genreId) && !Truthy(q.providerId)
    ensures forall x :: x in Loaded(t, q, today, now) ==> q.genreId.value in x.genres
  {
  }

  /** The `'today'` filter is strict: every item is released today. */
  lemma LoadedToday(t: Table, q: Query, today: Day, now: Timestamp)
    requires q.timeFilter == Today
    ensures forall x :: x in Loaded(t, q, today, now) ==> x.releaseDate == Some(today)
  {
    LoadedStrict(t, q, today, now);
  }

  /** The week filter keeps the last seven days' releases, unless a
      fallback replaced an empty result. */
  lemma LoadedWeek(t: Table, q: Query, today: Day, now: Timestamp)
    requires q.timeFilter == Week
    requires q.strictTimeFilter || |Narrowed(t, q, today, now)| > 0
    ensures forall x :: x in Loaded(t, q, today, now) ==> InWindow(x, today - 7, today)
  {
  }

  /** The week filter without the strict flag, no release in the last
      seven days and no provider or genre: the month's news are shown
      instead, and only when there are none everything available. */
  lemma LoadedWeekFallback(t: Table, q: Query, today: Day, now: Timestamp)
    requires q.timeFilter == Week && !q.strictTimeFilter && !Truthy(q.providerId) && !Truthy(q.genreId)
    requires |Narrowed(t, q, today, now)| == 0
    ensures |t.ThisMonthNews(now)| > 0 ==>
              forall x :: x in Loaded(t, q, today, now) ==> SeenOrReleasedSince(x, now - 30 * DayMs)
    ensures forall x :: x in Loaded(t, q, today, now) ==> x in t.ThisMonthNews(now) || x in t.AvailableContent()
    ensures |t.ThisMonthNews(now)| > 0 ==> Loaded(t, q, today, now) == Shaped(t.ThisMonthNews(now), q)
    ensures |t.ThisMonthNews(now)| == 0 ==> Loaded(t, q, today, now) == Shaped(t.AvailableContent(), q)
  {
  }

  /** Without a provider, a genre or a time filter, nothing is narrowed
      and the query shows every available item of the type (before the
      limit). */
  lemma LoadedAll(t: Table, q: Query, today: Day, now: Timestamp)
    requires t.Valid()
    requires !Truthy(q.providerId) && !Truthy(q.genreId) && q.timeFilter == AllTime
    requires q.limit.None?
    ensures forall id :: id in t.content && Shown(t.content[id]) && OfKind(t.content[id].item, q.contentType) ==>
              t.content[id].item in Loaded(t, q, today, now)
  {
    var r := Loaded(t, q, today, now);
    forall id | id in t.content && Shown(t.content[id]) && OfKind(t.content[id].item, q.contentType)
      ensures t.content[id].item in r
    {
      var x := t.content[id].item;
      assert x in Narrowed(t, q, today, now);
      assert x in Finished(Candidates(t, q, today, now), q);
    }
  }

  // ---------------------------------------------------------------------
  // Staleness

  /** `isDataStale`: no full sync recorded, or the last one more than 24
      hours before `now` (the hours as a fraction, compared with 24). */
  function IsDataStale(lastFullSync: Option<Timestamp>, now: Timestamp): (b: bool)
    ensures b <==> lastFullSync.None? || now - lastFullSync.value > DayMs
  {
    if lastFullSync.None? then true
    else
      var hours := (now - lastFullSync.value) as real / HourMs as real;
      assert hours > 24.0 <==> now - lastFullSync.value > DayMs by {
        assert (now - lastFullSync.value) as real == hours * HourMs as real;
      }
      hours > 24.0
  }
}
